=== FILE: README.md ===
# my-mf-canvas statement ingestion, in Dafny

This project models the core of my-mf-canvas, a personal mutual-fund tracker, as
pure Dafny functions, and it proves properties of them. The core is the path an
NSDL Consolidated Account Statement (CAS) takes into the app:

- **Two client-side readers of the statement text.** One is `parseMutualFundData` in
  `src/lib/pdfProcessor.ts`. The other is `parseFunds` in the upload dialog. They are
  two different line-by-line block machines, and they are modelled separately.
- **The upload dialog's stage machine.** It includes the decryption wrapper and the
  mapping of errors to toasts. The processing overlay draws its steps.
- **The `portfolio_holdings` table as the client hook uses it.** This covers the upsert
  keyed by (user, scheme code, folio), the per-user query, and deletion.
- **The Flask service.** This covers the extension check, the request validation order,
  the error classes of the two endpoints, and the summary fold over the parsed accounts.
- **The portfolio page's arithmetic.** This is the per-holding derived values and the
  guarded totals.
- **The smaller pure pieces around them.** These are the file validators of the two
  upload components, the weekly digest, the canvas and its fund form, the watchlist,
  the news filter, the onboarding wizard and the health-score card.

The modelling choices:

- All money is `real`, so every equation holds exactly.
- A JavaScript `NaN` is `None` in an `Option<real>`, so number extraction never fails.
- The PDF library, the statement parser used by the service, the clock, `Math.random`
  and the network are parameters. They are an outcome value, a function, `now`, `rx`
  and `ry`, or a `server` function.

Modules follow the source files:

| module | source |
|---|---|
| `PdfProcessor` | `src/lib/pdfProcessor.ts` |
| `UploadModal` | `src/components/Portfolio/UploadNSDLModal.tsx` |
| `ProcessingOverlay` | `src/components/Portfolio/Upload/ProcessingOverlay.tsx` |
| `FileUploadZone` | `src/components/Portfolio/Upload/FileUploadZone.tsx` |
| `HoldingsStore` | `src/hooks/usePortfolioHoldings.ts` |
| `CasBackend` | `backend/app.py` |
| `PortfolioIndex` | `src/pages/Index.tsx` |
| `NsdlUploader` | `src/components/NSDLUploader.tsx` |
| `WeeklyDigest` | `supabase/functions/send-weekly-digest/index.ts` |
| `Canvas`, `FundForm` | `src/pages/Canvas.tsx`, `src/FundForm.tsx` |
| `Watchlist`, `KeyedLists` | `src/pages/Watchlist.tsx`, `src/components/Watchlist/WatchlistTreeTable.tsx` |
| `News` | `src/pages/News.tsx` |
| `Onboarding` | `src/components/Onboarding/OnboardingWizard.tsx` |
| `HealthScore` | `src/components/Portfolio/PortfolioHealthScore.tsx` |

The shared helpers are:

- `Wrappers`: `Option` and `Result`.
- `Text`: ASCII case folding, ECMAScript white space, trimming, substring search,
  splitting and decimal rendering.
- `Numbers`: digit runs, `parseFloat` on a numeric token, JavaScript truthiness and
  Python's `int()` on a float.
- `Seqs`: filter, subsequence and sums.
- `PdfDocument`: an uploaded file, and the outcome of opening a PDF.

## Model

| member | source | states |
|---|---|---|
| PdfProcessor.DetectCategory | src/lib/pdfProcessor.ts:153-160 | the category is the first row of the table (equity/elss, debt/bond, hybrid/balanced, liquid/money) with a keyword in the lower-cased name; no earlier row matches; Other only when no row matches |
| PdfProcessor.DetectCategoryIgnoresCase | src/lib/pdfProcessor.ts:154 | lower-casing the name first does not change the category |
| PdfProcessor.DetectCategoryExtend | src/lib/pdfProcessor.ts:155-159 | appending text to a name can only move it to an earlier row of the rule table |
| PdfProcessor.FolioAt | src/lib/pdfProcessor.ts:112 | a folio match is 6 to 12 digits, a slash, then 2 to 4 digits |
| PdfProcessor.FirstSome | src/lib/pdfProcessor.ts:112-132 | the leftmost search behind `line.match`: the result is the first present candidate from the start index, and every candidate before it is absent; absent means every candidate is absent |
| PdfProcessor.SearchIsLeftmost | src/lib/pdfProcessor.ts:112-132 | each pattern search of a line is that leftmost search over the positions where a match can start, so it yields the capture of the first match |
| PdfProcessor.Finalize | src/lib/pdfProcessor.ts:84-94 | a block is emitted iff it has a name and truthy units and NAV; the emitted fund has value = units × NAV, returns = value − (invested or 0), and a percentage that is returns / invested × 100 when invested is truthy and 0 otherwise |
| PdfProcessor.Emit | src/lib/pdfProcessor.ts:84-93 | finalising the open block appends at most one well-formed fund, named after that block |
| PdfProcessor.SetFields | src/lib/pdfProcessor.ts:111-133 | field lines never rename a block or change its category |
| PdfProcessor.Run | src/lib/pdfProcessor.ts:81-134 | every fund the loop emits satisfies the derived-value invariant |
| PdfProcessor.ParseLines | src/lib/pdfProcessor.ts:78-146 | every fund in the output satisfies the derived-value invariant, so no output divides by zero |
| PdfProcessor.EmittedFollowHeaders | src/lib/pdfProcessor.ts:83-108 | the emitted names are the trimmed header lines, in header order and as a subsequence; the output is no longer than the number of headers |
| PdfProcessor.TrackFollowsHeaders | src/lib/pdfProcessor.ts:83-108 | the emitted blocks plus the open block are named after header lines, in header order |
| PdfProcessor.StepTrackHeader | src/lib/pdfProcessor.ts:83-108 | a header line either appends its trimmed text to the names of the emitted and open blocks, or replaces the open block's name with it |
| PdfProcessor.StepTrackFieldLine | src/lib/pdfProcessor.ts:111-133 | a line that is not a header emits nothing and opens no block |
| PdfProcessor.RunAppend | src/lib/pdfProcessor.ts:81-134 | the loop over a + b is the loop over a, then over b |
| PdfProcessor.NoHeaderNoBlock | src/lib/pdfProcessor.ts:113-133 | without a header no block is open, so field lines change nothing |
| PdfProcessor.LeadingFieldLinesIgnored | src/lib/pdfProcessor.ts:113-133 | field lines before the first header do not affect the output |
| PdfProcessor.LastAmountLineWins | src/lib/pdfProcessor.ts:117-133 | inside a block, the last units / NAV / invested line decides that field |
| PdfProcessor.LastFolioLineWins | src/lib/pdfProcessor.ts:111-115 | inside a block, the last folio line decides the folio |
| PdfProcessor.HeaderFieldsGoToNewBlock | src/lib/pdfProcessor.ts:83-133 | a header line finalises the previous block and its own fields go to the new block, named by the trimmed line |
| PdfProcessor.ProcessPdfFile | src/lib/pdfProcessor.ts:19-59 | zero funds fails with "No mutual fund data found in the statement"; PasswordException maps to the incorrect-password message; InvalidPDFException maps to the not-a-statement message; any other error passes through unchanged; success returns the parsed, well-formed, non-empty list |
| UploadModal.IsinIsNeverHeader | src/components/Portfolio/UploadNSDLModal.tsx:108-113 | an ISIN line (INF and 10 more characters) is never a header and is classified as an ISIN |
| UploadModal.FolioField | src/components/Portfolio/UploadNSDLModal.tsx:116 | the folio is the trimmed text between the first and second ':' (or to the end of the line when there is one ':'); it is null exactly when that text is blank; a present folio is free of ':' and trimmed at both ends |
| UploadModal.FirstNumberToken | src/components/Portfolio/UploadNSDLModal.tsx:124 | the first match of `[\d,]+\.?\d*` is a match of the pattern that occurs in the line; no digit or comma comes before it, and no longer match starts where it starts; there is none iff the line has no digit or comma |
| Numbers.TokenEndIsLongestMatch | src/components/Portfolio/UploadNSDLModal.tsx:124 | from a digit or comma, the scanned token matches `[\d,]+\.?\d*` and every longer piece of the line starting there does not (the greedy extent) |
| UploadModal.Apply | src/components/Portfolio/UploadNSDLModal.tsx:111-129 | a non-header line leaves a block open iff one was open or it sets a field; an ISIN line sets the scheme code to itself, a Folio line the folio, a number line in range the units, a Value/NAV line with a number the value read from its first number; a number line out of range, a Value/NAV line without a number and any other line change nothing; the name is kept and at most one field changes |
| UploadModal.LastFieldLineWins | src/components/Portfolio/UploadNSDLModal.tsx:107-130 | within a run of non-header lines, each field of the open block ends as the last line that sets it decided, and keeps its old value when no line sets it |
| UploadModal.LastBlockOfStatement | src/components/Portfolio/UploadNSDLModal.tsx:107-132 | the last block of a statement is named after its last header and holds, per field, what the last line after that header setting it decided |
| UploadModal.RunFunds | src/components/Portfolio/UploadNSDLModal.tsx:107-130 | every block holds well-formed fields; the named blocks are the header lines in order; only a first block can be unnamed |
| UploadModal.CleanLines | src/components/Portfolio/UploadNSDLModal.tsx:103 | the lines are exactly the trimmed lines of the text with the blank ones filtered out, in order: every non-blank trimmed line is kept, and every kept line is non-empty and trimmed at both ends |
| UploadModal.ParseFunds | src/components/Portfolio/UploadNSDLModal.tsx:102-132 | incomplete blocks are kept; there are as many blocks as headers, or one more; every block after the first is named |
| UploadModal.NamelessBlockIff | src/components/Portfolio/UploadNSDLModal.tsx:107-132 | there is one block more than headers iff some line that sets a field comes before the first header |
| UploadModal.ParseFundsNamelessFirstBlock | src/components/Portfolio/UploadNSDLModal.tsx:102-132 | a statement yields one block more than it has headers iff a field-setting line precedes its first header, and that extra first block is unnamed |
| UploadModal.ToRow | src/components/Portfolio/UploadNSDLModal.tsx:134-141 | rows carry the signed-in user; the defaults are "UNKNOWN" and "Unknown Fund"; units default to 0; the invested amount equals the current value (0 when absent); NAV, returns and percentage are 0; the category is null |
| UploadModal.TryDecrypt | src/components/Portfolio/UploadNSDLModal.tsx:75-97 | the first attempt passes `password` or undefined; a password exception or "password" message gives "Incorrect password"; InvalidPDFException gives "Invalid PDF file"; one retry happens iff the password is empty and the error is of neither kind; encrypted is reported iff the first attempt succeeded with a password |
| UploadModal.RetryRepeatsFirstAttempt | src/components/Portfolio/UploadNSDLModal.tsx:86-93 | the retry passes the same argument as the first attempt; a failed retry ends in "Failed to parse PDF" |
| UploadModal.ToastMessage | src/components/Portfolio/UploadNSDLModal.tsx:195-201 | the password toast appears iff the message contains "password"; the no-data toast appears iff it does not but contains "mutual fund"; otherwise the generic toast |
| UploadModal.HandleSubmit | src/components/Portfolio/UploadNSDLModal.tsx:144-206 | without a file nothing happens; the dialog closes iff the text is read, at least one block is found and a user is signed in, and then the imported batch is exactly the rows of the parsed blocks under that user, after stages 1/15, 2/40, 3/70, 4/100; a failure sets a prefix of those stages, then resets step and progress to 0, stops processing, keeps file and password, and shows an error toast |
| UploadModal.FailedSubmitCanRetry | src/components/Portfolio/UploadNSDLModal.tsx:202-219 | a submit the button allows always starts processing, and after a failure the button is enabled again |
| UploadModal.PasswordErrorToast | src/components/Portfolio/UploadNSDLModal.tsx:80-81 | a password exception on the first attempt ends in the incorrect-password toast |
| UploadModal.InvalidPdfIsNotAPasswordError | src/components/Portfolio/UploadNSDLModal.tsx:83-84 | an invalid PDF is reported with the generic toast, never as a password error |
| UploadModal.NoFundsToast | src/components/Portfolio/UploadNSDLModal.tsx:162 | text with no fund block ends in the no-data toast and imports nothing |
| UploadModal.NoFundsMessageToast | src/components/Portfolio/UploadNSDLModal.tsx:195-199 | the no-funds error maps to the no-data toast |
| UploadModal.NoUserMessageToast | src/components/Portfolio/UploadNSDLModal.tsx:195-200 | the not-authenticated error maps to the generic toast |
| UploadModal.NoUserToast | src/components/Portfolio/UploadNSDLModal.tsx:168-169 | funds found while nobody is signed in end in the generic toast, and nothing is imported |
| ProcessingOverlay.IconStatus | src/components/Portfolio/Upload/ProcessingOverlay.tsx:32-38 | each step is exactly one of done (step > id), active (step = id) or pending (step < id) |
| ProcessingOverlay.LabelMatchesIcon | src/components/Portfolio/Upload/ProcessingOverlay.tsx:39-46 | the label's style agrees with the icon: highlighted iff active, muted iff done, faded iff pending |
| ProcessingOverlay.ImportLabel | src/components/Portfolio/Upload/ProcessingOverlay.tsx:17 | the step-3 label shows the fund count, or "…" when the count is 0 |
| ProcessingOverlay.ZeroCountHasNoDigit | src/components/Portfolio/Upload/ProcessingOverlay.tsx:17 | with a count of 0 the step-3 label contains no digit |
| ProcessingOverlay.Overlay | src/components/Portfolio/Upload/ProcessingOverlay.tsx:11-19 | nothing is rendered iff the overlay is closed; otherwise four steps with ids 1 to 4 |
| ProcessingOverlay.OverlayShape | src/components/Portfolio/Upload/ProcessingOverlay.tsx:30-38 | at most one step is active; done steps come before the active one, and pending steps after it |
| ProcessingOverlay.OverlayEnds | src/components/Portfolio/Upload/ProcessingOverlay.tsx:32-38 | at step 0 all steps are pending; at step 4, steps 1 to 3 are done and step 4 is active |
| ProcessingOverlay.StagesAdvanceOneStep | src/components/Portfolio/UploadNSDLModal.tsx:148-188 | at the k-th stage of the upload dialog step k is active, earlier steps are done, later ones are pending, and progress rises from stage to stage |
| FileUploadZone.HandleDrop | src/components/Portfolio/Upload/FileUploadZone.tsx:12-21 | a drop selects a file iff one is present, it is application/pdf and its size is at most 15 MiB; the selected file is the first dropped |
| FileUploadZone.HandleFileInput | src/components/Portfolio/Upload/FileUploadZone.tsx:23-28 | the picker selects the first file whenever there is one, with no type or size check; an empty selection selects nothing |
| FileUploadZone.PickerAcceptsWhatDropAccepts | src/components/Portfolio/Upload/FileUploadZone.tsx:12-28 | whatever a drop accepts the picker accepts too; the picker also accepts a non-PDF that the drop refuses |
| FileUploadZone.DropSizeMonotone | src/components/Portfolio/Upload/FileUploadZone.tsx:16 | a drop accepts a larger file only if it accepts the smaller one |
| HoldingsStore.Upsert | src/hooks/usePortfolioHoldings.ts:53-56 | one write under the key (user, scheme code, folio) replaces an existing row's values and keeps its id and creation time, or inserts a new row; no other key changes |
| HoldingsStore.UpsertAll | src/hooks/usePortfolioHoldings.ts:46-58 | after the batch, the keys are the old keys plus the batch keys; rows outside the batch are untouched; new rows belong to the hook's user |
| HoldingsStore.UpsertAllStoresBatch | src/hooks/usePortfolioHoldings.ts:46-58 | with distinct keys, each batch element is what its key holds afterwards, under the hook's user |
| HoldingsStore.Import | src/hooks/usePortfolioHoldings.ts:42-62 | it fails with "User not authenticated" iff there is no user, and then the store is untouched; otherwise every element is written under the hook's user id, overriding the one it carried, rows outside the batch are untouched, and the written rows are returned in batch order |
| HoldingsStore.UpsertAllStored | src/hooks/usePortfolioHoldings.ts:46-58 | a batch already stored changes nothing |
| HoldingsStore.ImportIdempotent | src/hooks/usePortfolioHoldings.ts:46-58 | importing the same batch twice leaves the table as importing it once |
| HoldingsStore.InsertNewestFirst | src/hooks/usePortfolioHoldings.ts:34 | the result is ordered newest first and holds exactly the old rows and the new one |
| HoldingsStore.Query | src/hooks/usePortfolioHoldings.ts:25-40 | no user gives []; otherwise exactly that user's stored rows, each once, newest first |
| HoldingsStore.DeleteHolding | src/hooks/usePortfolioHoldings.ts:73-81 | the row with the id is removed and every other row is kept unchanged |
| CasBackend.AllowedFileIff | backend/app.py:24-25 | a name is allowed iff it has a '.' and the text after the last '.' lower-cases to "pdf" |
| CasBackend.FullErrorReply | backend/app.py:79-96 | "password" or "decrypt" in the lower-cased message gives 401; otherwise "parse" gives 400; otherwise 500; the message is returned as the details |
| CasBackend.SummaryErrorReply | backend/app.py:203-214 | "password" or "decrypt" gives 401, anything else 500 |
| CasBackend.ErrorClassesAgree | backend/app.py:82-96 | both endpoints agree on the 401 class, and a full-endpoint 400 is a summary 500 |
| CasBackend.ParseNsdl | backend/app.py:38-102 | a body over the 16 MiB limit gets the outer 500 "Server error" before any check; then missing file, empty name, disallowed extension and empty password each get 400, in that order and before any parsing; a failed save of the upload gets the outer 500 "Server error" unparsed; otherwise the data with 200, or the classified error |
| CasBackend.ParseNsdlSummary | backend/app.py:109-220 | a body over the 16 MiB limit gets the outer 500 "Server error" before any check; then missing file, then empty password, get 400; a failed save of the upload gets the outer 500 "Server error" unparsed; otherwise the summary with 200 when every conversion in the fold succeeds, and the classified error for a parser exception or a failed conversion |
| CasBackend.OverLimitIsServerError | backend/app.py:22 | a request body over `MAX_CONTENT_LENGTH` (16 MiB) is parsed by neither endpoint; both answer the same 500 "Server error", whatever the form holds |
| CasBackend.ConversionErrorIsParseFailure | backend/app.py:166-214 | within the size limit, parsed data holding a field `float()` or `int()` cannot convert is answered with the first such exception's text: 401 when it mentions a password, else 500 "Failed to parse PDF" |
| CasBackend.ConvertEquity | backend/app.py:166-172 | an equity fails with the first raising conversion among its value, then (for a positive value only) its share count and price; a converted entry carries exactly those numbers |
| CasBackend.ConvertFund | backend/app.py:181-187 | a fund fails with the first raising conversion among its value, then (for a positive value only) its balance and NAV; a converted entry carries exactly those numbers |
| CasBackend.ConvertAllFirstRaise | backend/app.py:154-190 | converting a list entry by entry fails with the first exception among all the entries' conversions, in list order |
| CasBackend.ConvertAccounts | backend/app.py:154-190 | the accounts convert iff no conversion raises, and then account by account; otherwise the error is the first exception in loop order (accounts in order, each account's equities before its funds) |
| CasBackend.SummaryOf | backend/app.py:153-197 | the summary of the converted accounts, or the first conversion exception |
| CasBackend.SummarySkipsExtensionCheck | backend/app.py:110-121 | within the size limit, a name the full endpoint refuses for its extension is still saved by the summary endpoint, and parsed exactly when that save succeeds |
| CasBackend.EmptySecureNameIsServerError | backend/app.py:119-121 | within the size limit, a name that `secure_filename` empties passes the summary checks, but the save into the upload directory raises and the reply is the outer 500 "Server error", with nothing parsed |
| CasBackend.AddEquities | backend/app.py:164-176 | the equity total grows by exactly the listed values; every listed value is positive; earlier rows stay in place |
| CasBackend.AddFunds | backend/app.py:179-190 | the fund total grows by exactly the listed values; every listed value is positive; earlier rows stay in place |
| CasBackend.Summarize | backend/app.py:153-193 | each total is the sum of its listed holdings' values, and every listed value is positive |
| CasBackend.AddEquitiesRows | backend/app.py:165-175 | one account appends its positive-value equities, in order, tagged with the account name |
| CasBackend.AddFundsRows | backend/app.py:180-189 | one account appends its positive-value funds, in order |
| CasBackend.SummarizeEquities | backend/app.py:154-176 | the equity list is the positive-value equities of all accounts, in account then item order |
| CasBackend.SummarizeFunds | backend/app.py:154-190 | the fund list is the positive-value funds of all accounts, in account then item order |
| CasBackend.SummarizePan | backend/app.py:158-161 | the PAN comes from the first owner of the first account with owners whose PAN is non-empty, and once set it is never overwritten |
| CasBackend.SummarizeMatchesReference | backend/app.py:153-194 | rows, PAN and totals match the reference definitions; the portfolio total is the sum of both totals; the holding count is the number of kept equities plus kept funds |
| CasBackend.NothingPositiveNothingListed | backend/app.py:167-182 | accounts with no positive value list nothing, and show a 0 count and a 0 total |
| PortfolioIndex.BaseOf | src/pages/Index.tsx:41-46 | avgNAV is invested / units, so units × avgNAV gives back the stored invested amount |
| PortfolioIndex.BaseHoldings | src/pages/Index.tsx:40-47 | stored rows are used in order when there are any, else the samples; each row keeps its scheme code and units, and units × avgNAV equals its invested amount |
| PortfolioIndex.Derive | src/pages/Index.tsx:55-72 | the current NAV is the fetched latest NAV when there is one, else the price paid (avgNAV); invested = units × avgNAV; value = units × current NAV; returns = value − invested; percentage × invested = returns × 100; the fetched scheme name is used when non-empty |
| PortfolioIndex.NoNavNoReturns | src/pages/Index.tsx:57-61 | without a fetched NAV a holding is valued at cost, with zero returns and zero percentage |
| PortfolioIndex.GainIffNavAbovePrice | src/pages/Index.tsx:57-60 | for positive units, returns are positive iff the fetched NAV is above the price paid |
| PortfolioIndex.Update | src/pages/Index.tsx:53-77 | holdings are replaced only when the fund query returned a non-empty list; each holding pairs with the result at its position |
| PortfolioIndex.PortfolioTotals | src/pages/Index.tsx:79-82 | totals are sums over the holdings; returns = value − investment; the percentage is 0 unless the investment is positive, and then percentage × investment = returns × 100 |
| PortfolioIndex.TotalReturnsIsSumOfReturns | src/pages/Index.tsx:79-81 | the total return equals the sum of the holdings' returns |
| PortfolioIndex.AtCostSums | src/pages/Index.tsx:79-80 | holdings each valued at cost have a total value equal to their total cost |
| PortfolioIndex.SamplesWithoutNavs | src/pages/Index.tsx:17-23 | the five samples without fetched NAVs cost 166662 in total and show no return |
| NsdlUploader.HandleFileChange | src/components/NSDLUploader.tsx:56-76 | an empty selection changes nothing; a non-PDF is refused before the size is checked; a file over 16 MiB is refused; a refused file keeps the previous one; an accepted file clears error and success |
| NsdlUploader.FileAcceptedIff | src/components/NSDLUploader.tsx:61-74 | a file is accepted iff it is application/pdf and at most 16 MiB, so exactly 16 MiB is accepted |
| NsdlUploader.TypeCheckedFirst | src/components/NSDLUploader.tsx:61-64 | a file that is both non-PDF and too large gets the not-a-PDF error |
| NsdlUploader.HandleSubmit | src/components/NSDLUploader.tsx:78-127 | a missing file, then an empty password, is reported before any request; otherwise exactly one request with the file and password is sent; loading ends; success implies the error is cleared and data is shown |
| NsdlUploader.EnabledSubmitSends | src/components/NSDLUploader.tsx:225 | when the button is enabled, a submit sends the request |
| NsdlUploader.ResetForm | src/components/NSDLUploader.tsx:137-143 | file, password, parsed data, error and success are cleared; the button is then disabled |
| NsdlUploader.SubmitAgainstService | src/components/NSDLUploader.tsx:103-116 | against the summary endpoint, a filled-in form reaches the parser exactly when the whole request is within the service's 16 MiB limit and the upload can be saved, and otherwise shows "Server error"; the form succeeds iff the parse and every conversion of the summary fold succeed, and then shows the summary; an exception from either that mentions a password shows the endpoint's password message, and any other its generic failure message |
| NsdlUploader.FullSizeFileIsServerError | src/components/NSDLUploader.tsx:66-70 | a PDF of exactly 16 MiB, which the form accepts, never reaches the parser: with the password and the multipart framing the request is over the service's limit, and the form shows "Server error" |
| FundForm.HandleSubmit | src/FundForm.tsx:17-30 | an empty name or amount adds nothing and leaves the fields as they were; otherwise one fund is added with the name, `Number(amount)` and the risk, and the form returns to "", "", Medium |
| FundForm.SubmitResets | src/FundForm.tsx:13-29 | the initial form cannot submit, and after a submission that adds a fund the form cannot submit again until it is filled in |
| FundForm.WholeAmountKept | src/FundForm.tsx:23 | a whole-number amount reaches `onAdd` as that number |
| FundForm.FormThenCanvas | src/FundForm.tsx:21-25 | submitting the form and adding its fund to the canvas appends one card with the form's name, amount and risk |
| WeeklyDigest.Insert | supabase/functions/send-weekly-digest/index.ts:39 | inserting into a list sorted by change, descending, keeps it sorted and adds exactly that item |
| WeeklyDigest.SortByChange | supabase/functions/send-weekly-digest/index.ts:39 | the result is sorted by change, descending, and is a permutation of the watchlist |
| WeeklyDigest.MakeDigest | supabase/functions/send-weekly-digest/index.ts:35-51 | the total is the sum of NAVs; average × count = the sum of changes, or 0 for an empty list; there are min(3, n) top gainers, sorted by change; the count is n |
| WeeklyDigest.TopGainersAreTheBest | supabase/functions/send-weekly-digest/index.ts:39 | the top gainers and the rest form the watchlist, and every selected change is ≥ every unselected one |
| WeeklyDigest.TopGainersFromWatchlist | supabase/functions/send-weekly-digest/index.ts:39 | every top gainer is an item of the watchlist |
| WeeklyDigest.Handle | supabase/functions/send-weekly-digest/index.ts:27-70 | a failed watchlist read answers its error message; otherwise the digest of the list |
| Canvas.AddFund | src/pages/Canvas.tsx:30-40 | exactly one card is appended with the given name, amount and risk, the clock as its id, and a position in [50, 350) × [50, 250); existing cards are unchanged |
| Canvas.AddThenDelete | src/pages/Canvas.tsx:30-44 | deleting a card just added under a fresh id gives back the canvas as it was |
| Canvas.MoveFund | src/pages/Canvas.tsx:46-50 | length, order and every field other than x and y are kept; cards with the id get the new position; other cards are untouched |
| Canvas.MoveThenDelete | src/pages/Canvas.tsx:42-50 | moving a card and then deleting it is deleting it |
| Canvas.LastMoveWins | src/pages/Canvas.tsx:46-50 | of two moves of one card, the later one wins |
| KeyedLists.RemoveById | src/pages/Canvas.tsx:42-44 | no kept item carries the id; every kept item comes from the list; every item without the id is kept; the length drops by the number of items carrying the id |
| KeyedLists.RemoveKeepsOrder | src/pages/Watchlist.tsx:61-63 | the kept items keep their relative order |
| KeyedLists.RemoveAbsent | src/pages/Watchlist.tsx:61-63 | removing an id nobody carries changes nothing |
| KeyedLists.RemoveIdempotent | src/pages/Watchlist.tsx:61-63 | removing twice is removing once |
| KeyedLists.RemoveSnoc | src/pages/Canvas.tsx:42-44 | removing from a list with one more item at the end keeps that item iff it lacks the id |
| Watchlist.EmptyAfterRemoveIff | src/pages/Watchlist.tsx:130 | the empty view shows after a removal iff every fund carried the removed id |
| Watchlist.ToggleExpand | src/components/Watchlist/WatchlistTreeTable.tsx:21-29 | the id's membership flips and every other id's membership is unchanged |
| Watchlist.ToggleTwice | src/components/Watchlist/WatchlistTreeTable.tsx:21-29 | toggling the same id twice restores the set |
| Watchlist.TogglesCommute | src/components/Watchlist/WatchlistTreeTable.tsx:21-29 | toggles of two ids commute |
| Watchlist.ChevronFor | src/components/Watchlist/WatchlistTreeTable.tsx:90-94 | the chevron points down iff the id is expanded |
| Watchlist.ClickFlipsChevron | src/components/Watchlist/WatchlistTreeTable.tsx:21-94 | a click flips the clicked row's chevron and no other |
| News.FilteredNews | src/pages/News.tsx:89-94 | exactly the matching items are kept (query in title or excerpt, ignoring case, and the category is "all" or equal), as an order-preserving subsequence |
| News.NoFilterListsAll | src/pages/News.tsx:89-94 | an empty query with "all" lists every item |
| News.QueryIgnoresCase | src/pages/News.tsx:90-91 | lower-casing the query does not change what matches |
| News.Render | src/pages/News.tsx:140-194 | the featured item followed by the grid is exactly the filtered list, so each match appears once; "No news found" appears iff nothing matches |
| Onboarding.HandleNext | src/components/Onboarding/OnboardingWizard.tsx:46-52 | below the last step, Next moves forward by one and does not complete; on the last step it completes and keeps the step; the step stays in 0..3 |
| Onboarding.HandleSkip | src/components/Onboarding/OnboardingWizard.tsx:54-56 | Skip completes and keeps the step |
| Onboarding.Run | src/components/Onboarding/OnboardingWizard.tsx:13-56 | any sequence of presses keeps the step in 0..3, never moves back, and never un-completes |
| Onboarding.NextWalksThrough | src/components/Onboarding/OnboardingWizard.tsx:46-52 | three Next presses reach the last step; a fourth completes |
| Onboarding.NextPresses | src/components/Onboarding/OnboardingWizard.tsx:46-52 | n Next presses from step s reach min(s + n, 3), and complete iff they go past the last step |
| Onboarding.NextPressesCompleted | src/components/Onboarding/OnboardingWizard.tsx:49-51 | once on the last step and completed, further Next presses change nothing |
| Onboarding.ProgressShape | src/components/Onboarding/OnboardingWizard.tsx:44 | progress is 25, 50, 75, 100; it strictly increases; it is 100 only on the last step |
| Onboarding.IndicatorsAgree | src/components/Onboarding/OnboardingWizard.tsx:83-95 | exactly one dot is active, and the button reads "Get Started" iff on the last step |
| HealthScore.ScoreColorOf | src/components/Portfolio/PortfolioHealthScore.tsx:14-18 | success iff ≥ 80, warning iff in [60, 80), destructive iff < 60 |
| HealthScore.ScoreLabelOf | src/components/Portfolio/PortfolioHealthScore.tsx:20-25 | Excellent iff ≥ 80, Good iff in [60, 80), Fair iff in [40, 60), Poor iff < 40 |
| HealthScore.LabelMonotone | src/components/Portfolio/PortfolioHealthScore.tsx:20-25 | a higher score never gets a worse label |
| HealthScore.BadgeAgreesWithColor | src/components/Portfolio/PortfolioHealthScore.tsx:40 | the badge is "default" iff the colour is not destructive, iff the label is Good or Excellent |
| HealthScore.RiskBadge | src/components/Portfolio/PortfolioHealthScore.tsx:57 | low gives default, medium gives secondary, and high gives destructive, each iff |
| Text.SplitJoin | src/lib/pdfProcessor.ts:78 | joining the pieces of `split('\n')` gives back the text, and no piece contains a line feed |
| Text.Trim | src/lib/pdfProcessor.ts:99 | the result is a contiguous part of the line with no white space at either end |
| Text.LastIndex | backend/app.py:25 | the found index holds the separator, and no later index does; absent iff the separator does not occur |
| Numbers.ParseFloat | src/lib/pdfProcessor.ts:120 | the result is NaN iff the token starts with neither a digit nor '.' followed by a digit; otherwise it is non-negative |
| Numbers.ParseFloatPointValue | src/lib/pdfProcessor.ts:120 | the literal `a.b` (followed by anything but a digit) reads as the whole number `ab` divided by 10 once per digit of `b` |
| Numbers.ParseFloatWholeValue | src/lib/pdfProcessor.ts:120 | a run of digits followed by neither a digit nor '.' reads as the number those digits spell |
| Numbers.DigitsValueAppend | src/lib/pdfProcessor.ts:120 | the digits of `a` followed by those of `b` spell the number `a` shifted left by one place per digit of `b`, plus the number `b` |
| Numbers.DecimalShifted | src/lib/pdfProcessor.ts:120 | the literal `a.b` shifted left by one place per digit of `b` is the whole number `ab` |
| Numbers.ParseFloatNatToString | src/FundForm.tsx:23 | reading the decimal numeral of a natural number gives that number back |
| Numbers.TruncateToInt | backend/app.py:171 | Python's `int()` of a float truncates toward zero |
| Seqs.FilterIsSubsequence | src/pages/News.tsx:89 | a filter keeps an order-preserving subsequence |

## Where the code and its description differ

In each case below the model follows the code.

- The summary endpoint does not check the file extension (backend/app.py:110-117), and it does not refuse an empty filename with a 400. `SummarySkipsExtensionCheck` states the first difference. For the second, an empty name, or any name `secure_filename` reduces to "", makes the save target the upload directory itself; the save raises and the outer handler answers 500 "Server error" (`EmptySecureNameIsServerError`).
- `parseFunds` pushes every block, complete or not, including a block without a name created by a field line before the first header. The final `map` never drops a block.
- In `parseFunds` the bound `num < 100000` on a bare number is always true. The number matched has at most three integer digits, so it is below 1000.
- `tryDecryptPDF` retries only with an empty password. That retry calls the PDF library with exactly the argument of the failed first attempt, because an empty password is already passed as `undefined`. Against a deterministic library it can only turn the error into "Failed to parse PDF". `UploadModal.RetryRepeatsFirstAttempt` states this.
- `handleSubmit` raises no error for an empty import batch. It cannot happen, because a batch is only built from a non-empty block list.

## Left out

- PDF decryption and text extraction (pdf.js in the browser, casparser in the service): these are foreign libraries. They appear as an outcome value or a `load` / `parse` function.
- `backend/text_parser.py`: its behaviour lives in multi-line lazy regular expressions over the whole text, which would need a regular-expression engine.
- `generateSchemeCode` (src/lib/pdfProcessor.ts:149-151): it is random, so extracted funds carry no scheme code. A random code also makes the key of a re-import unstable.
- The clock and `Math.random` of the canvas are the parameters `now`, `rx` and `ry`.
- HoldingsStore.Import: it requires the batch's (scheme code, folio) pairs to be distinct. The database's behaviour for duplicate keys within one batch, and its NULL semantics for `folio_number` in the conflict target, are not visible in the code. Keys compare by plain equality.
- HoldingsStore.Query: `created_at` is the `now` parameter of the write that inserted the row. The order among rows with equal timestamps is not stated.
- The react-query plumbing: `mutate` is not awaited in `handleSubmit`, so the import may still fail after the success toast. Cache invalidation, toasts, `setTimeout` delays and concurrent upserts are also left out.
- Network, authentication and persistence wrappers are left out:
  - Flask routing, and the removal of the temporary file;
  - `secure_filename` and `file.save`, which are the `Storage` parameter of the endpoints. An exception they raise is answered with the outer handlers' "Server error", and so is werkzeug's error for a body over the 16 MiB limit; any other exception reaching those handlers is not modelled;
  - the `parse-cas` proxy and the mock server;
  - Supabase auth;
  - the watchlist and fund-detail fetches.
- Formatting with `toFixed`, `toLocaleString` and `Intl` is left out. The digest's rounding to two decimals is one such case.
- Floating point: all money is `real`. Sums and products are exact, not IEEE doubles.
- Text.Lower: it folds ASCII letters only. This is exact for the case-insensitive regular expressions of pdfProcessor.ts. For `toLowerCase` and Python's `lower()` on non-ASCII text it is a simplification, and it affects the news filter, `detectCategory`, the service's error classes and `allowed_file`'s extension check.
- PortfolioIndex.BaseHoldings: it requires every stored row to have non-zero units and an invested amount. Otherwise the source divides by zero or by NaN.
- PortfolioIndex.Derive: it requires a non-zero invested amount, and `BaseHoldings` requires a numeric invested amount. The upload dialog writes 0 as the invested amount of every block without a Value/NAV line (`UploadModal.ToRow`), and the page then divides by zero: the source shows a NaN or infinite percentage for such a row, which this model does not represent.
- PortfolioIndex.Update: the fetched NAV comes in already parsed. A NAV string that parses to NaN is not modelled.
- FundForm.HandleSubmit: `Number` of the amount text is modelled by the decimal reader of `Numbers.ParseFloat`. A number input's text has no sign or exponent in this model.
- WeeklyDigest.SortByChange: the order among equal changes is not stated. Only sortedness and permutation are stated, so the stability of `Array.prototype.sort` is not modelled.
- NsdlUploader.RequestFor: the bytes of boundaries and part headers the browser writes around the file and the password are a parameter, because the browser picks the boundary; the model only uses that the body holds the file and at least one byte per character of the password.
- CasBackend.ConvertAccounts: which JSON values make Python's `float()` or `int()` raise (a null, or text such as "10.5" given to `int`) is not modelled; each converted field of the parser's data is given as the number it converts to or the exception it raises.
- CasBackend.Summarize: the pass-through fields of the summary are left out, because the fold does not compute them. These are the investor's name, email, mobile and address, the file type and the statement period.
- The presentation components with hard-coded data are left out: markets, notifications, membership, profile, leaderboard, calendar and the SIP calculator.

=== FILE: canvas.dfy ===
/** The fund canvas: cards the user adds through the fund form, drags around, and
    deletes. The id of a new card is the clock reading and its position is random; both
    come in as parameters (`now`, and two draws `rx`, `ry` from [0, 1)). */
module Canvas {

  import opened Text
  import opened KeyedLists
  import opened Wrappers

  datatype Risk = Low | Medium | High

  /** A card. `amount` is `Number` of the form's text; `None` stands for NaN. */
  datatype CanvasFund = CanvasFund(id: string, name: string, amount: Option<real>, risk: Risk, x: real, y: real)

  function IdOf(f: CanvasFund): string { f.id }

  /** `addFund`: one new card at the end, with the id `Date.now().toString()` and a
      position `Math.random() * 300 + 50`, `Math.random() * 200 + 50`. */
  function AddFund(funds: seq<CanvasFund>, name: string, amount: Option<real>, risk: Risk,
                   now: nat, rx: real, ry: real): (r: seq<CanvasFund>)
    requires 0.0 <= rx < 1.0 && 0.0 <= ry < 1.0
    ensures |r| == |funds| + 1 && r[..|funds|] == funds
    ensures var f := r[|funds|];
      && f.id == NatToString(now) && f.name == name && f.amount == amount && f.risk == risk
      && 50.0 <= f.x < 350.0 && 50.0 <= f.y < 250.0
  {
    funds + [CanvasFund(NatToString(now), name, amount, risk, rx * 300.0 + 50.0, ry * 200.0 + 50.0)]
  }

  /** `deleteFund`. */
  function DeleteFund(funds: seq<CanvasFund>, id: string): seq<CanvasFund> {
    RemoveById(funds, IdOf, id)
  }

  /** `moveFund`: every card with the id gets the new position; nothing else changes. */
  function MoveFund(funds: seq<CanvasFund>, id: string, x: real, y: real): (r: seq<CanvasFund>)
    ensures |r| == |funds|
    ensures forall i :: 0 <= i < |r| ==>
              r[i].id == funds[i].id && r[i].name == funds[i].name
              && r[i].amount == funds[i].amount && r[i].risk == funds[i].risk
    ensures forall i :: 0 <= i < |r| && funds[i].id == id ==> r[i].x == x && r[i].y == y
    ensures forall i :: 0 <= i < |r| && funds[i].id != id ==> r[i] == funds[i]
  {
    seq(|funds|, i requires 0 <= i < |funds| => if funds[i].id == id then funds[i].(x := x, y := y) else funds[i])
  }

  /** Deleting the card just added, when its id was fresh, gives back the canvas as it
      was. */
  lemma AddThenDelete(funds: seq<CanvasFund>, name: string, amount: Option<real>, risk: Risk,
                      now: nat, rx: real, ry: real)
    requires 0.0 <= rx < 1.0 && 0.0 <= ry < 1.0
    requires forall i :: 0 <= i < |funds| ==> funds[i].id != NatToString(now)
    ensures DeleteFund(AddFund(funds, name, amount, risk, now, rx, ry), NatToString(now)) == funds
  {
    var added := AddFund(funds, name, amount, risk, now, rx, ry);
    assert added == funds + [added[|funds|]];
    RemoveSnoc(funds, added[|funds|], IdOf, NatToString(now));
    RemoveAbsent(funds, IdOf, NatToString(now));
  }

  /** A card moved and then deleted is simply deleted; the other cards are not moved. */
  lemma {:induction false} MoveThenDelete(funds: seq<CanvasFund>, id: string, x: real, y: real)
    ensures DeleteFund(MoveFund(funds, id, x, y), id) == DeleteFund(funds, id)
  {
    if |funds| > 0 {
      MoveThenDelete(funds[1..], id, x, y);
      assert MoveFund(funds, id, x, y)[1..] == MoveFund(funds[1..], id, x, y);
    }
  }

  /** Of two moves of the same card, the later one wins. */
  lemma LastMoveWins(funds: seq<CanvasFund>, id: string, x1: real, y1: real, x2: real, y2: real)
    ensures MoveFund(MoveFund(funds, id, x1, y1), id, x2, y2) == MoveFund(funds, id, x2, y2)
  {
  }
}

=== FILE: cas_backend.dfy ===
/** The Flask service of backend/app.py: the file-extension check, the request
    validation of the full endpoint `/api/parse-nsdl` and of `/api/parse-nsdl/summary`,
    the classification of parser errors into HTTP statuses, and the summary fold over
    the accounts the CAS parser returns. The parser itself (casparser) is a foreign
    library: each endpoint receives what it would return for the password. */
module CasBackend {

  import opened Wrappers
  import opened Text
  import opened Numbers
  import opened Seqs

  // ---------------------------------------------------------------------------
  // allowed_file
  // ---------------------------------------------------------------------------

  /** `'.' in filename and filename.rsplit('.', 1)[1].lower() in {'pdf'}`. Python's
      `lower` is taken on ASCII letters; no other character lowers to 'p', 'd' or 'f'. */
  predicate AllowedFile(filename: string) {
    match LastIndex(filename, '.')
    case None => false
    case Some(i) => Lower(filename[i + 1..]) == "pdf"
  }

  /** A filename is allowed exactly when it ends in '.' followed by three letters that
      spell "pdf" in any case. */
  lemma AllowedFileIff(filename: string)
    ensures AllowedFile(filename) <==>
      && |filename| >= 4
      && filename[|filename| - 4] == '.'
      && Lower(filename[|filename| - 3..]) == "pdf"
  {
    if AllowedFile(filename) {
      var i := LastIndex(filename, '.').value;
      assert |filename[i + 1..]| == 3;
    }
  }

  // ---------------------------------------------------------------------------
  // Requests, replies and error classes
  // ---------------------------------------------------------------------------

  /** The multipart form: the `file` part (with its filename) and the `password` field,
      and the length in bytes of the whole request body. */
  datatype Request = Request(file: Option<string>, password: Option<string>, bodySize: nat)

  /** `MAX_CONTENT_LENGTH`: the service reads request bodies of at most 16 MiB. */
  const MaxContentLength: nat := 16 * 1024 * 1024

  /** The text of werkzeug's `RequestEntityTooLarge`, which the first access to
      `request.files` raises for a longer body. */
  const TooLargeDetails: string := "413 Request Entity Too Large: The data value transmitted exceeds the capacity limit."

  predicate WithinLimit(req: Request) {
    req.bodySize <= MaxContentLength
  }

  /** What the CAS parser returned, or the text of the exception it raised. */
  datatype ParseOutcome = Parsed(data: CasData) | ParseError(message: string)

  datatype Reply = Reply(status: nat, body: Body)

  datatype Body =
    | ErrorBody(error: string, details: Option<string>)
    | DataBody(data: CasData)
    | SummaryBody(summary: Summary)

  /** The request field `request.form.get('password', '')`. */
  function PasswordOf(req: Request): string {
    req.password.GetOr("")
  }

  function Reject(message: string): Reply {
    Reply(400, ErrorBody(message, None))
  }

  /** A parser error mentions a wrong password: "password" or "decrypt" in its lower-cased
      text (neither word has a letter that a non-ASCII character lowers to). */
  predicate IsPasswordError(message: string) {
    Contains(Lower(message), "password") || Contains(Lower(message), "decrypt")
  }

  const FullPasswordMessage: string := "Invalid password. Please check your PAN or Date of Birth"
  const FullParseMessage: string := "Failed to parse PDF. File may be corrupted or in unsupported format"
  const FullFailureMessage: string := "Failed to process PDF"
  const SummaryPasswordMessage: string :=
    "Invalid password. Try your PAN (e.g., BEQPS9675J) or DOB (DDMMYYYY format)"
  const SummaryFailureMessage: string := "Failed to parse PDF"

  /** The full endpoint's error classes: 401 for a password problem, else 400 when the
      text mentions "parse", else 500; the original text goes along as details. */
  function FullErrorReply(message: string): (r: Reply)
    ensures r.body.ErrorBody? && r.body.details == Some(message)
    ensures r.status == 401 <==> IsPasswordError(message)
    ensures r.status == 400 <==> !IsPasswordError(message) && Contains(Lower(message), "parse")
    ensures r.status == 500 <==> !IsPasswordError(message) && !Contains(Lower(message), "parse")
  {
    if IsPasswordError(message) then Reply(401, ErrorBody(FullPasswordMessage, Some(message)))
    else if Contains(Lower(message), "parse") then Reply(400, ErrorBody(FullParseMessage, Some(message)))
    else Reply(500, ErrorBody(FullFailureMessage, Some(message)))
  }

  /** The summary endpoint's error classes: only 401 and 500. */
  function SummaryErrorReply(message: string): (r: Reply)
    ensures r.body.ErrorBody? && r.body.details == Some(message)
    ensures r.status == 401 <==> IsPasswordError(message)
    ensures r.status == 500 <==> !IsPasswordError(message)
  {
    if IsPasswordError(message) then Reply(401, ErrorBody(SummaryPasswordMessage, Some(message)))
    else Reply(500, ErrorBody(SummaryFailureMessage, Some(message)))
  }

  /** The two endpoints agree on which errors are password errors; a parse error the
      full endpoint answers with 400 is a 500 on the summary endpoint. */
  lemma ErrorClassesAgree(message: string)
    ensures FullErrorReply(message).status == 401 <==> SummaryErrorReply(message).status == 401
    ensures FullErrorReply(message).status == 400 ==> SummaryErrorReply(message).status == 500
  {
  }

  /** The handling of one request: the reply, and whether the parser was run. */
  datatype Handled = Handled(reply: Reply, parsed: bool)

  /** The two steps between the checks and the parser, both outside this model: werkzeug's
      `secure_filename`, and `file.save` of the upload at
      `os.path.join(UPLOAD_FOLDER, name)`, which gives back the text of the exception it
      raised, if any. */
  datatype Storage = Storage(secure: string -> string, save: string -> Option<string>)

  /** The save error of a request, when it has a file: the upload saved under the
      sanitised name of that file. */
  function SaveError(req: Request, store: Storage): Option<string>
    requires req.file.Some?
  {
    store.save(store.secure(req.file.value))
  }

  /** An empty sanitised name joins to the upload directory itself, and a directory cannot
      be opened as a file: saving there raises. */
  predicate DirectoryUnwritable(store: Storage) {
    store.save("").Some?
  }

  /** The outer `except`: "Server error", with the exception's text as details. */
  function ServerError(details: string): Reply {
    Reply(500, ErrorBody("Server error", Some(details)))
  }

  /** `parse_nsdl`: a body over the size limit makes the first look at the files raise,
      which the outer handler answers with 500; then four checks, each answered with 400
      before anything is parsed, then the save of the upload, whose failure the outer
      handler answers with 500, then the parser's data or its classified error. */
  function ParseNsdl(req: Request, store: Storage, parse: string -> ParseOutcome): (r: Handled)
    ensures !WithinLimit(req) ==> r == Handled(ServerError(TooLargeDetails), false)
    ensures WithinLimit(req) && req.file.None? ==> r == Handled(Reject("No file provided"), false)
    ensures WithinLimit(req) && req.file == Some("") ==> r == Handled(Reject("No file selected"), false)
    ensures WithinLimit(req) && req.file.Some? && req.file.value != "" && !AllowedFile(req.file.value)
            ==> r == Handled(Reject("Only PDF files are allowed"), false)
    ensures WithinLimit(req) && req.file.Some? && AllowedFile(req.file.value) && PasswordOf(req) == ""
            ==> r == Handled(Reject("Password is required"), false)
    ensures WithinLimit(req) && req.file.Some? && AllowedFile(req.file.value) && PasswordOf(req) != ""
            && SaveError(req, store).Some?
            ==> r == Handled(ServerError(SaveError(req, store).value), false)
    ensures r.parsed <==> WithinLimit(req) && req.file.Some? && AllowedFile(req.file.value) && PasswordOf(req) != ""
                          && SaveError(req, store).None?
    ensures r.parsed ==> match parse(PasswordOf(req))
                         case Parsed(data) => r.reply == Reply(200, DataBody(data))
                         case ParseError(m) => r.reply == FullErrorReply(m)
  {
    if !WithinLimit(req) then Handled(ServerError(TooLargeDetails), false)
    else if req.file.None? then Handled(Reject("No file provided"), false)
    else if req.file.value == "" then Handled(Reject("No file selected"), false)
    else if !AllowedFile(req.file.value) then Handled(Reject("Only PDF files are allowed"), false)
    else if PasswordOf(req) == "" then Handled(Reject("Password is required"), false)
    else
      match SaveError(req, store)
      case Some(e) => Handled(ServerError(e), false)
      case None =>
        match parse(PasswordOf(req))
        case Parsed(data) => Handled(Reply(200, DataBody(data)), true)
        case ParseError(m) => Handled(FullErrorReply(m), true)
  }

  /** `parse_nsdl_summary`: the same size limit; then only the file part and the password
      are checked; neither the filename's extension nor an empty filename is refused
      before the save. */
  function ParseNsdlSummary(req: Request, store: Storage, parse: string -> ParseOutcome): (r: Handled)
    ensures !WithinLimit(req) ==> r == Handled(ServerError(TooLargeDetails), false)
    ensures WithinLimit(req) && req.file.None? ==> r == Handled(Reject("No file provided"), false)
    ensures WithinLimit(req) && req.file.Some? && PasswordOf(req) == ""
            ==> r == Handled(Reject("Password is required"), false)
    ensures WithinLimit(req) && req.file.Some? && PasswordOf(req) != "" && SaveError(req, store).Some?
            ==> r == Handled(ServerError(SaveError(req, store).value), false)
    ensures r.parsed <==> WithinLimit(req) && req.file.Some? && PasswordOf(req) != "" && SaveError(req, store).None?
    ensures r.parsed ==> match parse(PasswordOf(req))
                         case Parsed(data) =>
                           (match SummaryOf(data)
                            case Success(summary) => r.reply == Reply(200, SummaryBody(summary))
                            case Failure(m) => r.reply == SummaryErrorReply(m))
                         case ParseError(m) => r.reply == SummaryErrorReply(m)
  {
    if !WithinLimit(req) then Handled(ServerError(TooLargeDetails), false)
    else if req.file.None? then Handled(Reject("No file provided"), false)
    else if PasswordOf(req) == "" then Handled(Reject("Password is required"), false)
    else
      match SaveError(req, store)
      case Some(e) => Handled(ServerError(e), false)
      case None =>
        match SummaryOutcome(parse(PasswordOf(req)))
        case Success(summary) => Handled(Reply(200, SummaryBody(summary)), true)
        case Failure(m) => Handled(SummaryErrorReply(m), true)
  }

  /** For a request within the size limit, a parse that succeeds but holds a field
      `float()` or `int()` cannot convert is answered like a parser error: 500 "Failed to
      parse PDF" with the exception's text, or 401 when that text mentions a password. */
  lemma ConversionErrorIsParseFailure(req: Request, store: Storage, parse: string -> ParseOutcome, m: string)
    requires WithinLimit(req) && req.file.Some? && PasswordOf(req) != "" && SaveError(req, store).None?
    requires parse(PasswordOf(req)).Parsed?
    requires FirstRaise(Flatten(parse(PasswordOf(req)).data.accounts, AccountConversions)) == Some(m)
    ensures ParseNsdlSummary(req, store, parse).parsed
    ensures ParseNsdlSummary(req, store, parse).reply == SummaryErrorReply(m)
    ensures ParseNsdlSummary(req, store, parse).reply.status == (if IsPasswordError(m) then 401 else 500)
  {
    assert SummaryOf(parse(PasswordOf(req)).data) == Failure(m);
  }

  /** A request within the size limit that the full endpoint refuses for its extension is
      still saved by the summary endpoint, and parsed when the save succeeds. */
  lemma SummarySkipsExtensionCheck(req: Request, store: Storage, parse: string -> ParseOutcome)
    requires WithinLimit(req) && req.file.Some? && req.file.value != "" && !AllowedFile(req.file.value)
    requires PasswordOf(req) != ""
    ensures !ParseNsdl(req, store, parse).parsed && ParseNsdl(req, store, parse).reply.status == 400
    ensures ParseNsdlSummary(req, store, parse).parsed <==> SaveError(req, store).None?
  {
  }

  /** A filename that `secure_filename` empties ("", "...", or one made only of characters
      with no ASCII form), in a request within the size limit, passes the summary
      endpoint's checks, but the save into the upload directory raises: the reply is the
      outer handler's 500 and nothing is parsed. */
  lemma EmptySecureNameIsServerError(req: Request, store: Storage, parse: string -> ParseOutcome)
    requires WithinLimit(req) && req.file.Some? && PasswordOf(req) != ""
    requires store.secure(req.file.value) == "" && DirectoryUnwritable(store)
    ensures !ParseNsdlSummary(req, store, parse).parsed
    ensures ParseNsdlSummary(req, store, parse).reply == ServerError(store.save("").value)
    ensures ParseNsdlSummary(req, store, parse).reply.status == 500
  {
  }

  /** A body over the limit is never parsed by either endpoint, whatever the form holds:
      both answer the outer handler's 500 "Server error". */
  lemma OverLimitIsServerError(req: Request, store: Storage, parse: string -> ParseOutcome)
    requires !WithinLimit(req)
    ensures !ParseNsdl(req, store, parse).parsed && !ParseNsdlSummary(req, store, parse).parsed
    ensures ParseNsdl(req, store, parse).reply == ParseNsdlSummary(req, store, parse).reply
    ensures ParseNsdlSummary(req, store, parse).reply.status == 500
    ensures ParseNsdlSummary(req, store, parse).reply.body.error == "Server error"
  {
  }

  // ---------------------------------------------------------------------------
  // The summary fold
  // ---------------------------------------------------------------------------

  /** An equity entry of an account after its `float()`/`int()` conversions. */
  datatype EquityIn = EquityIn(name: string, isin: string, numShares: real, price: real, value: real)

  /** A mutual-fund entry of an account after its `float()` conversions. */
  datatype FundIn = FundIn(name: string, isin: string, balance: real, nav: real, value: real)

  /** An account owner; `pan` is "" when the parser gave none. */
  datatype Owner = Owner(pan: string)

  datatype Account = Account(name: string, owners: seq<Owner>, equities: seq<EquityIn>, mutualFunds: seq<FundIn>)


  datatype EquityRow = EquityRow(name: string, isin: string, shares: int, price: real, value: real, account: string)

  datatype FundRow = FundRow(name: string, isin: string, units: real, nav: real, value: real)

  datatype Summary = Summary(
    investorPan: string,
    equityHoldings: seq<EquityRow>,
    mutualFundHoldings: seq<FundRow>,
    totalEquityValue: real,
    totalMfValue: real)

  const EmptySummary: Summary := Summary("", [], [], 0.0, 0.0)

  /** `total_portfolio_value`. */
  function TotalPortfolioValue(s: Summary): real {
    s.totalEquityValue + s.totalMfValue
  }

  /** `total_holdings`. */
  function TotalHoldings(s: Summary): nat {
    |s.equityHoldings| + |s.mutualFundHoldings|
  }

  function EquityRowOf(e: EquityIn, account: string): EquityRow {
    EquityRow(e.name, e.isin, TruncateToInt(e.numShares), e.price, e.value, account)
  }

  function FundRowOf(f: FundIn): FundRow {
    FundRow(f.name, f.isin, f.balance, f.nav, f.value)
  }

  function EquityValue(r: EquityRow): real { r.value }

  function FundValue(r: FundRow): real { r.value }

  /** The inner equity loop of one account. */
  function AddEquities(s: Summary, account: string, es: seq<EquityIn>): (r: Summary)
    ensures r.investorPan == s.investorPan && r.mutualFundHoldings == s.mutualFundHoldings
    ensures r.totalMfValue == s.totalMfValue
    ensures r.totalEquityValue - s.totalEquityValue
            == Sum(r.equityHoldings, EquityValue) - Sum(s.equityHoldings, EquityValue)
    ensures forall i :: 0 <= i < |r.equityHoldings| ==>
              i < |s.equityHoldings| || r.equityHoldings[i].value > 0.0
    ensures |s.equityHoldings| <= |r.equityHoldings|
    ensures r.equityHoldings[..|s.equityHoldings|] == s.equityHoldings
  {
    if |es| == 0 then s
    else
      var t := AddEquities(s, account, es[..|es| - 1]);
      var e := es[|es| - 1];
      if e.value > 0.0 then
        var row := EquityRowOf(e, account);
        SumAppend(t.equityHoldings, [row], EquityValue);
        assert (t.equityHoldings + [row])[..|s.equityHoldings|] == t.equityHoldings[..|s.equityHoldings|];
        t.(equityHoldings := t.equityHoldings + [row], totalEquityValue := t.totalEquityValue + e.value)
      else t
  }

  /** The inner mutual-fund loop of one account. */
  function AddFunds(s: Summary, fs: seq<FundIn>): (r: Summary)
    ensures r.investorPan == s.investorPan && r.equityHoldings == s.equityHoldings
    ensures r.totalEquityValue == s.totalEquityValue
    ensures r.totalMfValue - s.totalMfValue
            == Sum(r.mutualFundHoldings, FundValue) - Sum(s.mutualFundHoldings, FundValue)
    ensures forall i :: 0 <= i < |r.mutualFundHoldings| ==>
              i < |s.mutualFundHoldings| || r.mutualFundHoldings[i].value > 0.0
    ensures |s.mutualFundHoldings| <= |r.mutualFundHoldings|
    ensures r.mutualFundHoldings[..|s.mutualFundHoldings|] == s.mutualFundHoldings
  {
    if |fs| == 0 then s
    else
      var t := AddFunds(s, fs[..|fs| - 1]);
      var f := fs[|fs| - 1];
      if f.value > 0.0 then
        var row := FundRowOf(f);
        SumAppend(t.mutualFundHoldings, [row], FundValue);
        assert (t.mutualFundHoldings + [row])[..|s.mutualFundHoldings|] == t.mutualFundHoldings[..|s.mutualFundHoldings|];
        t.(mutualFundHoldings := t.mutualFundHoldings + [row], totalMfValue := t.totalMfValue + f.value)
      else t
  }

  /** One iteration of the account loop: the PAN, then the equities, then the funds. */
  function AddAccount(s: Summary, a: Account): Summary {
    var withPan := if |a.owners| > 0 && s.investorPan == "" then s.(investorPan := a.owners[0].pan) else s;
    AddFunds(AddEquities(withPan, a.name, a.equities), a.mutualFunds)
  }

  // ---------------------------------------------------------------------------
  // The conversions inside the fold
  // ---------------------------------------------------------------------------

  /** What Python's `float(x)` or `int(x)` makes of one field the parser returned (with
      `.get`'s default of 0 already applied): a number, or the message of the exception it
      raises on a null or on text that does not read as such a number. `int` truncates
      the number it is given. */
  datatype Conversion = Converts(number: real) | Raises(message: string)

  /** The entries and accounts as the parser returns them, before any conversion. */
  datatype RawEquity = RawEquity(name: string, isin: string, numShares: Conversion, price: Conversion, value: Conversion)

  datatype RawFund = RawFund(name: string, isin: string, balance: Conversion, nav: Conversion, value: Conversion)

  datatype RawAccount = RawAccount(name: string, owners: seq<Owner>, equities: seq<RawEquity>, mutualFunds: seq<RawFund>)

  datatype CasData = CasData(accounts: seq<RawAccount>)

  /** The message of a failed step, if it failed. */
  function ErrorOf<T>(r: Result<T, string>): Option<string> {
    if r.Failure? then Some(r.error) else None
  }

  /** The message of the first conversion in `cs` that raises. */
  function FirstRaise(cs: seq<Conversion>): (r: Option<string>)
    ensures r.None? <==> forall i :: 0 <= i < |cs| ==> cs[i].Converts?
    ensures r.Some? ==> Raises(r.value) in cs
  {
    if |cs| == 0 then None
    else if cs[0].Raises? then Some(cs[0].message)
    else FirstRaise(cs[1..])
  }

  lemma {:induction false} FirstRaiseAppend(xs: seq<Conversion>, ys: seq<Conversion>)
    ensures FirstRaise(xs + ys) == if FirstRaise(xs).Some? then FirstRaise(xs) else FirstRaise(ys)
  {
    if |xs| > 0 {
      assert (xs + ys)[0] == xs[0] && (xs + ys)[1..] == xs[1..] + ys;
      FirstRaiseAppend(xs[1..], ys);
    } else {
      assert xs + ys == ys;
    }
  }

  lemma FirstRaiseOfThree(x: Conversion, y: Conversion, z: Conversion)
    ensures FirstRaise([x, y, z])
            == if x.Raises? then Some(x.message) else if y.Raises? then Some(y.message)
               else if z.Raises? then Some(z.message) else None
  {
    var xyz := [x, y, z];
    assert xyz[1..] == [y, z] && [y, z][1..] == [z] && [z][1..] == [];
    assert FirstRaise([z]) == if z.Raises? then Some(z.message) else None;
    assert FirstRaise([y, z]) == if y.Raises? then Some(y.message) else FirstRaise([z]);
  }

  /** The conversions one equity entry performs, in source order: the value, then (only
      for a positive value, when a row is built) the share count and the price. */
  function EquityConversions(e: RawEquity): seq<Conversion> {
    [e.value] + (if e.value.Converts? && e.value.number > 0.0 then [e.numShares, e.price] else [])
  }

  /** The conversions one fund entry performs: the value, then the balance and the NAV. */
  function FundConversions(f: RawFund): seq<Conversion> {
    [f.value] + (if f.value.Converts? && f.value.number > 0.0 then [f.balance, f.nav] else [])
  }

  /** The conversions of one entry after another, in list order. */
  function Flatten<A>(xs: seq<A>, cs: A -> seq<Conversion>): seq<Conversion> {
    if |xs| == 0 then [] else cs(xs[0]) + Flatten(xs[1..], cs)
  }

  /** The conversions of one account: its equities, then its funds. */
  function AccountConversions(a: RawAccount): seq<Conversion> {
    Flatten(a.equities, EquityConversions) + Flatten(a.mutualFunds, FundConversions)
  }

  /** Lines 166, 171 and 172: the converted entry, or the first exception. An entry with a
      value of at most 0 builds no row, so its share count and price are never read (0
      stands in for them). */
  function ConvertEquity(e: RawEquity): (r: Result<EquityIn, string>)
    ensures ErrorOf(r) == FirstRaise(EquityConversions(e))
    ensures r.Success? ==> r.value.name == e.name && r.value.isin == e.isin && r.value.value == e.value.number
    ensures r.Success? && r.value.value > 0.0 ==>
              && e.numShares.Converts? && r.value.numShares == e.numShares.number
              && e.price.Converts? && r.value.price == e.price.number
  {
    match e.value
    case Raises(m) => Failure(m)
    case Converts(v) =>
      if v > 0.0 then
        assert EquityConversions(e) == [e.value, e.numShares, e.price];
        FirstRaiseOfThree(e.value, e.numShares, e.price);
        match e.numShares
        case Raises(m) => Failure(m)
        case Converts(n) =>
          match e.price
          case Raises(m) => Failure(m)
          case Converts(p) => Success(EquityIn(e.name, e.isin, n, p, v))
      else Success(EquityIn(e.name, e.isin, 0.0, 0.0, v))
  }

  /** Lines 181, 186 and 187. */
  function ConvertFund(f: RawFund): (r: Result<FundIn, string>)
    ensures ErrorOf(r) == FirstRaise(FundConversions(f))
    ensures r.Success? ==> r.value.name == f.name && r.value.isin == f.isin && r.value.value == f.value.number
    ensures r.Success? && r.value.value > 0.0 ==>
              && f.balance.Converts? && r.value.balance == f.balance.number
              && f.nav.Converts? && r.value.nav == f.nav.number
  {
    match f.value
    case Raises(m) => Failure(m)
    case Converts(v) =>
      if v > 0.0 then
        assert FundConversions(f) == [f.value, f.balance, f.nav];
        FirstRaiseOfThree(f.value, f.balance, f.nav);
        match f.balance
        case Raises(m) => Failure(m)
        case Converts(b) =>
          match f.nav
          case Raises(m) => Failure(m)
          case Converts(n) => Success(FundIn(f.name, f.isin, b, n, v))
      else Success(FundIn(f.name, f.isin, 0.0, 0.0, v))
  }

  /** Converting the entries of a list one after another, stopping at the first failure. */
  function ConvertAll<A, B>(xs: seq<A>, conv: A -> Result<B, string>): (r: Result<seq<B>, string>)
    ensures r.Success? <==> forall i :: 0 <= i < |xs| ==> conv(xs[i]).Success?
    ensures r.Success? ==> |r.value| == |xs| && forall i :: 0 <= i < |xs| ==> conv(xs[i]) == Success(r.value[i])
  {
    if |xs| == 0 then Success([])
    else
      match conv(xs[0])
      case Failure(m) => Failure(m)
      case Success(y) =>
        match ConvertAll(xs[1..], conv)
        case Failure(m) =>
          assert forall i :: 1 <= i < |xs| ==> xs[i] == xs[1..][i - 1];
          Failure(m)
        case Success(ys) =>
          assert forall i :: 1 <= i < |xs| ==> xs[i] == xs[1..][i - 1];
          Success([y] + ys)
  }

  /** When each entry fails with the first exception among its own conversions, the list
      fails with the first exception among all of them, in list order. */
  lemma {:induction false} ConvertAllFirstRaise<A, B>(xs: seq<A>, conv: A -> Result<B, string>, cs: A -> seq<Conversion>)
    requires forall x :: ErrorOf(conv(x)) == FirstRaise(cs(x))
    ensures ErrorOf(ConvertAll(xs, conv)) == FirstRaise(Flatten(xs, cs))
  {
    if |xs| > 0 {
      ConvertAllFirstRaise(xs[1..], conv, cs);
      FirstRaiseAppend(cs(xs[0]), Flatten(xs[1..], cs));
    }
  }

  /** One account: its equities, then its funds. */
  function ConvertAccount(a: RawAccount): (r: Result<Account, string>)
    ensures ErrorOf(r) == FirstRaise(AccountConversions(a))
    ensures r.Success? ==> r.value.name == a.name && r.value.owners == a.owners
    ensures r.Success? ==> |r.value.equities| == |a.equities| && |r.value.mutualFunds| == |a.mutualFunds|
    ensures r.Success? ==> forall j :: 0 <= j < |a.equities| ==> ConvertEquity(a.equities[j]) == Success(r.value.equities[j])
    ensures r.Success? ==> forall j :: 0 <= j < |a.mutualFunds| ==> ConvertFund(a.mutualFunds[j]) == Success(r.value.mutualFunds[j])
  {
    ConvertAllFirstRaise(a.equities, ConvertEquity, EquityConversions);
    ConvertAllFirstRaise(a.mutualFunds, ConvertFund, FundConversions);
    FirstRaiseAppend(Flatten(a.equities, EquityConversions), Flatten(a.mutualFunds, FundConversions));
    match ConvertAll(a.equities, ConvertEquity)
    case Failure(m) => Failure(m)
    case Success(es) =>
      match ConvertAll(a.mutualFunds, ConvertFund)
      case Failure(m) => Failure(m)
      case Success(fs) => Success(Account(a.name, a.owners, es, fs))
  }

  /** All accounts, in order: the converted accounts, or the message of the first
      conversion that raises, in the order the loops of lines 154-190 perform them. */
  function ConvertAccounts(raws: seq<RawAccount>): (r: Result<seq<Account>, string>)
    ensures ErrorOf(r) == FirstRaise(Flatten(raws, AccountConversions))
    ensures r.Success? ==> |r.value| == |raws| && forall i :: 0 <= i < |raws| ==> ConvertAccount(raws[i]) == Success(r.value[i])
  {
    ConvertAllFirstRaise(raws, ConvertAccount, AccountConversions);
    ConvertAll(raws, ConvertAccount)
  }

  /** The summary of the parsed data, or the message of the exception a conversion
      raised; the `except` of lines 199-214 answers the latter like a parser error. */
  function SummaryOf(data: CasData): (r: Result<Summary, string>)
    ensures ErrorOf(r) == FirstRaise(Flatten(data.accounts, AccountConversions))
    ensures r.Success? ==> r == Success(Summarize(ConvertAccounts(data.accounts).value))
  {
    match ConvertAccounts(data.accounts)
    case Success(accounts) => Success(Summarize(accounts))
    case Failure(m) => Failure(m)
  }

  /** What the summary endpoint builds from the parser's outcome. */
  function SummaryOutcome(o: ParseOutcome): Result<Summary, string> {
    match o
    case Parsed(data) => SummaryOf(data)
    case ParseError(m) => Failure(m)
  }

  /** The account loop. The totals are the sums of the kept rows' values and every kept
      row has a positive value. */
  function Summarize(accounts: seq<Account>): (r: Summary)
    ensures r.totalEquityValue == Sum(r.equityHoldings, EquityValue)
    ensures r.totalMfValue == Sum(r.mutualFundHoldings, FundValue)
    ensures forall i :: 0 <= i < |r.equityHoldings| ==> r.equityHoldings[i].value > 0.0
    ensures forall i :: 0 <= i < |r.mutualFundHoldings| ==> r.mutualFundHoldings[i].value > 0.0
  {
    if |accounts| == 0 then EmptySummary
    else
      var s := Summarize(accounts[..|accounts| - 1]);
      AddAccountKeepsTotals(s, accounts[|accounts| - 1]);
      AddAccount(s, accounts[|accounts| - 1])
  }

  /** The totals are the sums of the listed values, and every listed value is positive. */
  predicate TotalsMatch(s: Summary) {
    && s.totalEquityValue == Sum(s.equityHoldings, EquityValue)
    && s.totalMfValue == Sum(s.mutualFundHoldings, FundValue)
    && (forall i :: 0 <= i < |s.equityHoldings| ==> s.equityHoldings[i].value > 0.0)
    && (forall i :: 0 <= i < |s.mutualFundHoldings| ==> s.mutualFundHoldings[i].value > 0.0)
  }

  lemma AddAccountKeepsTotals(s: Summary, a: Account)
    requires TotalsMatch(s)
    ensures TotalsMatch(AddAccount(s, a))
  {
    var withPan := if |a.owners| > 0 && s.investorPan == "" then s.(investorPan := a.owners[0].pan) else s;
    assert TotalsMatch(withPan);
    AddEquitiesKeepsTotals(withPan, a.name, a.equities);
    AddFundsKeepsTotals(AddEquities(withPan, a.name, a.equities), a.mutualFunds);
  }

  lemma AddEquitiesKeepsTotals(s: Summary, account: string, es: seq<EquityIn>)
    requires TotalsMatch(s)
    ensures TotalsMatch(AddEquities(s, account, es))
  {
    var r := AddEquities(s, account, es);
    forall i | 0 <= i < |r.equityHoldings| ensures r.equityHoldings[i].value > 0.0 {
      if i < |s.equityHoldings| {
        assert r.equityHoldings[i] == r.equityHoldings[..|s.equityHoldings|][i];
      }
    }
  }

  lemma AddFundsKeepsTotals(s: Summary, fs: seq<FundIn>)
    requires TotalsMatch(s)
    ensures TotalsMatch(AddFunds(s, fs))
  {
    var r := AddFunds(s, fs);
    forall i | 0 <= i < |r.mutualFundHoldings| ensures r.mutualFundHoldings[i].value > 0.0 {
      if i < |s.mutualFundHoldings| {
        assert r.mutualFundHoldings[i] == r.mutualFundHoldings[..|s.mutualFundHoldings|][i];
      }
    }
  }

  // ---------------------------------------------------------------------------
  // The fold against its reference definitions
  // ---------------------------------------------------------------------------

  predicate PositiveEquity(e: EquityIn) { e.value > 0.0 }

  predicate PositiveFund(f: FundIn) { f.value > 0.0 }

  function EquityRows(kept: seq<EquityIn>, account: string): (r: seq<EquityRow>)
    ensures |r| == |kept|
  {
    seq(|kept|, i requires 0 <= i < |kept| => EquityRowOf(kept[i], account))
  }

  function FundRows(kept: seq<FundIn>): (r: seq<FundRow>)
    ensures |r| == |kept|
  {
    seq(|kept|, i requires 0 <= i < |kept| => FundRowOf(kept[i]))
  }

  lemma EquityRowsSnoc(kept: seq<EquityIn>, e: EquityIn, account: string)
    ensures EquityRows(kept + [e], account) == EquityRows(kept, account) + [EquityRowOf(e, account)]
  {
  }

  lemma FundRowsSnoc(kept: seq<FundIn>, f: FundIn)
    ensures FundRows(kept + [f]) == FundRows(kept) + [FundRowOf(f)]
  {
  }

  /** Filtering `xs + [x]` keeps what filtering `xs` keeps, then `x` if it passes. */
  lemma FilterSnoc<T>(xs: seq<T>, x: T, p: T -> bool)
    ensures Filter(xs + [x], p) == Filter(xs, p) + (if p(x) then [x] else [])
  {
    FilterAppend(xs, [x], p);
    assert Filter([x], p) == (if p(x) then [x] else []) + Filter([x][1..], p);
  }

  /** The equity loop appends one row, in order, for each entry with a positive value. */
  lemma {:induction false} AddEquitiesRows(s: Summary, account: string, es: seq<EquityIn>)
    ensures AddEquities(s, account, es).equityHoldings
            == s.equityHoldings + EquityRows(Filter(es, PositiveEquity), account)
  {
    if |es| == 0 {
      assert EquityRows(Filter(es, PositiveEquity), account) == [];
      assert s.equityHoldings + [] == s.equityHoldings;
    } else {
      var init := es[..|es| - 1];
      var e := es[|es| - 1];
      var t := AddEquities(s, account, init);
      AddEquitiesRows(s, account, init);
      var kept := Filter(init, PositiveEquity);
      assert init + [e] == es;
      FilterSnoc(init, e, PositiveEquity);
      if e.value > 0.0 {
        assert AddEquities(s, account, es).equityHoldings == t.equityHoldings + [EquityRowOf(e, account)];
        assert Filter(es, PositiveEquity) == kept + [e];
        EquityRowsSnoc(kept, e, account);
        AppendAssoc(s.equityHoldings, EquityRows(kept, account), [EquityRowOf(e, account)]);
      } else {
        assert AddEquities(s, account, es).equityHoldings == t.equityHoldings;
        assert Filter(es, PositiveEquity) == kept;
      }
    }
  }

  /** The fund loop appends one row, in order, for each entry with a positive value. */
  lemma {:induction false} AddFundsRows(s: Summary, fs: seq<FundIn>)
    ensures AddFunds(s, fs).mutualFundHoldings == s.mutualFundHoldings + FundRows(Filter(fs, PositiveFund))
  {
    if |fs| == 0 {
      assert FundRows(Filter(fs, PositiveFund)) == [];
      assert s.mutualFundHoldings + [] == s.mutualFundHoldings;
    } else {
      var init := fs[..|fs| - 1];
      var f := fs[|fs| - 1];
      var t := AddFunds(s, init);
      AddFundsRows(s, init);
      var kept := Filter(init, PositiveFund);
      assert init + [f] == fs;
      FilterSnoc(init, f, PositiveFund);
      if f.value > 0.0 {
        assert AddFunds(s, fs).mutualFundHoldings == t.mutualFundHoldings + [FundRowOf(f)];
        assert Filter(fs, PositiveFund) == kept + [f];
        FundRowsSnoc(kept, f);
        AppendAssoc(s.mutualFundHoldings, FundRows(kept), [FundRowOf(f)]);
      } else {
        assert AddFunds(s, fs).mutualFundHoldings == t.mutualFundHoldings;
        assert Filter(fs, PositiveFund) == kept;
      }
    }
  }

  /** All kept rows of a list of accounts, account by account. */
  function AllEquities(accounts: seq<Account>): seq<EquityRow> {
    if |accounts| == 0 then []
    else EquityRows(Filter(accounts[0].equities, PositiveEquity), accounts[0].name) + AllEquities(accounts[1..])
  }

  function AllFunds(accounts: seq<Account>): seq<FundRow> {
    if |accounts| == 0 then []
    else FundRows(Filter(accounts[0].mutualFunds, PositiveFund)) + AllFunds(accounts[1..])
  }

  /** The PAN of the first owner of the first account that has owners and a non-empty
      first PAN, or "". */
  function FirstPan(accounts: seq<Account>): string {
    if |accounts| == 0 then ""
    else if |accounts[0].owners| > 0 && accounts[0].owners[0].pan != "" then accounts[0].owners[0].pan
    else FirstPan(accounts[1..])
  }

  lemma {:induction false} AllEquitiesSnoc(accounts: seq<Account>, a: Account)
    ensures AllEquities(accounts + [a])
            == AllEquities(accounts) + EquityRows(Filter(a.equities, PositiveEquity), a.name)
  {
    if |accounts| == 0 {
      assert accounts + [a] == [a];
    } else {
      var ys := accounts + [a];
      assert ys[0] == accounts[0] && ys[1..] == accounts[1..] + [a];
      AllEquitiesSnoc(accounts[1..], a);
      AppendAssoc(EquityRows(Filter(accounts[0].equities, PositiveEquity), accounts[0].name),
                  AllEquities(accounts[1..]), EquityRows(Filter(a.equities, PositiveEquity), a.name));
    }
  }

  lemma {:induction false} AllFundsSnoc(accounts: seq<Account>, a: Account)
    ensures AllFunds(accounts + [a]) == AllFunds(accounts) + FundRows(Filter(a.mutualFunds, PositiveFund))
  {
    if |accounts| == 0 {
      assert accounts + [a] == [a];
    } else {
      var ys := accounts + [a];
      assert ys[0] == accounts[0] && ys[1..] == accounts[1..] + [a];
      AllFundsSnoc(accounts[1..], a);
      AppendAssoc(FundRows(Filter(accounts[0].mutualFunds, PositiveFund)),
                  AllFunds(accounts[1..]), FundRows(Filter(a.mutualFunds, PositiveFund)));
    }
  }

  lemma {:induction false} FirstPanSnoc(accounts: seq<Account>, a: Account)
    ensures FirstPan(accounts + [a])
            == if FirstPan(accounts) != "" || |a.owners| == 0 then FirstPan(accounts) else a.owners[0].pan
  {
    if |accounts| == 0 {
      assert accounts + [a] == [a];
    } else {
      assert (accounts + [a])[1..] == accounts[1..] + [a];
      FirstPanSnoc(accounts[1..], a);
    }
  }

  /** One more account, in terms of the summary of the accounts before it. */
  lemma SummarizeSnoc(init: seq<Account>, a: Account)
    ensures Summarize(init + [a]) == AddAccount(Summarize(init), a)
  {
    assert (init + [a])[..|init + [a]| - 1] == init;
  }

  lemma {:induction false} SummarizeEquities(accounts: seq<Account>)
    ensures Summarize(accounts).equityHoldings == AllEquities(accounts)
  {
    if |accounts| > 0 {
      var init := accounts[..|accounts| - 1];
      var a := accounts[|accounts| - 1];
      assert init + [a] == accounts;
      SummarizeEquities(init);
      SummarizeSnoc(init, a);
      AllEquitiesSnoc(init, a);
      var s := Summarize(init);
      var withPan := if |a.owners| > 0 && s.investorPan == "" then s.(investorPan := a.owners[0].pan) else s;
      AddEquitiesRows(withPan, a.name, a.equities);
      var e := AddEquities(withPan, a.name, a.equities);
      assert Summarize(accounts) == AddFunds(e, a.mutualFunds);
      assert Summarize(accounts).equityHoldings == e.equityHoldings;
    }
  }

  lemma {:induction false} SummarizeFunds(accounts: seq<Account>)
    ensures Summarize(accounts).mutualFundHoldings == AllFunds(accounts)
  {
    if |accounts| > 0 {
      var init := accounts[..|accounts| - 1];
      var a := accounts[|accounts| - 1];
      assert init + [a] == accounts;
      SummarizeFunds(init);
      SummarizeSnoc(init, a);
      AllFundsSnoc(init, a);
      var s := Summarize(init);
      var withPan := if |a.owners| > 0 && s.investorPan == "" then s.(investorPan := a.owners[0].pan) else s;
      var e := AddEquities(withPan, a.name, a.equities);
      AddFundsRows(e, a.mutualFunds);
      assert Summarize(accounts) == AddFunds(e, a.mutualFunds);
      assert e.mutualFundHoldings == s.mutualFundHoldings;
    }
  }

  lemma {:induction false} SummarizePan(accounts: seq<Account>)
    ensures Summarize(accounts).investorPan == FirstPan(accounts)
  {
    if |accounts| > 0 {
      var init := accounts[..|accounts| - 1];
      var a := accounts[|accounts| - 1];
      assert init + [a] == accounts;
      SummarizePan(init);
      SummarizeSnoc(init, a);
      FirstPanSnoc(init, a);
    }
  }

  /** The summary holds exactly the rows of the reference definitions: every equity and
      every fund with a positive value, account by account, in order; its PAN is the
      first non-empty PAN of a first owner; its totals are the sums of the rows. */
  lemma SummarizeMatchesReference(accounts: seq<Account>)
    ensures Summarize(accounts).equityHoldings == AllEquities(accounts)
    ensures Summarize(accounts).mutualFundHoldings == AllFunds(accounts)
    ensures Summarize(accounts).investorPan == FirstPan(accounts)
    ensures TotalPortfolioValue(Summarize(accounts))
            == Sum(AllEquities(accounts), EquityValue) + Sum(AllFunds(accounts), FundValue)
    ensures TotalHoldings(Summarize(accounts)) == |AllEquities(accounts)| + |AllFunds(accounts)|
  {
    SummarizeEquities(accounts);
    SummarizeFunds(accounts);
    SummarizePan(accounts);
  }

  /** An account list with nothing of positive value gives an empty summary with zero
      totals. */
  lemma NothingPositiveNothingListed(accounts: seq<Account>)
    requires forall i, j :: 0 <= i < |accounts| && 0 <= j < |accounts[i].equities| ==>
               accounts[i].equities[j].value <= 0.0
    requires forall i, j :: 0 <= i < |accounts| && 0 <= j < |accounts[i].mutualFunds| ==>
               accounts[i].mutualFunds[j].value <= 0.0
    ensures TotalHoldings(Summarize(accounts)) == 0
    ensures TotalPortfolioValue(Summarize(accounts)) == 0.0
  {
    NothingPositiveRows(accounts);
    SummarizeMatchesReference(accounts);
  }

  lemma {:induction false} NothingPositiveRows(accounts: seq<Account>)
    requires forall i, j :: 0 <= i < |accounts| && 0 <= j < |accounts[i].equities| ==>
               accounts[i].equities[j].value <= 0.0
    requires forall i, j :: 0 <= i < |accounts| && 0 <= j < |accounts[i].mutualFunds| ==>
               accounts[i].mutualFunds[j].value <= 0.0
    ensures AllEquities(accounts) == [] && AllFunds(accounts) == []
  {
    if |accounts| > 0 {
      NothingPositiveRows(accounts[1..]);
      var a := accounts[0];
      FilterNonePass(a.equities, PositiveEquity);
      FilterNonePass(a.mutualFunds, PositiveFund);
    }
  }
}


=== FILE: file_upload_zone.dfy ===
/** The drop zone of the upload dialog. A dropped file is filtered by type and size;
    a file chosen through the picker is passed on as it is. */
module FileUploadZone {

  import opened Wrappers
  import opened PdfDocument

  /** The drop-path size limit, 15 MiB (one MiB less than the uploader's). */
  const MaxDropBytes: nat := 15 * 1024 * 1024

  /** The file handed to `onFileSelect`, if any, for a drop of `files`. */
  function HandleDrop(files: seq<UploadFile>): (r: Option<UploadFile>)
    ensures r.Some? <==> |files| > 0 && files[0].mimeType == PdfMimeType && files[0].size <= MaxDropBytes
    ensures r.Some? ==> r.value == files[0]
  {
    if |files| > 0 && files[0].mimeType == PdfMimeType && files[0].size <= MaxDropBytes then Some(files[0])
    else None
  }

  /** The file handed to `onFileSelect`, if any, for a picker selection of `files`. */
  function HandleFileInput(files: seq<UploadFile>): (r: Option<UploadFile>)
    ensures r.Some? <==> |files| > 0
    ensures r.Some? ==> r.value == files[0]
  {
    if |files| > 0 then Some(files[0]) else None
  }

  /** Whatever a drop passes on, the picker passes on too; the picker also passes on
      files the drop refuses, such as a non-PDF or an oversized one. */
  lemma PickerAcceptsWhatDropAccepts(files: seq<UploadFile>)
    ensures HandleDrop(files).Some? ==> HandleFileInput(files) == HandleDrop(files)
    ensures |files| > 0 && files[0].mimeType != PdfMimeType ==>
              HandleDrop(files).None? && HandleFileInput(files) == Some(files[0])
  {
  }

  /** Of two files differing only in size, the drop accepts the larger only if it accepts
      the smaller. */
  lemma DropSizeMonotone(f: UploadFile, g: UploadFile)
    requires f.name == g.name && f.mimeType == g.mimeType && f.size <= g.size
    ensures HandleDrop([g]).Some? ==> HandleDrop([f]).Some?
  {
  }
}

=== FILE: fund_form.dfy ===
/** The form that adds a card to the canvas: a name, an amount typed into a number
    input, and a risk level chosen with three buttons. */
module FundForm {

  import opened Wrappers
  import opened Text
  import opened Numbers
  import Canvas

  datatype FormState = FormState(name: string, amount: string, risk: Canvas.Risk)

  const Initial: FormState := FormState("", "", Canvas.Medium)

  /** What `onAdd` receives. */
  datatype NewFund = NewFund(name: string, amount: Option<real>, risk: Canvas.Risk)

  /** `Number(amount)` for the text of a number input, which is either empty or a
      decimal numeral; `None` stands for NaN. */
  function NumberOf(amount: string): Option<real> {
    ParseFloat(amount)
  }

  datatype Submitted = Submitted(state: FormState, added: Option<NewFund>)

  /** `handleSubmit`: with an empty name or amount nothing happens; otherwise `onAdd` is
      called once with the fields and the form returns to its initial state. */
  function HandleSubmit(st: FormState): (r: Submitted)
    ensures st.name == "" || st.amount == "" ==> r == Submitted(st, None)
    ensures st.name != "" && st.amount != "" ==>
              r.added == Some(NewFund(st.name, NumberOf(st.amount), st.risk)) && r.state == Initial
  {
    if st.name == "" || st.amount == "" then Submitted(st, None)
    else Submitted(Initial, Some(NewFund(st.name, NumberOf(st.amount), st.risk)))
  }

  /** The form starts in a state that cannot submit, and returns to it after every
      submission that adds a fund. */
  lemma SubmitResets(st: FormState)
    ensures HandleSubmit(Initial).added.None?
    ensures HandleSubmit(st).added.Some? ==> HandleSubmit(HandleSubmit(st).state).added.None?
  {
  }

  /** A whole-number amount reaches the canvas as that number. */
  lemma WholeAmountKept(st: FormState, n: nat)
    requires st.name != "" && st.amount == NatToString(n)
    ensures HandleSubmit(st).added.value.amount == Some(n as real)
  {
    ParseFloatNatToString(n);
  }

  /** Submitting the form and adding its fund to the canvas appends one card carrying
      exactly the form's name, amount and risk. */
  lemma FormThenCanvas(st: FormState, funds: seq<Canvas.CanvasFund>, now: nat, rx: real, ry: real)
    requires 0.0 <= rx < 1.0 && 0.0 <= ry < 1.0
    requires HandleSubmit(st).added.Some?
    ensures var f := HandleSubmit(st).added.value;
      var r := Canvas.AddFund(funds, f.name, f.amount, f.risk, now, rx, ry);
      && |r| == |funds| + 1
      && r[|funds|].name == st.name && r[|funds|].risk == st.risk
      && r[|funds|].amount == NumberOf(st.amount)
  {
  }
}

=== FILE: health_score.dfy ===
/** The portfolio health card: the score's colour, its label and its badge, and the
    badge of the risk level. */
module HealthScore {

  datatype ScoreColor = Success | Warning | Destructive

  /** `getScoreColor`. */
  function ScoreColorOf(score: real): (c: ScoreColor)
    ensures c == Success <==> score >= 80.0
    ensures c == Warning <==> 60.0 <= score < 80.0
    ensures c == Destructive <==> score < 60.0
  {
    if score >= 80.0 then Success else if score >= 60.0 then Warning else Destructive
  }

  datatype ScoreLabel = Excellent | Good | Fair | Poor

  /** `getScoreLabel`. */
  function ScoreLabelOf(score: real): (l: ScoreLabel)
    ensures l == Excellent <==> score >= 80.0
    ensures l == Good <==> 60.0 <= score < 80.0
    ensures l == Fair <==> 40.0 <= score < 60.0
    ensures l == Poor <==> score < 40.0
  {
    if score >= 80.0 then Excellent else if score >= 60.0 then Good else if score >= 40.0 then Fair else Poor
  }

  /** Labels from worst (0) to best (3). */
  function LabelRank(l: ScoreLabel): nat {
    match l
    case Poor => 0
    case Fair => 1
    case Good => 2
    case Excellent => 3
  }

  /** A higher score never gets a worse label. */
  lemma LabelMonotone(a: real, b: real)
    requires a <= b
    ensures LabelRank(ScoreLabelOf(a)) <= LabelRank(ScoreLabelOf(b))
  {
  }

  datatype BadgeVariant = Default | Secondary | DestructiveBadge

  /** The score badge: `score >= 60 ? "default" : "destructive"`. */
  function ScoreBadge(score: real): BadgeVariant {
    if score >= 60.0 then Default else DestructiveBadge
  }

  /** The badge, the colour and the label tell the same story at 60: the badge is the
      default one exactly when the colour is not destructive, exactly when the label is
      Good or Excellent. */
  lemma BadgeAgreesWithColor(score: real)
    ensures ScoreBadge(score) == Default <==> ScoreColorOf(score) != Destructive
    ensures ScoreBadge(score) == Default <==> ScoreLabelOf(score) in {Good, Excellent}
  {
  }

  datatype RiskLevel = LowRisk | MediumRisk | HighRisk

  /** The risk badge. */
  function RiskBadge(r: RiskLevel): (v: BadgeVariant)
    ensures v == Default <==> r == LowRisk
    ensures v == Secondary <==> r == MediumRisk
    ensures v == DestructiveBadge <==> r == HighRisk
  {
    match r
    case LowRisk => Default
    case MediumRisk => Secondary
    case HighRisk => DestructiveBadge
  }
}

=== FILE: holdings_store.dfy ===
/** The `portfolio_holdings` table as src/hooks/usePortfolioHoldings.ts uses it: a query
    for one user's rows, newest first; an upsert of a batch keyed by
    (user_id, scheme_code, folio_number); and a delete by row id. The table is a map
    from the conflict key to the row; row ids and creation times come from the store
    (`nextId`) and from a `now` parameter. */
module HoldingsStore {

  import opened Wrappers

  /** The columns a client writes. A number column that is `None` holds NaN (the upload
      dialog can write "NaN"); `category` and `folioNumber` are `None` for SQL NULL. */
  datatype Holding = Holding(
    schemeCode: string,
    schemeName: string,
    folioNumber: Option<string>,
    units: Option<real>,
    currentNav: Option<real>,
    investedAmount: Option<real>,
    currentValue: Option<real>,
    returnsAmount: Option<real>,
    returnsPercentage: Option<real>,
    category: Option<string>)

  /** One element of the batch handed to `importHoldings`, with the `user_id` the caller
      put in it. */
  datatype HoldingInput = HoldingInput(userId: string, holding: Holding)

  /** The upsert's conflict target. */
  datatype Key = Key(userId: string, schemeCode: string, folioNumber: Option<string>)

  datatype Row = Row(id: nat, userId: string, holding: Holding, createdAt: int)

  datatype Store = Store(rows: map<Key, Row>, nextId: nat)

  function KeyOf(userId: string, h: Holding): Key {
    Key(userId, h.schemeCode, h.folioNumber)
  }

  function RowKey(row: Row): Key {
    KeyOf(row.userId, row.holding)
  }

  /** Every row sits under its own key, and row ids are distinct and below `nextId`. */
  predicate Valid(s: Store) {
    && (forall k :: k in s.rows ==> RowKey(s.rows[k]) == k && s.rows[k].id < s.nextId)
    && (forall k1, k2 :: k1 in s.rows && k2 in s.rows && k1 != k2 ==> s.rows[k1].id != s.rows[k2].id)
  }

  /** The keys a batch writes once every element carries `userId`. */
  function BatchKeys(userId: string, batch: seq<Holding>): set<Key> {
    if |batch| == 0 then {}
    else BatchKeys(userId, batch[..|batch| - 1]) + {KeyOf(userId, batch[|batch| - 1])}
  }

  lemma {:induction false} InBatchKeys(userId: string, batch: seq<Holding>)
    ensures forall i :: 0 <= i < |batch| ==> KeyOf(userId, batch[i]) in BatchKeys(userId, batch)
  {
    if |batch| > 0 {
      InBatchKeys(userId, batch[..|batch| - 1]);
    }
  }

  /** No two elements of the batch share a (scheme_code, folio_number) pair. */
  predicate DistinctKeys(batch: seq<Holding>) {
    forall i, j :: 0 <= i < j < |batch| ==> KeyOf("", batch[i]) != KeyOf("", batch[j])
  }

  // ---------------------------------------------------------------------------
  // importHoldings
  // ---------------------------------------------------------------------------

  /** One `INSERT ... ON CONFLICT DO UPDATE`: an existing row under the key takes the new
      column values and keeps its id and creation time; otherwise a new row is added. */
  function Upsert(s: Store, userId: string, h: Holding, now: int): (r: Store)
    requires Valid(s)
    ensures Valid(r)
    ensures r.rows.Keys == s.rows.Keys + {KeyOf(userId, h)}
    ensures r.rows[KeyOf(userId, h)].holding == h && r.rows[KeyOf(userId, h)].userId == userId
    ensures forall k :: k in s.rows && k != KeyOf(userId, h) ==> r.rows[k] == s.rows[k]
    ensures forall k :: k in s.rows ==> r.rows[k].id == s.rows[k].id && r.rows[k].createdAt == s.rows[k].createdAt
    ensures KeyOf(userId, h) in s.rows ==> r.nextId == s.nextId
    ensures forall k :: k in r.rows && k !in s.rows ==> r.rows[k].createdAt == now && r.rows[k].userId == userId
  {
    var k := KeyOf(userId, h);
    if k in s.rows then
      ReplaceKeepsValid(s, k, s.rows[k].(holding := h));
      Store(s.rows[k := s.rows[k].(holding := h)], s.nextId)
    else
      AddKeepsValid(s, k, Row(s.nextId, userId, h, now));
      Store(s.rows[k := Row(s.nextId, userId, h, now)], s.nextId + 1)
  }

  /** A row replaced under its own key, with its id kept. */
  lemma ReplaceKeepsValid(s: Store, k: Key, row: Row)
    requires Valid(s) && k in s.rows && RowKey(row) == k && row.id == s.rows[k].id
    ensures Valid(Store(s.rows[k := row], s.nextId))
  {
    var m := s.rows[k := row];
    forall k1, k2 | k1 in m && k2 in m && k1 != k2
      ensures m[k1].id != m[k2].id
    {
      assert m[k1].id == s.rows[k1].id && m[k2].id == s.rows[k2].id;
    }
  }

  /** A new row under a new key, with the next id. */
  lemma AddKeepsValid(s: Store, k: Key, row: Row)
    requires Valid(s) && k !in s.rows && RowKey(row) == k && row.id == s.nextId
    ensures Valid(Store(s.rows[k := row], s.nextId + 1))
  {
    var m := s.rows[k := row];
    forall k1, k2 | k1 in m && k2 in m && k1 != k2
      ensures m[k1].id != m[k2].id
    {
      if k1 != k && k2 != k {
        assert m[k1] == s.rows[k1] && m[k2] == s.rows[k2];
      }
    }
  }

  /** The batch upserted element by element, in order. */
  function UpsertAll(s: Store, userId: string, batch: seq<Holding>, now: int): (r: Store)
    requires Valid(s)
    ensures Valid(r)
    ensures r.rows.Keys == s.rows.Keys + BatchKeys(userId, batch)
    ensures forall k :: k in s.rows && k !in BatchKeys(userId, batch) ==> r.rows[k] == s.rows[k]
    ensures forall k :: k in s.rows ==> r.rows[k].id == s.rows[k].id && r.rows[k].createdAt == s.rows[k].createdAt
    ensures forall k :: k in r.rows && k !in s.rows ==> r.rows[k].createdAt == now
    ensures forall k :: k in r.rows && k !in s.rows ==> r.rows[k].userId == userId
  {
    if |batch| == 0 then s
    else
      var prefix := batch[..|batch| - 1];
      Upsert(UpsertAll(s, userId, prefix, now), userId, batch[|batch| - 1], now)
  }

  /** With distinct keys, every element of the batch is what its key holds afterwards. */
  lemma {:induction false} UpsertAllStoresBatch(s: Store, userId: string, batch: seq<Holding>, now: int)
    requires Valid(s) && DistinctKeys(batch)
    ensures forall i :: 0 <= i < |batch| ==> KeyOf(userId, batch[i]) in UpsertAll(s, userId, batch, now).rows
    ensures forall i :: 0 <= i < |batch| ==>
      && UpsertAll(s, userId, batch, now).rows[KeyOf(userId, batch[i])].holding == batch[i]
      && UpsertAll(s, userId, batch, now).rows[KeyOf(userId, batch[i])].userId == userId
  {
    InBatchKeys(userId, batch);
    if |batch| > 0 {
      var prefix := batch[..|batch| - 1];
      var last := batch[|batch| - 1];
      UpsertAllStoresBatch(s, userId, prefix, now);
      var mid := UpsertAll(s, userId, prefix, now);
      var r := UpsertAll(s, userId, batch, now);
      assert r == Upsert(mid, userId, last, now);
      forall i | 0 <= i < |batch|
        ensures r.rows[KeyOf(userId, batch[i])].holding == batch[i]
        ensures r.rows[KeyOf(userId, batch[i])].userId == userId
      {
        if i < |batch| - 1 {
          assert batch[i] == prefix[i];
          assert KeyOf("", batch[i]) != KeyOf("", last);
          assert KeyOf(userId, batch[i]) != KeyOf(userId, last);
        }
      }
    }
  }

  /** `importHoldings(batch)` with the hook's `userId`: without a user it fails before
      touching the table; otherwise every element is written under `userId`, whatever
      `user_id` it carried, and the written rows come back in batch order. */
  function Import(s: Store, userId: Option<string>, batch: seq<HoldingInput>, now: int)
    : (r: Result<(Store, seq<Row>), string>)
    requires Valid(s)
    requires DistinctKeys(Holdings(batch))
    ensures userId.None? <==> r == Failure("User not authenticated")
    ensures r.Success? ==> Valid(r.value.0) && |r.value.1| == |batch|
    ensures r.Success? ==> forall i :: 0 <= i < |batch| ==>
      && r.value.1[i].userId == userId.value
      && r.value.1[i].holding == batch[i].holding
      && KeyOf(userId.value, batch[i].holding) in r.value.0.rows
      && r.value.0.rows[KeyOf(userId.value, batch[i].holding)] == r.value.1[i]
    ensures r.Success? ==> r.value.0.rows.Keys == s.rows.Keys + BatchKeys(userId.value, Holdings(batch))
    ensures r.Success? ==> forall k :: k in s.rows && k !in BatchKeys(userId.value, Holdings(batch))
                                       ==> r.value.0.rows[k] == s.rows[k]
  {
    if userId.None? then Failure("User not authenticated")
    else
      var uid := userId.value;
      var hs := Holdings(batch);
      var t := UpsertAll(s, uid, hs, now);
      UpsertAllStoresBatch(s, uid, hs, now);
      InBatchKeys(uid, hs);
      Success((t, RowsOf(t, uid, hs)))
  }

  /** The rows stored under the keys of a batch, in batch order. */
  function RowsOf(t: Store, userId: string, hs: seq<Holding>): (r: seq<Row>)
    requires forall i :: 0 <= i < |hs| ==> KeyOf(userId, hs[i]) in t.rows
    ensures |r| == |hs|
    ensures forall i :: 0 <= i < |hs| ==> r[i] == t.rows[KeyOf(userId, hs[i])]
  {
    seq(|hs|, i requires 0 <= i < |hs| => t.rows[KeyOf(userId, hs[i])])
  }

  function Holdings(batch: seq<HoldingInput>): (r: seq<Holding>)
    ensures |r| == |batch| && forall i :: 0 <= i < |batch| ==> r[i] == batch[i].holding
  {
    seq(|batch|, i requires 0 <= i < |batch| => batch[i].holding)
  }

  /** Upserting a batch whose rows are already stored changes nothing. */
  lemma {:induction false} UpsertAllStored(s: Store, userId: string, batch: seq<Holding>, now: int)
    requires Valid(s)
    requires forall i :: 0 <= i < |batch| ==>
      KeyOf(userId, batch[i]) in s.rows && s.rows[KeyOf(userId, batch[i])].holding == batch[i]
    ensures UpsertAll(s, userId, batch, now) == s
  {
    if |batch| > 0 {
      var prefix := batch[..|batch| - 1];
      var last := batch[|batch| - 1];
      assert forall i :: 0 <= i < |prefix| ==> prefix[i] == batch[i];
      UpsertAllStored(s, userId, prefix, now);
      assert UpsertAll(s, userId, batch, now) == Upsert(s, userId, last, now);
      var k := KeyOf(userId, last);
      assert s.rows[k].(holding := last) == s.rows[k];
      UpdateSame(s.rows, k);
    }
  }

  /** Writing back the value a key holds leaves the map as it is. */
  lemma UpdateSame<K, V>(m: map<K, V>, k: K)
    requires k in m
    ensures m[k := m[k]] == m
  {
    assert m[k := m[k]].Keys == m.Keys;
  }

  /** Importing the same batch twice leaves the table as importing it once. */
  lemma ImportIdempotent(s: Store, userId: string, batch: seq<HoldingInput>, now: int, later: int)
    requires Valid(s) && DistinctKeys(Holdings(batch))
    ensures Import(s, Some(userId), batch, now).Success?
    ensures var once := Import(s, Some(userId), batch, now).value.0;
            Import(once, Some(userId), batch, later).Success?
            && Import(once, Some(userId), batch, later).value.0 == once
  {
    var hs := Holdings(batch);
    UpsertAllStoresBatch(s, userId, hs, now);
    var once := UpsertAll(s, userId, hs, now);
    assert Import(s, Some(userId), batch, now) == Success((once, RowsOf(once, userId, hs)));
    UpsertAllStored(once, userId, hs, later);
    assert Import(once, Some(userId), batch, later).value.0 == UpsertAll(once, userId, hs, later);
  }

  // ---------------------------------------------------------------------------
  // The holdings query and deleteHolding
  // ---------------------------------------------------------------------------

  predicate SortedNewestFirst(rows: seq<Row>) {
    forall i, j :: 0 <= i < j < |rows| ==> rows[i].createdAt >= rows[j].createdAt
  }

  predicate DistinctIds(rows: seq<Row>) {
    forall i, j :: 0 <= i < j < |rows| ==> rows[i].id != rows[j].id
  }

  /** Index of the first row strictly older than `x`, or `|rows|`. */
  function FirstOlder(rows: seq<Row>, x: Row): (p: nat)
    ensures p <= |rows|
    ensures forall i :: 0 <= i < p ==> rows[i].createdAt >= x.createdAt
    ensures p < |rows| ==> rows[p].createdAt < x.createdAt
  {
    if |rows| == 0 || rows[0].createdAt < x.createdAt then 0 else 1 + FirstOlder(rows[1..], x)
  }

  /** Inserts `x` into a newest-first sequence, after the rows at least as new. */
  function InsertNewestFirst(rows: seq<Row>, x: Row): (r: seq<Row>)
    requires SortedNewestFirst(rows)
    ensures SortedNewestFirst(r)
    ensures forall y :: y in r <==> y in rows || y == x
  {
    var p := FirstOlder(rows, x);
    InsertAtSorted(rows, x, p);
    InsertAtMembers(rows, x, p);
    rows[..p] + [x] + rows[p..]
  }

  lemma InsertAtSorted(rows: seq<Row>, x: Row, p: nat)
    requires SortedNewestFirst(rows) && p <= |rows|
    requires forall i :: 0 <= i < p ==> rows[i].createdAt >= x.createdAt
    requires p < |rows| ==> rows[p].createdAt < x.createdAt
    ensures SortedNewestFirst(rows[..p] + [x] + rows[p..])
  {
    var r := rows[..p] + [x] + rows[p..];
    forall i, j | 0 <= i < j < |r|
      ensures r[i].createdAt >= r[j].createdAt
    {
      if j < p {
        assert r[i] == rows[i] && r[j] == rows[j];
      } else if j == p {
        assert r[i] == rows[i];
      } else if i < p {
        assert r[i] == rows[i] && r[j] == rows[j - 1];
      } else if i == p {
        assert r[j] == rows[j - 1];
      } else {
        assert r[i] == rows[i - 1] && r[j] == rows[j - 1];
      }
    }
  }

  lemma InsertAtMembers(rows: seq<Row>, x: Row, p: nat)
    requires p <= |rows|
    ensures forall y :: y in rows[..p] + [x] + rows[p..] <==> y in rows || y == x
  {
    assert rows == rows[..p] + rows[p..];
  }

  lemma InsertKeepsDistinct(rows: seq<Row>, x: Row)
    requires SortedNewestFirst(rows) && DistinctIds(rows)
    requires forall i :: 0 <= i < |rows| ==> rows[i].id != x.id
    ensures DistinctIds(InsertNewestFirst(rows, x))
  {
    var p := FirstOlder(rows, x);
    var r := InsertNewestFirst(rows, x);
    assert r == rows[..p] + [x] + rows[p..];
    forall i, j | 0 <= i < j < |r|
      ensures r[i].id != r[j].id
    {
      var a := if i < p then i else i - 1;
      var b := if j <= p then j else j - 1;
      if i == p {
        assert r[j] == rows[b];
      } else if j == p {
        assert r[i] == rows[a];
      } else {
        assert r[i] == rows[a] && r[j] == rows[b] && a < b;
      }
    }
  }

  /** The query `select * ... eq("user_id", userId) order("created_at", desc)`, or `[]`
      when there is no user. Rows with the same creation time may come in any order. */
  method Query(s: Store, userId: Option<string>) returns (r: seq<Row>)
    requires Valid(s)
    ensures userId.None? ==> r == []
    ensures SortedNewestFirst(r)
    ensures forall i :: 0 <= i < |r| ==> userId.Some? && r[i].userId == userId.value
    ensures forall i :: 0 <= i < |r| ==> RowKey(r[i]) in s.rows && s.rows[RowKey(r[i])] == r[i]
    ensures forall k :: k in s.rows && userId.Some? && s.rows[k].userId == userId.value ==> s.rows[k] in r
    ensures DistinctIds(r)
  {
    r := [];
    if userId.None? {
      return;
    }
    var uid := userId.value;
    var todo := s.rows.Keys;
    while todo != {}
      invariant todo <= s.rows.Keys
      invariant SortedNewestFirst(r)
      invariant forall x :: x in r ==>
        x.userId == uid && RowKey(x) in s.rows && RowKey(x) !in todo && s.rows[RowKey(x)] == x
      invariant forall k :: k in s.rows && k !in todo && s.rows[k].userId == uid ==> s.rows[k] in r
      invariant DistinctIds(r)
      decreases |todo|
    {
      var k :| k in todo;
      var row := s.rows[k];
      if row.userId == uid {
        forall i | 0 <= i < |r|
          ensures r[i].id != row.id
        {
          assert RowKey(r[i]) != k;
        }
        InsertKeepsDistinct(r, row);
        r := InsertNewestFirst(r, row);
      }
      todo := todo - {k};
    }
  }

  /** `deleteHolding(id)`: removes the row with that id and nothing else. */
  function DeleteHolding(s: Store, id: nat): (r: Store)
    requires Valid(s)
    ensures Valid(r)
    ensures forall k :: k in r.rows ==> r.rows[k].id != id
    ensures forall k :: k in s.rows && s.rows[k].id != id ==> k in r.rows && r.rows[k] == s.rows[k]
    ensures forall k :: k in s.rows && k !in r.rows ==> s.rows[k].id == id
    ensures r.rows.Keys <= s.rows.Keys
  {
    Store(map k | k in s.rows && s.rows[k].id != id :: s.rows[k], s.nextId)
  }
}

=== FILE: keyed_lists.dfy ===
/** Lists of records keyed by a string id, as the canvas and the watchlist keep them:
    removal is `list.filter(item => item.id !== id)`. */
module KeyedLists {

  import opened Seqs

  /** The number of items carrying `id`. */
  function CountId<T>(xs: seq<T>, idOf: T -> string, id: string): (n: nat)
    ensures n <= |xs|
  {
    if |xs| == 0 then 0 else (if idOf(xs[0]) == id then 1 else 0) + CountId(xs[1..], idOf, id)
  }

  /** Every item whose id is `id` is dropped and every other one is kept: the list shrinks
      by exactly the number of items carrying the id. */
  function RemoveById<T>(xs: seq<T>, idOf: T -> string, id: string): (r: seq<T>)
    ensures forall i :: 0 <= i < |r| ==> idOf(r[i]) != id
    ensures forall x :: x in r ==> x in xs
    ensures forall x :: x in xs && idOf(x) != id ==> x in r
    ensures |r| == |xs| - CountId(xs, idOf, id)
  {
    if |xs| == 0 then []
    else (if idOf(xs[0]) == id then [] else [xs[0]]) + RemoveById(xs[1..], idOf, id)
  }

  /** The kept items stay in their original order. */
  lemma {:induction false} RemoveKeepsOrder<T>(xs: seq<T>, idOf: T -> string, id: string)
    ensures IsSubsequence(RemoveById(xs, idOf, id), xs)
  {
    if |xs| > 0 {
      var rest := RemoveById(xs[1..], idOf, id);
      RemoveKeepsOrder(xs[1..], idOf, id);
      if idOf(xs[0]) == id {
        assert RemoveById(xs, idOf, id) == rest;
        SubsequenceCons(rest, xs[1..], xs[0]);
        assert [xs[0]] + xs[1..] == xs;
      } else {
        assert RemoveById(xs, idOf, id) == [xs[0]] + rest;
        assert ([xs[0]] + rest)[1..] == rest;
      }
    }
  }

  /** Removing an id nobody carries changes nothing. */
  lemma {:induction false} RemoveAbsent<T>(xs: seq<T>, idOf: T -> string, id: string)
    requires forall i :: 0 <= i < |xs| ==> idOf(xs[i]) != id
    ensures RemoveById(xs, idOf, id) == xs
  {
    if |xs| > 0 {
      RemoveAbsent(xs[1..], idOf, id);
      assert [xs[0]] + xs[1..] == xs;
    }
  }

  /** Removing twice is removing once. */
  lemma RemoveIdempotent<T>(xs: seq<T>, idOf: T -> string, id: string)
    ensures RemoveById(RemoveById(xs, idOf, id), idOf, id) == RemoveById(xs, idOf, id)
  {
    RemoveAbsent(RemoveById(xs, idOf, id), idOf, id);
  }

  /** Removing from a list with one more item at the end. */
  lemma {:induction false} RemoveSnoc<T>(xs: seq<T>, x: T, idOf: T -> string, id: string)
    ensures RemoveById(xs + [x], idOf, id) == RemoveById(xs, idOf, id) + (if idOf(x) == id then [] else [x])
  {
    if |xs| == 0 {
      assert xs + [x] == [x];
    } else {
      var ys := xs + [x];
      assert ys[0] == xs[0] && ys[1..] == xs[1..] + [x];
      RemoveSnoc(xs[1..], x, idOf, id);
      var head := if idOf(xs[0]) == id then [] else [xs[0]];
      var tail := if idOf(x) == id then [] else [x];
      assert RemoveById(ys, idOf, id) == head + (RemoveById(xs[1..], idOf, id) + tail);
      assert RemoveById(xs, idOf, id) == head + RemoveById(xs[1..], idOf, id);
      AppendAssoc(head, RemoveById(xs[1..], idOf, id), tail);
    }
  }
}

=== FILE: news.dfy ===
/** The news page: a search box and category buttons filter a fixed list of stories; the
    first story that passes is featured and the rest fill the grid. */
module News {

  import opened Text
  import opened Seqs

  datatype NewsItem = NewsItem(id: nat, title: string, excerpt: string, category: string, source: string)

  /** The filter: the lower-cased query occurs in the lower-cased title or excerpt, and
      the selected category is "all" or the story's lower-cased category. */
  predicate Matches(item: NewsItem, query: string, selected: string) {
    && (Contains(Lower(item.title), Lower(query)) || Contains(Lower(item.excerpt), Lower(query)))
    && (selected == "all" || Lower(item.category) == selected)
  }

  /** `filteredNews`. */
  function FilteredNews(items: seq<NewsItem>, query: string, selected: string): (r: seq<NewsItem>)
    ensures forall i :: 0 <= i < |r| ==> Matches(r[i], query, selected)
    ensures forall x :: x in items && Matches(x, query, selected) ==> x in r
    ensures forall x :: x in r ==> x in items
    ensures IsSubsequence(r, items)
  {
    FilterIsSubsequence(items, (x: NewsItem) => Matches(x, query, selected));
    Filter(items, (x: NewsItem) => Matches(x, query, selected))
  }

  /** The empty query occurs in every text. */
  lemma EmptyOccursEverywhere(s: string)
    ensures Contains(s, "")
  {
    assert OccursAt(s, "", 0);
  }

  /** With no query and the "all" category every story is listed, in order. */
  lemma NoFilterListsAll(items: seq<NewsItem>)
    ensures FilteredNews(items, "", "all") == items
  {
    forall i | 0 <= i < |items|
      ensures Matches(items[i], "", "all")
    {
      EmptyOccursEverywhere(Lower(items[i].title));
    }
    FilterAllPass(items, (x: NewsItem) => Matches(x, "", "all"));
  }

  /** The query is case-insensitive: typing it in any case finds the same stories. */
  lemma QueryIgnoresCase(item: NewsItem, query: string, selected: string)
    ensures Matches(item, Lower(query), selected) <==> Matches(item, query, selected)
  {
    LowerIdempotent(query);
  }

  /** What the page shows: a featured story and the grid, or the "No news found" card. */
  datatype Page = Page(featured: seq<NewsItem>, grid: seq<NewsItem>, noNewsFound: bool)

  function Render(items: seq<NewsItem>, query: string, selected: string): (r: Page)
    ensures |r.featured| <= 1
    ensures r.noNewsFound <==> forall i :: 0 <= i < |items| ==> !Matches(items[i], query, selected)
    ensures r.featured + r.grid == FilteredNews(items, query, selected)
  {
    var shown := FilteredNews(items, query, selected);
    if |shown| > 0 then
      assert [shown[0]] + shown[1..] == shown;
      Page([shown[0]], shown[1..], false)
    else
      Page([], shown, true)
  }
}

=== FILE: nsdl_uploader.dfy ===
/** The stand-alone statement uploader: it checks the chosen file in the browser,
    posts it with the password to the summary endpoint of the parsing service, and
    shows either the summary or the error the service answered with. */
module NsdlUploader {

  import opened Wrappers
  import opened PdfDocument
  import CasBackend

  /** The browser-side size limit, 16 MiB. */
  const MaxUploadBytes: nat := 16 * 1024 * 1024

  datatype UploaderState = UploaderState(
    file: Option<UploadFile>,
    password: string,
    loading: bool,
    error: string,
    success: bool,
    parsedData: Option<CasBackend.Body>)

  const Initial: UploaderState := UploaderState(None, "", false, "", false, None)

  const NotPdfMessage: string := "Please select a PDF file"
  const TooLargeMessage: string := "File size must be less than 16MB"
  const NoFileMessage: string := "Please select a file"
  const NoPasswordMessage: string := "Please enter password (PAN or Date of Birth)"
  const FallbackMessage: string := "Failed to parse PDF"

  /** `handleFileChange`: only the first selected file counts; the type is checked before
      the size; a rejected file sets the error and keeps the previous file. */
  function HandleFileChange(st: UploaderState, selected: seq<UploadFile>): (r: UploaderState)
    ensures |selected| == 0 ==> r == st
    ensures |selected| > 0 && selected[0].mimeType != PdfMimeType ==> r == st.(error := NotPdfMessage)
    ensures |selected| > 0 && selected[0].mimeType == PdfMimeType && selected[0].size > MaxUploadBytes
            ==> r == st.(error := TooLargeMessage)
    ensures r.file != st.file ==> r.file == Some(selected[0]) && r.error == "" && !r.success
    ensures r.password == st.password && r.loading == st.loading && r.parsedData == st.parsedData
  {
    if |selected| == 0 then st
    else
      var f := selected[0];
      if f.mimeType != PdfMimeType then st.(error := NotPdfMessage)
      else if f.size > MaxUploadBytes then st.(error := TooLargeMessage)
      else st.(file := Some(f), error := "", success := false)
  }

  /** A selected file is taken exactly when it is a PDF of at most 16 MiB (a file of
      exactly 16 MiB is taken); a rejected one leaves the file and the success flag as
      they were and shows an error. */
  lemma FileAcceptedIff(st: UploaderState, f: UploadFile)
    ensures var r := HandleFileChange(st, [f]);
      f.mimeType == PdfMimeType && f.size <= MaxUploadBytes ==> r.file == Some(f) && r.error == "" && !r.success
    ensures var r := HandleFileChange(st, [f]);
      !(f.mimeType == PdfMimeType && f.size <= MaxUploadBytes) ==>
        r.file == st.file && r.error != "" && r.success == st.success
  {
  }

  /** A file that is both of the wrong type and too large is reported for its type. */
  lemma TypeCheckedFirst(st: UploaderState, f: UploadFile)
    requires f.mimeType != PdfMimeType && f.size > MaxUploadBytes
    ensures HandleFileChange(st, [f]).error == NotPdfMessage
  {
  }

  /** What the network call gave back: the service's reply, or an exception thrown by
      the fetch itself with its message. */
  datatype FetchOutcome = Answered(reply: CasBackend.Reply) | Thrown(message: string)

  /** The request the form posts: the file's name as the `file` part and the password.
      The multipart body holds the file's bytes, at least one byte per character of the
      password, and `framing` further bytes of boundaries and part headers, whose exact
      count depends on the boundary the browser picks. */
  function RequestFor(file: UploadFile, password: string, framing: nat): (r: CasBackend.Request)
    ensures password != "" ==> r.bodySize > file.size
  {
    CasBackend.Request(Some(file.name), Some(password), file.size + |password| + framing)
  }

  /** The outcome of one submission: the final state and the request posted, if any. */
  datatype Submitted = Submitted(state: UploaderState, sent: Option<CasBackend.Request>)

  /** `response.ok`: a status in 200..299. */
  predicate Ok(status: nat) {
    200 <= status < 300
  }

  /** The error text shown for a reply that is not ok: `data.error || 'Failed to parse PDF'`. */
  function ReplyError(body: CasBackend.Body): string {
    if body.ErrorBody? && body.error != "" then body.error else FallbackMessage
  }

  /** `data.success`: both success bodies of the service carry `success: true`. */
  predicate BodySucceeded(body: CasBackend.Body) {
    !body.ErrorBody?
  }

  /** `handleSubmit`, through the `finally` that clears `loading`. */
  function HandleSubmit(st: UploaderState, framing: nat, server: CasBackend.Request -> FetchOutcome): (r: Submitted)
    ensures st.file.None? ==> r == Submitted(st.(error := NoFileMessage), None)
    ensures st.file.Some? && st.password == "" ==> r == Submitted(st.(error := NoPasswordMessage), None)
    ensures r.sent.Some? <==> st.file.Some? && st.password != ""
    ensures r.sent.Some? ==> r.sent.value == RequestFor(st.file.value, st.password, framing) && !r.state.loading
    ensures r.state.file == st.file && r.state.password == st.password
    ensures r.sent.Some? && r.state.success ==> r.state.error == "" && r.state.parsedData.Some?
  {
    if st.file.None? then Submitted(st.(error := NoFileMessage), None)
    else if st.password == "" then Submitted(st.(error := NoPasswordMessage), None)
    else
      var req := RequestFor(st.file.value, st.password, framing);
      var started := st.(loading := true, error := "", success := false);
      var done := match server(req)
        case Thrown(m) => started.(error := m)
        case Answered(reply) =>
          if !Ok(reply.status) then started.(error := ReplyError(reply.body))
          else if BodySucceeded(reply.body) then started.(parsedData := Some(reply.body), success := true)
          else started;
      Submitted(done.(loading := false), Some(req))
  }

  /** The submit button is disabled while loading, with no file, or with no password. */
  predicate Disabled(st: UploaderState) {
    st.loading || st.file.None? || st.password == ""
  }

  /** Whenever the button is enabled, submitting posts the request. */
  lemma EnabledSubmitSends(st: UploaderState, framing: nat, server: CasBackend.Request -> FetchOutcome)
    requires !Disabled(st)
    ensures HandleSubmit(st, framing, server).sent == Some(RequestFor(st.file.value, st.password, framing))
  {
  }

  /** `resetForm`. */
  function ResetForm(st: UploaderState): (r: UploaderState)
    ensures r.file.None? && r.password == "" && r.parsedData.None? && r.error == "" && !r.success
    ensures r.loading == st.loading
    ensures Disabled(r)
  {
    st.(success := false, file := None, password := "", parsedData := None, error := "")
  }

  /** Against the service itself: every request the uploader posts passes the summary
      endpoint's checks. When its body is over the service's size limit, or the upload
      cannot be saved under its sanitised name, the form shows "Server error"; otherwise
      the request reaches the parser, and the form shows the summary when the parser
      succeeds, the endpoint's password message for a password error, and its generic
      failure message for any other parser error. */
  lemma SubmitAgainstService(st: UploaderState, framing: nat, store: CasBackend.Storage,
                             parse: string -> CasBackend.ParseOutcome)
    requires st.file.Some? && st.password != ""
    ensures var server := (req: CasBackend.Request) => Answered(CasBackend.ParseNsdlSummary(req, store, parse).reply);
      var req := RequestFor(st.file.value, st.password, framing);
      var r := HandleSubmit(st, framing, server);
      var reached := CasBackend.WithinLimit(req) && store.save(store.secure(st.file.value.name)).None?;
      && (CasBackend.ParseNsdlSummary(req, store, parse).parsed <==> reached)
      && (!reached ==> !r.state.success && r.state.error == "Server error")
      && var outcome := CasBackend.SummaryOutcome(parse(st.password));
      && (r.state.success <==> reached && outcome.Success?)
      && (reached && outcome.Success? ==> r.state.parsedData == Some(CasBackend.SummaryBody(outcome.value)))
      && (reached && outcome.Failure? && CasBackend.IsPasswordError(outcome.error) ==>
            r.state.error == CasBackend.SummaryPasswordMessage)
      && (reached && outcome.Failure? && !CasBackend.IsPasswordError(outcome.error) ==>
            r.state.error == CasBackend.SummaryFailureMessage)
  {
    var req := RequestFor(st.file.value, st.password, framing);
    assert CasBackend.PasswordOf(req) == st.password;
    assert CasBackend.SaveError(req, store) == store.save(store.secure(st.file.value.name));
  }

  /** The form's limit and the service's are the same 16 MiB, but the service measures the
      whole request: a file the form accepts at exactly that size never reaches the
      parser, and the form shows "Server error". */
  lemma FullSizeFileIsServerError(st: UploaderState, framing: nat, store: CasBackend.Storage,
                                  parse: string -> CasBackend.ParseOutcome)
    requires st.file.Some? && st.file.value.size == MaxUploadBytes && st.password != ""
    ensures var server := (req: CasBackend.Request) => Answered(CasBackend.ParseNsdlSummary(req, store, parse).reply);
      var r := HandleSubmit(st, framing, server);
      && !CasBackend.ParseNsdlSummary(RequestFor(st.file.value, st.password, framing), store, parse).parsed
      && !r.state.success && r.state.error == "Server error"
  {
    SubmitAgainstService(st, framing, store, parse);
  }
}

=== FILE: numbers.dfy ===
/** Numbers as the parsers see them: runs of digits inside a line, JavaScript's
    `parseFloat` applied to such a run, and JavaScript truthiness of a number.
    A JavaScript number that may be NaN is an `Option<real>` whose `None` is NaN;
    money is `real`, so sums and products are exact. */
module Numbers {

  import opened Wrappers
  import opened Text

  function Pow10(n: nat): (r: real)
    ensures r >= 1.0
  {
    if n == 0 then 1.0 else 10.0 * Pow10(n - 1)
  }

  predicate IsDigitOrComma(c: char) {
    IsDigit(c) || c == ','
  }

  predicate AllDigits(s: string) {
    forall i :: 0 <= i < |s| ==> IsDigit(s[i])
  }

  /** The value of a decimal digit. */
  function DigitOf(c: char): real {
    (c as int - '0' as int) as real
  }

  /** The value of a string of decimal digits, most significant first. */
  function DigitsValue(ds: string): (r: real)
    requires AllDigits(ds)
    ensures 0.0 <= r && r + 1.0 <= Pow10(|ds|)
  {
    if |ds| == 0 then 0.0
    else
      DigitsValue(ds[..|ds| - 1]) * 10.0 + DigitOf(ds[|ds| - 1])
  }

  /** Where the greedy match of `[\d,]+\.?\d*` that starts at `i` ends. */
  function TokenEnd(s: string, i: nat): (r: nat)
    requires i < |s| && IsDigitOrComma(s[i])
    ensures i < r <= |s|
    ensures forall j :: i <= j < r ==> IsDigitOrComma(s[j]) || s[j] == '.'
    ensures r < |s| ==> !IsDigit(s[r])
  {
    var a := RunEnd(s, i, IsDigitOrComma);
    if a < |s| && s[a] == '.' then RunEnd(s, a + 1, IsDigit) else a
  }

  /** A whole match of `[\d,]+\.?\d*`: at least one digit or comma before the first '.',
      nothing else before it, and only digits after it. */
  predicate IsNumberToken(t: string) {
    var d := FirstIndex(t, '.');
    && d >= 1
    && (forall j :: 0 <= j < d ==> IsDigitOrComma(t[j]))
    && (forall j :: d < j < |t| ==> IsDigit(t[j]))
  }

  /** The text from `i` to `TokenEnd(s, i)` is a match of the pattern, and no longer
      text from `i` is one: the greedy match is the longest. */
  lemma TokenEndIsLongestMatch(s: string, i: nat)
    requires i < |s| && IsDigitOrComma(s[i])
    ensures IsNumberToken(s[i..TokenEnd(s, i)])
    ensures forall e :: TokenEnd(s, i) < e <= |s| ==> !IsNumberToken(s[i..e])
  {
    var a := RunEnd(s, i, IsDigitOrComma);
    var r := TokenEnd(s, i);
    var t := s[i..r];
    assert forall j :: 0 <= j < a - i ==> t[j] == s[i + j] && t[j] != '.';
    if a < |s| && s[a] == '.' {
      assert t[a - i] == '.';
      assert FirstIndex(t, '.') == a - i;
      assert forall j :: a - i < j < |t| ==> t[j] == s[i + j];
    } else {
      assert FirstIndex(t, '.') == |t|;
    }
    forall e | r < e <= |s|
      ensures !IsNumberToken(s[i..e])
    {
      LongerIsNoMatch(s, i, a, r, e);
    }
  }

  lemma LongerIsNoMatch(s: string, i: nat, a: nat, r: nat, e: nat)
    requires i < |s| && IsDigitOrComma(s[i])
    requires a == RunEnd(s, i, IsDigitOrComma) && r == TokenEnd(s, i) && r < e <= |s|
    ensures !IsNumberToken(s[i..e])
  {
    if a < |s| && s[a] == '.' {
      PastFractionNoMatch(s, i, a, r, e);
    } else {
      PastDigitsNoMatch(s, i, a, e);
    }
  }

  /** Past a run of digits and commas that no '.' follows, the text is no match. */
  lemma PastDigitsNoMatch(s: string, i: nat, a: nat, e: nat)
    requires i < a < e <= |s|
    requires forall j :: i <= j < a ==> IsDigitOrComma(s[j])
    requires !IsDigitOrComma(s[a]) && s[a] != '.'
    ensures !IsNumberToken(s[i..e])
  {
    var u := s[i..e];
    assert u[a - i] == s[a];
  }

  /** Past the digits after the '.', the text is no match. */
  lemma PastFractionNoMatch(s: string, i: nat, a: nat, r: nat, e: nat)
    requires i < a < r < e <= |s|
    requires forall j :: i <= j < a ==> IsDigitOrComma(s[j])
    requires s[a] == '.' && !IsDigit(s[r])
    ensures !IsNumberToken(s[i..e])
  {
    var u := s[i..e];
    assert forall j :: 0 <= j < a - i ==> u[j] == s[i + j] && u[j] != '.';
    assert u[a - i] == '.';
    assert FirstIndex(u, '.') == a - i;
    assert u[r - i] == s[r];
  }

  /** JavaScript's `parseFloat` on text made of digits with at most one '.' in front of
      further digits: the longest decimal literal at the start of `t`, or NaN (`None`)
      when that literal has no digit. Every capture this model parses has that shape
      once its commas are removed. */
  function ParseFloat(t: string): (r: Option<real>)
    ensures r.Some? ==> r.value >= 0.0
    ensures r.None? <==> !(|t| > 0 && IsDigit(t[0])) && !(|t| > 1 && t[0] == '.' && IsDigit(t[1]))
  {
    var a := RunEnd(t, 0, IsDigit);
    var intDigits := t[..a];
    var fracDigits := if a < |t| && t[a] == '.' then t[a + 1..RunEnd(t, a + 1, IsDigit)] else "";
    if |intDigits| == 0 && |fracDigits| == 0 then None
    else Some(Decimal(intDigits, fracDigits))
  }

  /** The value of the literal with integer digits `ds` and fraction digits `fs`. */
  function Decimal(ds: string, fs: string): (r: real)
    requires AllDigits(ds) && AllDigits(fs)
    ensures r >= 0.0
  {
    DigitsValue(ds) + Fraction(fs)
  }

  /** The value `0.fs` of the digits `fs` after a point: each digit counts a tenth of the
      one before it. */
  function Fraction(fs: string): (r: real)
    requires AllDigits(fs)
    ensures 0.0 <= r < 1.0
  {
    if |fs| == 0 then 0.0 else (DigitOf(fs[0]) + Fraction(fs[1..])) / 10.0
  }

  lemma AllDigitsAppend(a: string, b: string)
    requires AllDigits(a) && AllDigits(b)
    ensures AllDigits(a + b)
  {
    var ab := a + b;
    forall i | 0 <= i < |ab| ensures IsDigit(ab[i]) {
      if i < |a| { assert ab[i] == a[i]; } else { assert ab[i] == b[i - |a|]; }
    }
  }

  /** `x` shifted left by `n` decimal places, one place at a time. */
  function Shift(x: real, n: nat): real {
    if n == 0 then x else Shift(x, n - 1) * 10.0
  }

  lemma {:induction false} ShiftIsScaling(x: real, n: nat)
    ensures Shift(x, n) == x * Pow10(n)
  {
    if n > 0 {
      ShiftIsScaling(x, n - 1);
      ScaleStep(Shift(x, n), Shift(x, n - 1), x, Pow10(n - 1), Pow10(n));
    }
  }

  lemma ScaleStep(v: real, u: real, x: real, p: real, q: real)
    requires v == u * 10.0 && u == x * p && q == 10.0 * p
    ensures v == x * q
  {
  }

  /** Reading the digits of `a` followed by those of `b` shifts `a` left by `|b|` places. */
  lemma {:induction false} DigitsValueAppend(a: string, b: string)
    requires AllDigits(a) && AllDigits(b)
    ensures AllDigits(a + b)
    ensures DigitsValue(a + b) == Shift(DigitsValue(a), |b|) + DigitsValue(b)
    decreases |b|
  {
    AllDigitsAppend(a, b);
    if |b| == 0 {
      assert a + b == a;
    } else {
      LastDigitStep(a, b);
      DigitsValueAppend(a, b[..|b| - 1]);
    }
  }

  /** Dropping the last digit of `b`, alone and after `a`. */
  lemma LastDigitStep(a: string, b: string)
    requires AllDigits(a) && AllDigits(b) && |b| > 0
    ensures AllDigits(b[..|b| - 1]) && AllDigits(a + b) && AllDigits(a + b[..|b| - 1])
    ensures DigitsValue(a + b) == DigitsValue(a + b[..|b| - 1]) * 10.0 + DigitOf(b[|b| - 1])
    ensures DigitsValue(b) == DigitsValue(b[..|b| - 1]) * 10.0 + DigitOf(b[|b| - 1])
  {
    var init := b[..|b| - 1];
    var c := b[|b| - 1];
    assert b == init + [c];
    AllDigitsAppend(a, init);
    SnocDigits(a + init, c, a + b);
    SnocDigits(init, c, b);
  }

  /** One more digit at the end: ten times the value, plus the digit. */
  lemma SnocDigits(s: string, c: char, sc: string)
    requires AllDigits(s) && IsDigit(c) && sc == s + [c]
    ensures AllDigits(sc)
    ensures DigitsValue(sc) == DigitsValue(s) * 10.0 + DigitOf(c)
  {
    assert sc[..|sc| - 1] == s;
  }

  /** The value of a decimal literal `a.b`: its digits with the point removed, scaled down
      by one power of ten per fraction digit. Whatever follows the literal (text that does
      not start with a digit) is ignored. */
  lemma ParseFloatPointValue(t: string, a: string, b: string, rest: string)
    requires AllDigits(a) && AllDigits(b) && |a| + |b| > 0
    requires t == a + "." + b + rest
    requires rest == "" || !IsDigit(rest[0])
    ensures AllDigits(a + b)
    ensures ParseFloat(t) == Some(DigitsValue(a + b) / Pow10(|b|))
  {
    PointLiteralParts(t, a, b, rest);
    DecimalIsScaled(a, b);
  }

  /** `a.b` is the number `ab` divided by ten once per digit of `b`. */
  lemma DecimalIsScaled(a: string, b: string)
    requires AllDigits(a) && AllDigits(b)
    ensures AllDigits(a + b)
    ensures Decimal(a, b) == DigitsValue(a + b) / Pow10(|b|)
  {
    DecimalShifted(a, b);
    ShiftedBack(Decimal(a, b), |b|, DigitsValue(a + b));
  }

  /** A number that shifted by `n` places gives `w` is `w` divided by `10^n`. */
  lemma ShiftedBack(v: real, n: nat, w: real)
    requires Shift(v, n) == w
    ensures v == w / Pow10(n)
  {
    ShiftIsScaling(v, n);
    Unscale(v, Pow10(n), w);
  }

  lemma Unscale(v: real, p: real, w: real)
    requires p > 0.0 && w == v * p
    ensures v == w / p
  {
  }

  /** `a.b` shifted left by `|b|` places is the whole number `ab`. */
  lemma DecimalShifted(a: string, b: string)
    requires AllDigits(a) && AllDigits(b)
    ensures AllDigits(a + b)
    ensures Shift(Decimal(a, b), |b|) == DigitsValue(a + b)
  {
    DigitsValueAppend(a, b);
    ShiftAdd(DigitsValue(a), Fraction(b), |b|);
    ShiftFraction(b);
  }

  lemma {:induction false} ShiftAdd(x: real, y: real, n: nat)
    ensures Shift(x + y, n) == Shift(x, n) + Shift(y, n)
  {
    if n > 0 {
      ShiftAdd(x, y, n - 1);
    }
  }

  /** A tenth shifted one place further is the number shifted. */
  lemma {:induction false} ShiftTenth(z: real, n: nat)
    ensures Shift(z / 10.0, n + 1) == Shift(z, n)
  {
    if n > 0 {
      ShiftTenth(z, n - 1);
    }
  }

  /** `0.fs` shifted left by as many places as it has digits is the number `fs`. */
  lemma {:induction false} ShiftFraction(fs: string)
    requires AllDigits(fs)
    ensures Shift(Fraction(fs), |fs|) == DigitsValue(fs)
    decreases |fs|
  {
    if |fs| > 0 {
      var rest := fs[1..];
      assert AllDigits(rest);
      ShiftFraction(rest);
      ShiftTenth(DigitOf(fs[0]) + Fraction(rest), |rest|);
      ShiftAdd(DigitOf(fs[0]), Fraction(rest), |rest|);
      HeadDigitValue(fs);
    }
  }

  /** The first digit of `fs` counts `10^(|fs| - 1)` times. */
  lemma HeadDigitValue(fs: string)
    requires AllDigits(fs) && |fs| > 0
    ensures AllDigits(fs[1..])
    ensures DigitsValue(fs) == Shift(DigitOf(fs[0]), |fs| - 1) + DigitsValue(fs[1..])
  {
    var head := [fs[0]];
    assert fs == head + fs[1..];
    assert head[..0] == "";
    assert DigitsValue(head) == DigitOf(fs[0]);
    DigitsValueAppend(head, fs[1..]);
  }

  /** The pieces `ParseFloat` cuts out of `a.b` followed by a non-digit. */
  lemma PointLiteralParts(t: string, a: string, b: string, rest: string)
    requires AllDigits(a) && AllDigits(b) && |a| + |b| > 0
    requires t == a + "." + b + rest
    requires rest == "" || !IsDigit(rest[0])
    ensures ParseFloat(t) == Some(Decimal(a, b))
  {
    var n := |a|;
    var m := n + 1 + |b|;
    assert forall j :: 0 <= j < n ==> t[j] == a[j];
    assert t[n] == '.';
    DigitRunEnds(t, 0, n);
    assert t[..n] == a;
    assert forall j :: n + 1 <= j < m ==> t[j] == b[j - n - 1];
    assert m < |t| ==> t[m] == rest[0];
    DigitRunEnds(t, n + 1, m);
    assert t[n + 1..m] == b;
  }

  /** The value of a literal without a point: the value of its digits. */
  lemma ParseFloatWholeValue(t: string, a: string, rest: string)
    requires AllDigits(a) && |a| > 0
    requires t == a + rest
    requires rest == "" || (!IsDigit(rest[0]) && rest[0] != '.')
    ensures ParseFloat(t) == Some(DigitsValue(a))
  {
    assert forall j :: 0 <= j < |a| ==> t[j] == a[j];
    assert |a| < |t| ==> t[|a|] == rest[0];
    DigitRunEnds(t, 0, |a|);
    assert t[..|a|] == a;
  }

  /** A run of digits from `i` to `e` with no digit at `e` ends at `e`. */
  lemma DigitRunEnds(t: string, i: nat, e: nat)
    requires i <= e <= |t|
    requires forall j :: i <= j < e ==> IsDigit(t[j])
    requires e < |t| ==> !IsDigit(t[e])
    ensures RunEnd(t, i, IsDigit) == e
    decreases e - i
  {
    if i < e {
      DigitRunEnds(t, i + 1, e);
    }
  }

  lemma {:induction false} Pow10Monotone(m: nat, n: nat)
    requires m <= n
    ensures Pow10(m) <= Pow10(n)
    decreases n
  {
    if m < n {
      Pow10Monotone(m, n - 1);
    }
  }

  /** A literal whose integer part has at most `k` digits is below `10^k`. */
  lemma ParseFloatBelow(t: string, k: nat)
    requires RunEnd(t, 0, IsDigit) <= k
    requires ParseFloat(t).Some?
    ensures ParseFloat(t).value < Pow10(k)
  {
    var a := RunEnd(t, 0, IsDigit);
    var intDigits := t[..a];
    var fracDigits := if a < |t| && t[a] == '.' then t[a + 1..RunEnd(t, a + 1, IsDigit)] else "";
    assert ParseFloat(t).value == DigitsValue(intDigits) + Fraction(fracDigits);
    Pow10Monotone(|intDigits|, k);
  }

  /** Parsing the decimal rendering of a natural number gives the number back. */
  lemma {:induction false} ParseFloatNatToString(n: nat)
    ensures ParseFloat(NatToString(n)) == Some(n as real)
  {
    var s := NatToString(n);
    assert RunEnd(s, 0, IsDigit) == |s|;
    assert s[..|s|] == s;
    DigitsValueNatToString(n);
    assert Fraction("") == 0.0;
  }

  lemma {:induction false} DigitsValueNatToString(n: nat)
    ensures DigitsValue(NatToString(n)) == n as real
  {
    var s := NatToString(n);
    if n >= 10 {
      DigitsValueNatToString(n / 10);
      assert s[..|s| - 1] == NatToString(n / 10);
    } else {
      assert s[..0] == "";
    }
  }

  /** JavaScript truthiness of a number: neither NaN nor zero. */
  predicate Truthy(n: Option<real>) {
    n.Some? && n.value != 0.0
  }

  /** `n || 0` for a number `n`. */
  function OrZero(n: Option<real>): real {
    if Truthy(n) then n.value else 0.0
  }

  /** Python's `int(x)` on a float: truncation toward zero. */
  function TruncateToInt(x: real): (r: int)
    ensures x >= 0.0 ==> 0 <= r && r as real <= x < r as real + 1.0
    ensures x < 0.0 ==> r <= 0 && r as real - 1.0 < x <= r as real
  {
    if x >= 0.0 then x.Floor else -((-x).Floor)
  }
}

=== FILE: onboarding.dfy ===
/** The four-step onboarding dialog: Next advances until the last step, where it
    completes; Skip (or closing the dialog) completes at once. */
module Onboarding {

  const StepCount: nat := 4
  const LastStep: nat := StepCount - 1

  datatype Wizard = Wizard(step: nat, completed: bool)

  const Start: Wizard := Wizard(0, false)

  predicate ValidStep(w: Wizard) {
    w.step <= LastStep
  }

  /** `handleNext`. Completing leaves the step where it was. */
  function HandleNext(w: Wizard): (r: Wizard)
    requires ValidStep(w)
    ensures ValidStep(r)
    ensures w.step < LastStep ==> r == Wizard(w.step + 1, w.completed)
    ensures w.step == LastStep ==> r == Wizard(w.step, true)
  {
    if w.step < LastStep then w.(step := w.step + 1) else w.(completed := true)
  }

  /** `handleSkip`. */
  function HandleSkip(w: Wizard): (r: Wizard)
    ensures r.step == w.step && r.completed
  {
    w.(completed := true)
  }

  datatype Action = Next | Skip

  function Run(w: Wizard, actions: seq<Action>): (r: Wizard)
    requires ValidStep(w)
    ensures ValidStep(r)
    ensures r.step >= w.step
    ensures w.completed ==> r.completed
    decreases |actions|
  {
    if |actions| == 0 then w
    else Run(if actions[0] == Next then HandleNext(w) else HandleSkip(w), actions[1..])
  }

  /** From the start, `LastStep` presses of Next reach the last step without completing,
      and one more press completes. */
  lemma NextWalksThrough()
    ensures Run(Start, [Next, Next, Next]) == Wizard(LastStep, false)
    ensures Run(Start, [Next, Next, Next, Next]) == Wizard(LastStep, true)
  {
    assert [Next, Next, Next][1..] == [Next, Next];
    assert [Next, Next][1..] == [Next];
    assert [Next, Next, Next, Next][1..] == [Next, Next, Next];
  }

  /** Without Skip, the wizard completes only once Next is pressed on the last step:
      `n` presses of Next from the start leave step `min(n, 3)` and complete iff `n > 3`. */
  lemma {:induction false} NextPresses(w: Wizard, n: nat)
    requires ValidStep(w) && !w.completed
    ensures var r := Run(w, seq(n, _ => Next));
      && r.step == (if w.step + n <= LastStep then w.step + n else LastStep)
      && (r.completed <==> w.step + n > LastStep)
    decreases n
  {
    if n > 0 {
      assert seq(n, _ => Next)[1..] == seq(n - 1, _ => Next);
      if w.step < LastStep {
        NextPresses(HandleNext(w), n - 1);
      } else {
        assert Run(w, seq(n, _ => Next)) == Run(Wizard(w.step, true), seq(n - 1, _ => Next));
        NextPressesCompleted(Wizard(w.step, true), n - 1);
      }
    }
  }

  lemma {:induction false} NextPressesCompleted(w: Wizard, n: nat)
    requires w.step == LastStep && w.completed
    ensures Run(w, seq(n, _ => Next)) == w
  {
    if n > 0 {
      assert seq(n, _ => Next)[1..] == seq(n - 1, _ => Next);
      NextPressesCompleted(w, n - 1);
    }
  }

  /** The progress bar, `(step + 1) / 4 * 100`. */
  function Progress(step: nat): real {
    (step + 1) as real / StepCount as real * 100.0
  }

  /** The progress reads 25, 50, 75, 100, rises with the step, and is full only on the
      last step. */
  lemma ProgressShape(a: nat, b: nat)
    requires a <= LastStep && b <= LastStep
    ensures Progress(0) == 25.0 && Progress(1) == 50.0 && Progress(2) == 75.0 && Progress(3) == 100.0
    ensures a < b ==> Progress(a) < Progress(b)
    ensures Progress(a) == 100.0 <==> a == LastStep
  {
  }

  /** The step dots: the dot of the current step is the wide one. */
  function Dots(step: nat): (r: seq<bool>)
    ensures |r| == StepCount
  {
    seq(StepCount, i => i == step)
  }

  /** The label of the forward button. */
  function NextLabel(step: nat): string {
    if step < LastStep then "Next" else "Get Started"
  }

  /** On every valid step exactly one dot is wide, and the button reads "Get Started"
      exactly on the last step. */
  lemma IndicatorsAgree(w: Wizard)
    requires ValidStep(w)
    ensures forall i, j :: 0 <= i < j < StepCount ==> !(Dots(w.step)[i] && Dots(w.step)[j])
    ensures exists i :: 0 <= i < StepCount && Dots(w.step)[i]
    ensures NextLabel(w.step) == "Get Started" <==> w.step == LastStep
  {
    assert Dots(w.step)[w.step];
  }
}

=== FILE: pdf_document.dfy ===
/** What the PDF library hands back to the application. Decryption and text extraction
    are done by a foreign library; the model sees only the outcome of one attempt to
    open a document: the text of all pages (one line per page, in page order) or the
    exception it raised, with the exception's `name` and `message`. */
module PdfDocument {

  /** A file chosen in the browser: its name, its MIME type and its size in bytes. The
      contents are only ever read by the PDF library. */
  datatype UploadFile = UploadFile(name: string, mimeType: string, size: nat)

  const PdfMimeType: string := "application/pdf"

  datatype PdfError = PdfError(name: string, message: string)

  datatype LoadOutcome = Loaded(text: string) | Failed(error: PdfError)

  const PasswordExceptionName: string := "PasswordException"
  const InvalidPdfExceptionName: string := "InvalidPDFException"
}

=== FILE: pdf_processor.dfy ===
/** The client-side statement reader of src/lib/pdfProcessor.ts: a line-by-line state
    machine that carries one "current fund" block, starts a new block at every scheme
    header, fills the block from folio / units / NAV / invested-amount lines, and emits a
    block only when both its units and its NAV are truthy. */
module PdfProcessor {

  import opened Wrappers
  import opened Text
  import opened Numbers
  import opened Seqs
  import opened PdfDocument

  // ---------------------------------------------------------------------------
  // detectCategory
  // ---------------------------------------------------------------------------

  datatype Category = Equity | Debt | Hybrid | Liquid | Other

  /** Position of a category's rule in the keyword table; `Other` is the fallback. */
  function Rank(c: Category): nat {
    match c
    case Equity => 0
    case Debt => 1
    case Hybrid => 2
    case Liquid => 3
    case Other => 4
  }

  /** The keyword table, one row per category. */
  function Keywords(c: Category): seq<string> {
    match c
    case Equity => ["equity", "elss"]
    case Debt => ["debt", "bond"]
    case Hybrid => ["hybrid", "balanced"]
    case Liquid => ["liquid", "money"]
    case Other => []
  }

  /** The lower-cased name mentions one of the keywords of category `c`. */
  predicate MentionsRule(lowered: string, c: Category) {
    exists k :: k in Keywords(c) && Contains(lowered, k)
  }

  /** The category is the first row of the table one of whose keywords occurs in the
      lower-cased name, and `Other` when no keyword occurs. */
  function DetectCategory(schemeName: string): (r: Category)
    ensures r != Other ==> MentionsRule(Lower(schemeName), r)
    ensures forall c: Category :: Rank(c) < Rank(r) ==> !MentionsRule(Lower(schemeName), c)
  {
    var name := Lower(schemeName);
    if Contains(name, "equity") || Contains(name, "elss") then Equity
    else if Contains(name, "debt") || Contains(name, "bond") then Debt
    else if Contains(name, "hybrid") || Contains(name, "balanced") then Hybrid
    else if Contains(name, "liquid") || Contains(name, "money") then Liquid
    else Other
  }

  /** Classification ignores letter case. */
  lemma DetectCategoryIgnoresCase(schemeName: string)
    ensures DetectCategory(Lower(schemeName)) == DetectCategory(schemeName)
  {
    LowerIdempotent(schemeName);
  }

  /** Appending text to a name can only move it to an earlier row of the table. */
  lemma DetectCategoryExtend(s: string, t: string)
    ensures Rank(DetectCategory(s + t)) <= Rank(DetectCategory(s))
  {
    var r := DetectCategory(s);
    if r != Other {
      var k :| k in Keywords(r) && Contains(Lower(s), k);
      ContainsExtend(Lower(s), Lower(t), k);
      LowerAppend(s, t);
      assert MentionsRule(Lower(s + t), r);
    }
  }

  // ---------------------------------------------------------------------------
  // The regular expressions of parseMutualFundData
  // ---------------------------------------------------------------------------

  /** `/(\d{6,12}\/\d{2,4})/`, `/Units?\s*:?\s*([\d,]+\.?\d*)/i`,
      `/NAV\s*:?\s*₹?\s*([\d,]+\.?\d*)/i` and `/(?:Cost|Invested)\s*:?\s*₹?\s*([\d,]+\.?\d*)/i`. */
  datatype Pattern = FolioPattern | UnitsPattern | NavPattern | InvestedPattern

  /** `word` (lower case) occurs at index `i` of `s`, ignoring ASCII case. */
  predicate LabelAt(s: string, i: nat, word: string) {
    i + |word| <= |s| && Lower(s[i..i + |word|]) == word
  }

  /** Steps over one optional character `c` (ignoring ASCII case) at index `j`. */
  function SkipOptional(s: string, j: nat, c: char): (r: nat)
    requires j <= |s|
    ensures j <= r <= |s| && r <= j + 1
  {
    if j < |s| && LowerChar(s[j]) == c then j + 1 else j
  }

  /** The capture of `\s*:?\s*([\d,]+\.?\d*)` (with `₹?\s*` before the digits when
      `rupee` holds) matched at index `j`. The separators share no character with one
      another or with the digits, so the greedy match is the only one. */
  function NumberAfter(s: string, j: nat, rupee: bool): (r: Option<string>)
    requires j <= |s|
    ensures r.Some? ==> |r.value| > 0 && IsDigitOrComma(r.value[0])
  {
    var k0 := RunEnd(s, SkipOptional(s, RunEnd(s, j, IsSpace), ':'), IsSpace);
    var k := if rupee then RunEnd(s, SkipOptional(s, k0, '₹'), IsSpace) else k0;
    if k < |s| && IsDigitOrComma(s[k]) then Some(s[k..TokenEnd(s, k)]) else None
  }

  /** The shape of a folio number: 6 to 12 digits, a slash, 2 to 4 digits. */
  predicate IsFolioShape(t: string) {
    var a := FirstIndex(t, '/');
    6 <= a <= 12 && a < |t| && 2 <= |t| - a - 1 <= 4 && AllDigits(t[..a]) && AllDigits(t[a + 1..])
  }

  /** The folio match that starts at index `i`: greedy `\d{6,12}` can only be followed by
      the slash when the digit run starting at `i` has 6 to 12 digits. */
  function FolioAt(s: string, i: nat): (r: Option<string>)
    requires i <= |s|
    ensures r.Some? ==> IsFolioShape(r.value)
  {
    var a := RunEnd(s, i, IsDigit);
    if 6 <= a - i <= 12 && a < |s| && s[a] == '/' then
      var b := RunEnd(s, a + 1, IsDigit);
      var tail := if b - (a + 1) > 4 then 4 else b - (a + 1);
      if tail >= 2 then
        FolioSliceShape(s, i, a, a + 1 + tail);
        Some(s[i..a + 1 + tail])
      else None
    else None
  }

  /** Digits from `i`, the slash at `a`, digits up to `e`: a folio when the lengths fit. */
  lemma FolioSliceShape(s: string, i: nat, a: nat, e: nat)
    requires i <= a < e <= |s| && s[a] == '/'
    requires 6 <= a - i <= 12 && 2 <= e - a - 1 <= 4
    requires forall j :: i <= j < a ==> IsDigit(s[j])
    requires forall j :: a + 1 <= j < e ==> IsDigit(s[j])
    ensures IsFolioShape(s[i..e])
  {
    var t := s[i..e];
    assert t[a - i] == '/';
    assert forall j :: 0 <= j < a - i ==> t[j] == s[i + j];
    assert FirstIndex(t, '/') == a - i;
    var u := t[a - i + 1..];
    assert forall j :: 0 <= j < |u| ==> u[j] == s[a + 1 + j];
  }

  /** The capture of pattern `p` when its match starts at index `i` of `s`. */
  function MatchAt(p: Pattern, s: string, i: nat): Option<string>
  {
    if i >= |s| then None
    else
      match p
      case FolioPattern => FolioAt(s, i)
      case UnitsPattern =>
        if LabelAt(s, i, "unit") then NumberAfter(s, SkipOptional(s, i + 4, 's'), false) else None
      case NavPattern =>
        if LabelAt(s, i, "nav") then NumberAfter(s, i + 3, true) else None
      case InvestedPattern =>
        if LabelAt(s, i, "cost") then NumberAfter(s, i + 4, true)
        else if LabelAt(s, i, "invested") then NumberAfter(s, i + 8, true)
        else None
  }

  /** The first present value among `m(i)`, `m(i + 1)`, ..., `m(n - 1)`. */
  function FirstSome(m: nat -> Option<string>, i: nat, n: nat): (r: Option<string>)
    ensures r.Some? ==> exists j :: i <= j < n && m(j) == r && forall k :: i <= k < j ==> m(k).None?
    ensures r.None? ==> forall k :: i <= k < n ==> m(k).None?
    decreases n - i
  {
    if i >= n then None
    else if m(i).Some? then m(i)
    else FirstSome(m, i + 1, n)
  }

  /** `s.match(p)` from index `i`: the capture of the match that starts first. */
  function Search(p: Pattern, s: string, i: nat): Option<string>
    decreases |s| - i
  {
    if i >= |s| then None
    else if MatchAt(p, s, i).Some? then MatchAt(p, s, i)
    else Search(p, s, i + 1)
  }

  /** The search is the leftmost-candidate search over the match positions of the line,
      so it returns the leftmost match and no match starts before it. */
  lemma {:induction false} SearchIsLeftmost(p: Pattern, s: string, i: nat)
    ensures Search(p, s, i) == FirstSome((k: nat) => MatchAt(p, s, k), i, |s|)
    decreases |s| - i
  {
    if i < |s| && MatchAt(p, s, i).None? {
      SearchIsLeftmost(p, s, i + 1);
    }
  }

  // ---------------------------------------------------------------------------
  // parseMutualFundData
  // ---------------------------------------------------------------------------

  /** A scheme header: the line mentions SCHEME, Fund, EQUITY or DEBT (case matters). */
  predicate IsHeaderLine(line: string) {
    Contains(line, "SCHEME") || Contains(line, "Fund") || Contains(line, "EQUITY") || Contains(line, "DEBT")
  }

  /** A block under construction. `None` in a number field is NaN. */
  datatype Draft = Draft(
    schemeName: string,
    folioNumber: Option<string>,
    units: Option<real>,
    currentNav: Option<real>,
    investedAmount: Option<real>,
    category: Category)

  /** An emitted fund. Units and NAV are truthy; the invested amount may still be NaN. */
  datatype ExtractedFund = ExtractedFund(
    schemeName: string,
    folioNumber: Option<string>,
    units: real,
    currentNav: real,
    investedAmount: Option<real>,
    currentValue: real,
    returnsAmount: real,
    returnsPercentage: real,
    category: Category)

  /** The derived-value invariant every emitted fund satisfies. */
  predicate WellFormed(f: ExtractedFund) {
    && f.units != 0.0
    && f.currentNav != 0.0
    && f.currentValue == f.units * f.currentNav
    && f.returnsAmount == f.currentValue - OrZero(f.investedAmount)
    && (Truthy(f.investedAmount) ==> f.returnsPercentage == f.returnsAmount / f.investedAmount.value * 100.0)
    && (!Truthy(f.investedAmount) ==> f.returnsPercentage == 0.0)
  }

  predicate AllWellFormed(fs: seq<ExtractedFund>) {
    forall i :: 0 <= i < |fs| ==> WellFormed(fs[i])
  }

  /** The block a header line opens: its trimmed text as the name, zero quantities, and
      the category of the line. */
  function NewDraft(line: string): Draft {
    Draft(Trim(line), None, Some(0.0), Some(0.0), Some(0.0), DetectCategory(line))
  }

  /** Finalising a block: it is emitted only when it has a name and both units and NAV
      are truthy, with value, returns and percentage derived from its fields. */
  function Finalize(d: Draft): (r: Option<ExtractedFund>)
    ensures r.Some? <==> d.schemeName != "" && Truthy(d.units) && Truthy(d.currentNav)
    ensures r.Some? ==> WellFormed(r.value)
    ensures r.Some? ==> (r.value.schemeName == d.schemeName && r.value.folioNumber == d.folioNumber
                         && Some(r.value.units) == d.units && Some(r.value.currentNav) == d.currentNav
                         && r.value.investedAmount == d.investedAmount && r.value.category == d.category)
  {
    if d.schemeName != "" && Truthy(d.units) && Truthy(d.currentNav) then
      var value := d.units.value * d.currentNav.value;
      var gain := value - OrZero(d.investedAmount);
      var pct := if Truthy(d.investedAmount) then gain / d.investedAmount.value * 100.0 else 0.0;
      Some(ExtractedFund(d.schemeName, d.folioNumber, d.units.value, d.currentNav.value,
                         d.investedAmount, value, gain, pct, d.category))
    else None
  }

  /** What finalising the current block (if any) appends to the output. */
  function Emit(current: Option<Draft>): (r: seq<ExtractedFund>)
    ensures |r| <= 1
    ensures AllWellFormed(r)
    ensures |r| == 1 ==> current.Some? && r[0].schemeName == current.value.schemeName
  {
    if current.Some? && Finalize(current.value).Some? then [Finalize(current.value).value] else []
  }

  /** The number a capture of the line holds, after removing its commas. */
  function CaptureValue(capture: string): Option<real> {
    ParseFloat(RemoveCommas(capture))
  }

  /** The field updates a line makes to a block: every pattern that matches the line
      overwrites its field. */
  function SetFields(d: Draft, line: string): (r: Draft)
    ensures r.schemeName == d.schemeName && r.category == d.category
  {
    var folio := Search(FolioPattern, line, 0);
    var units := Search(UnitsPattern, line, 0);
    var nav := Search(NavPattern, line, 0);
    var invested := Search(InvestedPattern, line, 0);
    d.(folioNumber := if folio.Some? then folio else d.folioNumber,
       units := if units.Some? then CaptureValue(units.value) else d.units,
       currentNav := if nav.Some? then CaptureValue(nav.value) else d.currentNav,
       investedAmount := if invested.Some? then CaptureValue(invested.value) else d.investedAmount)
  }

  datatype ParseState = ParseState(current: Option<Draft>, funds: seq<ExtractedFund>)

  const Init: ParseState := ParseState(None, [])

  /** One iteration of the loop: a header finalises the previous block and opens a new
      one; then the line's fields go to whatever block is now current. */
  function Step(st: ParseState, line: string): ParseState {
    var started :=
      if IsHeaderLine(line) then ParseState(Some(NewDraft(line)), st.funds + Emit(st.current))
      else st;
    ParseState(if started.current.Some? then Some(SetFields(started.current.value, line)) else None,
               started.funds)
  }

  /** The loop over `lines`, starting from `st`. Every fund it emits is well formed. */
  function Run(st: ParseState, lines: seq<string>): (r: ParseState)
    ensures AllWellFormed(st.funds) ==> AllWellFormed(r.funds)
  {
    if |lines| == 0 then st
    else Step(Run(st, lines[..|lines| - 1]), lines[|lines| - 1])
  }

  /** The blocks left after the loop plus the last one, if it is complete. */
  function ParseLines(lines: seq<string>): (r: seq<ExtractedFund>)
    ensures AllWellFormed(r)
  {
    var st := Run(Init, lines);
    st.funds + Emit(st.current)
  }

  /** `parseMutualFundData`: split the text at line feeds and run the block machine. */
  function ParseMutualFundData(text: string): seq<ExtractedFund> {
    ParseLines(Split(text, '\n'))
  }

  // ---------------------------------------------------------------------------
  // Properties of the block machine
  // ---------------------------------------------------------------------------

  function Names(fs: seq<ExtractedFund>): (r: seq<string>)
    ensures |r| == |fs|
    ensures forall i :: 0 <= i < |fs| ==> r[i] == fs[i].schemeName
  {
    seq(|fs|, i requires 0 <= i < |fs| => fs[i].schemeName)
  }

  /** The trimmed header lines, in order. */
  function HeaderNames(lines: seq<string>): seq<string> {
    if |lines| == 0 then []
    else HeaderNames(lines[..|lines| - 1])
         + (if IsHeaderLine(lines[|lines| - 1]) then [Trim(lines[|lines| - 1])] else [])
  }

  /** The names of the emitted blocks followed by the name of the open block. */
  function Track(st: ParseState): seq<string> {
    Names(st.funds) + (if st.current.Some? then [st.current.value.schemeName] else [])
  }

  lemma NamesAppend(a: seq<ExtractedFund>, b: seq<ExtractedFund>)
    ensures Names(a + b) == Names(a) + Names(b)
  {
  }

  /** A line that is not a header renames no block and emits nothing. */
  lemma StepTrackFieldLine(st: ParseState, line: string)
    requires !IsHeaderLine(line)
    ensures Track(Step(st, line)) == Track(st)
  {
    assert Step(st, line).funds == st.funds;
  }

  /** A header appends its name to the track, and drops the previous block's name when
      that block is not emitted. */
  lemma StepTrackHeader(st: ParseState, line: string)
    requires IsHeaderLine(line)
    ensures || Track(Step(st, line)) == Track(st) + [Trim(line)]
            || (&& st.current.Some?
                && Track(st) == Names(st.funds) + [st.current.value.schemeName]
                && Track(Step(st, line)) == Names(st.funds) + [Trim(line)])
  {
    var emitted := Emit(st.current);
    NamesAppend(st.funds, emitted);
    assert Step(st, line).funds == st.funds + emitted;
    if |emitted| == 1 {
      assert Names(emitted) == [st.current.value.schemeName];
    } else {
      assert Names(emitted) == [];
      assert st.funds + emitted == st.funds;
    }
  }

  /** The emitted and open blocks are named after header lines, in header order. */
  lemma {:induction false} TrackFollowsHeaders(lines: seq<string>)
    ensures IsSubsequence(Track(Run(Init, lines)), HeaderNames(lines))
  {
    if |lines| > 0 {
      var prefix := lines[..|lines| - 1];
      var line := lines[|lines| - 1];
      var st := Run(Init, prefix);
      TrackFollowsHeaders(prefix);
      assert Step(st, line) == Run(Init, lines);
      if IsHeaderLine(line) {
        assert HeaderNames(lines) == HeaderNames(prefix) + [Trim(line)];
        StepTrackHeader(st, line);
        if Track(Step(st, line)) == Track(st) + [Trim(line)] {
          SubsequenceSnocBoth(Track(st), HeaderNames(prefix), Trim(line));
        } else {
          SubsequenceDropLast(Names(st.funds), st.current.value.schemeName, HeaderNames(prefix));
          SubsequenceSnocBoth(Names(st.funds), HeaderNames(prefix), Trim(line));
        }
      } else {
        assert HeaderNames(lines) == HeaderNames(prefix) + [] == HeaderNames(prefix);
        StepTrackFieldLine(st, line);
      }
    }
  }

  /** The emitted funds are named after header lines, in header order: so the output
      follows header order and has at most one fund per header. */
  lemma EmittedFollowHeaders(lines: seq<string>)
    ensures IsSubsequence(Names(ParseLines(lines)), HeaderNames(lines))
    ensures |ParseLines(lines)| <= |HeaderNames(lines)|
  {
    var st := Run(Init, lines);
    TrackFollowsHeaders(lines);
    var emitted := Emit(st.current);
    NamesAppend(st.funds, emitted);
    if |emitted| == 1 {
      assert Names(ParseLines(lines)) == Track(st);
    } else {
      assert Names(ParseLines(lines)) == Names(st.funds);
      if st.current.Some? {
        SubsequenceDropLast(Names(st.funds), st.current.value.schemeName, HeaderNames(lines));
      }
    }
    SubsequenceLength(Names(ParseLines(lines)), HeaderNames(lines));
  }

  /** Running over `a + b` is running over `a`, then over `b`. */
  lemma {:induction false} RunAppend(st: ParseState, a: seq<string>, b: seq<string>)
    ensures Run(st, a + b) == Run(Run(st, a), b)
    decreases |b|
  {
    if |b| == 0 {
      assert a + b == a;
    } else {
      var init := b[..|b| - 1];
      var line := b[|b| - 1];
      assert a + b == (a + init) + [line];
      RunSnoc(st, a + init, line);
      RunSnoc(Run(st, a), init, line);
      assert b == init + [line];
      RunAppend(st, a, init);
    }
  }

  /** One more line is one more step. */
  lemma RunSnoc(st: ParseState, lines: seq<string>, line: string)
    ensures Run(st, lines + [line]) == Step(Run(st, lines), line)
  {
    assert (lines + [line])[..|lines|] == lines;
  }

  /** Lines before the first header change nothing: no block is open to receive them. */
  lemma {:induction false} NoHeaderNoBlock(lines: seq<string>)
    requires forall i :: 0 <= i < |lines| ==> !IsHeaderLine(lines[i])
    ensures Run(Init, lines) == Init
  {
    if |lines| > 0 {
      NoHeaderNoBlock(lines[..|lines| - 1]);
    }
  }

  /** Field lines in front of the first header are ignored. */
  lemma LeadingFieldLinesIgnored(pre: seq<string>, rest: seq<string>)
    requires forall i :: 0 <= i < |pre| ==> !IsHeaderLine(pre[i])
    ensures ParseLines(pre + rest) == ParseLines(rest)
  {
    RunAppend(Init, pre, rest);
    NoHeaderNoBlock(pre);
  }

  /** The last capture of `p` among `lines`, if any. */
  function LastCapture(p: Pattern, lines: seq<string>): Option<string> {
    if |lines| == 0 then None
    else if Search(p, lines[|lines| - 1], 0).Some? then Search(p, lines[|lines| - 1], 0)
    else LastCapture(p, lines[..|lines| - 1])
  }

  /** The number field of a block that pattern `p` fills. */
  function Amount(d: Draft, p: Pattern): Option<real>
    requires p != FolioPattern
  {
    match p
    case UnitsPattern => d.units
    case NavPattern => d.currentNav
    case InvestedPattern => d.investedAmount
  }

  /** Inside a block, the last units / NAV / invested line wins. */
  lemma {:induction false} LastAmountLineWins(st: ParseState, lines: seq<string>, p: Pattern)
    requires p != FolioPattern && st.current.Some?
    requires forall i :: 0 <= i < |lines| ==> !IsHeaderLine(lines[i])
    ensures Run(st, lines).current.Some?
    ensures Amount(Run(st, lines).current.value, p)
         == (if LastCapture(p, lines).Some? then CaptureValue(LastCapture(p, lines).value)
             else Amount(st.current.value, p))
  {
    if |lines| > 0 {
      LastAmountLineWins(st, lines[..|lines| - 1], p);
    }
  }

  /** Inside a block, the last folio line wins. */
  lemma {:induction false} LastFolioLineWins(st: ParseState, lines: seq<string>)
    requires st.current.Some?
    requires forall i :: 0 <= i < |lines| ==> !IsHeaderLine(lines[i])
    ensures Run(st, lines).current.Some?
    ensures Run(st, lines).current.value.folioNumber
         == (if LastCapture(FolioPattern, lines).Some? then LastCapture(FolioPattern, lines)
             else st.current.value.folioNumber)
  {
    if |lines| > 0 {
      LastFolioLineWins(st, lines[..|lines| - 1]);
    }
  }

  /** A header line's own fields go to the block it opens; the previous block is
      finalised with the fields it had. */
  lemma HeaderFieldsGoToNewBlock(st: ParseState, line: string)
    requires IsHeaderLine(line)
    ensures Step(st, line).funds == st.funds + Emit(st.current)
    ensures Step(st, line).current == Some(SetFields(NewDraft(line), line))
    ensures Step(st, line).current.value.schemeName == Trim(line)
  {
  }

  // ---------------------------------------------------------------------------
  // processPDFFile
  // ---------------------------------------------------------------------------

  const IncorrectPasswordMessage: string := "Incorrect password. Please try again."
  const InvalidStatementMessage: string := "This doesn't appear to be a valid NSDL statement."
  const NoFundsMessage: string := "No mutual fund data found in the statement"

  /** The `catch` block: the two pdf.js exceptions get messages of their own, every other
      error is rethrown as it is. */
  function MapError(e: PdfError): string {
    if e.name == PasswordExceptionName then IncorrectPasswordMessage
    else if e.name == InvalidPdfExceptionName then InvalidStatementMessage
    else e.message
  }

  /** `processPDFFile`, given what the PDF library produced for the file and password. */
  function ProcessPdfFile(outcome: LoadOutcome): (r: Result<seq<ExtractedFund>, string>)
    ensures r.Success? ==> outcome.Loaded? && |r.value| > 0 && AllWellFormed(r.value)
    ensures r.Success? ==> r.value == ParseMutualFundData(outcome.text)
    ensures outcome.Loaded? && r.Failure? ==> r.error == NoFundsMessage
    ensures outcome.Loaded? ==> (r.Failure? <==> |ParseMutualFundData(outcome.text)| == 0)
    ensures outcome.Failed? && outcome.error.name == PasswordExceptionName
            ==> r == Failure(IncorrectPasswordMessage)
    ensures outcome.Failed? && outcome.error.name == InvalidPdfExceptionName
            ==> r == Failure(InvalidStatementMessage)
    ensures outcome.Failed? && outcome.error.name != PasswordExceptionName
            && outcome.error.name != InvalidPdfExceptionName
            ==> r == Failure(outcome.error.message)
  {
    var attempt: Result<seq<ExtractedFund>, PdfError> :=
      match outcome
      case Failed(e) => Failure(e)
      case Loaded(text) =>
        var funds := ParseMutualFundData(text);
        if |funds| == 0 then Failure(PdfError("Error", NoFundsMessage)) else Success(funds);
    match attempt
    case Success(funds) => Success(funds)
    case Failure(e) => Failure(MapError(e))
  }
}

=== FILE: portfolio_index.dfy ===
/** The portfolio page's arithmetic: the holdings it starts from (the user's stored rows,
    or five sample funds when there are none), the values derived for each holding from
    the latest fetched NAV, and the totals over all holdings. */
module PortfolioIndex {

  import opened Wrappers
  import opened Seqs
  import HoldingsStore

  /** A holding before any NAV is fetched; `avgNav` is the price paid per unit. */
  datatype BaseHolding = BaseHolding(schemeCode: string, schemeName: string, units: real, avgNav: real)

  const SampleHoldings: seq<BaseHolding> := [
    BaseHolding("120503", "SBI Bluechip Fund", 100.0, 65.5),
    BaseHolding("118989", "HDFC Top 100 Fund", 150.0, 850.0),
    BaseHolding("119551", "ICICI Prudential Bluechip Fund", 80.0, 90.2),
    BaseHolding("120716", "Axis Bluechip Fund", 120.0, 52.8),
    BaseHolding("135791", "Mirae Asset Large Cap Fund", 200.0, 95.3)
  ]

  /** A stored row the page can divide by: its units are a non-zero number and its
      invested amount is a number. */
  predicate Usable(row: HoldingsStore.Row) {
    row.holding.units.Some? && row.holding.units.value != 0.0 && row.holding.investedAmount.Some?
  }

  function BaseOf(row: HoldingsStore.Row): (r: BaseHolding)
    requires Usable(row)
    ensures r.units * r.avgNav == row.holding.investedAmount.value
  {
    var h := row.holding;
    BaseHolding(h.schemeCode, h.schemeName, h.units.value, h.investedAmount.value / h.units.value)
  }

  /** `baseHoldings`: the stored rows in query order when there are any, else the samples.
      Buying `units` at `avgNav` costs exactly the stored invested amount. */
  function BaseHoldings(rows: seq<HoldingsStore.Row>): (r: seq<BaseHolding>)
    requires forall i :: 0 <= i < |rows| ==> Usable(rows[i])
    ensures |rows| == 0 ==> r == SampleHoldings
    ensures |rows| > 0 ==> |r| == |rows|
    ensures |rows| > 0 ==> forall i :: 0 <= i < |rows| ==>
              && Usable(rows[i])
              && r[i].schemeCode == rows[i].holding.schemeCode
              && r[i].units == rows[i].holding.units.value
              && r[i].units * r[i].avgNav == rows[i].holding.investedAmount.value
  {
    if |rows| == 0 then SampleHoldings
    else seq(|rows|, i requires 0 <= i < |rows| => BaseOf(rows[i]))
  }

  /** What the fund-details query gave for one scheme: the scheme name in its metadata
      ("" when absent) and the latest NAV, when the first data point has one. */
  datatype FetchedFund = FetchedFund(metaName: string, latestNav: Option<real>)

  datatype PortfolioHolding = PortfolioHolding(
    schemeCode: string,
    schemeName: string,
    units: real,
    investedAmount: real,
    currentNav: real,
    currentValue: real,
    returnsAmount: real,
    returnsPercentage: real)

  function Invested(b: BaseHolding): real { b.units * b.avgNav }

  /** The NAV used for a holding: the fetched one, else the price paid. */
  function CurrentNav(b: BaseHolding, fetched: Option<FetchedFund>): real {
    if fetched.Some? && fetched.value.latestNav.Some? then fetched.value.latestNav.value else b.avgNav
  }

  /** The derived values of one holding. The percentage divides by the invested amount
      without a guard, so that amount must be non-zero. */
  function Derive(b: BaseHolding, fetched: Option<FetchedFund>): (r: PortfolioHolding)
    requires Invested(b) != 0.0
    ensures fetched.Some? && fetched.value.latestNav.Some? ==> r.currentNav == fetched.value.latestNav.value
    ensures fetched.None? || fetched.value.latestNav.None? ==> r.currentNav == b.avgNav
    ensures r.investedAmount == b.units * b.avgNav
    ensures r.currentValue == b.units * r.currentNav
    ensures r.returnsAmount == r.currentValue - r.investedAmount
    ensures r.returnsPercentage * r.investedAmount == r.returnsAmount * 100.0
    ensures r.schemeCode == b.schemeCode && r.units == b.units
    ensures r.schemeName == (if fetched.Some? && fetched.value.metaName != "" then fetched.value.metaName
                             else b.schemeName)
  {
    var nav := CurrentNav(b, fetched);
    var invested := b.units * b.avgNav;
    var value := b.units * nav;
    var returnsAmount := value - invested;
    var name := if fetched.Some? && fetched.value.metaName != "" then fetched.value.metaName else b.schemeName;
    PortfolioHolding(b.schemeCode, name, b.units, invested, nav, value, returnsAmount, returnsAmount / invested * 100.0)
  }

  /** Without a fetched NAV a holding is valued at what was paid: no gain, no loss. */
  lemma NoNavNoReturns(b: BaseHolding, fetched: Option<FetchedFund>)
    requires Invested(b) != 0.0
    requires fetched.None? || fetched.value.latestNav.None?
    ensures Derive(b, fetched).currentValue == Derive(b, fetched).investedAmount
    ensures Derive(b, fetched).returnsAmount == 0.0
    ensures Derive(b, fetched).returnsPercentage == 0.0
  {
  }

  /** A NAV above the price paid is a gain on a long position, and conversely. */
  lemma GainIffNavAbovePrice(b: BaseHolding, f: FetchedFund)
    requires Invested(b) != 0.0 && b.units > 0.0 && f.latestNav.Some?
    ensures Derive(b, Some(f)).returnsAmount > 0.0 <==> f.latestNav.value > b.avgNav
  {
    var nav := f.latestNav.value;
    assert Derive(b, Some(f)).returnsAmount == b.units * (nav - b.avgNav);
    if nav > b.avgNav {
      assert b.units * (nav - b.avgNav) > 0.0;
    } else {
      assert b.units * (b.avgNav - nav) >= 0.0;
    }
  }

  /** The effect that replaces the displayed holdings: it runs only when the fund query
      returned a non-empty list, and pairs each base holding with the result at its
      position (absent past the end of the list). */
  function Update(prev: seq<PortfolioHolding>, base: seq<BaseHolding>, fetched: seq<Option<FetchedFund>>)
    : (r: seq<PortfolioHolding>)
    requires forall i :: 0 <= i < |base| ==> Invested(base[i]) != 0.0
    ensures |fetched| == 0 ==> r == prev
    ensures |fetched| > 0 ==> |r| == |base| && forall i :: 0 <= i < |base| ==>
              r[i] == Derive(base[i], if i < |fetched| then fetched[i] else None)
  {
    if |fetched| == 0 then prev
    else seq(|base|, i requires 0 <= i < |base| => Derive(base[i], if i < |fetched| then fetched[i] else None))
  }

  function InvestedOf(h: PortfolioHolding): real { h.investedAmount }
  function ValueOf(h: PortfolioHolding): real { h.currentValue }
  function ReturnsOf(h: PortfolioHolding): real { h.returnsAmount }

  datatype Totals = Totals(totalInvestment: real, currentValue: real, totalReturns: real, returnsPercentage: real)

  /** The page totals; the aggregate percentage is guarded: 0 unless something was
      invested. */
  function PortfolioTotals(hs: seq<PortfolioHolding>): (r: Totals)
    ensures r.totalInvestment == Sum(hs, InvestedOf) && r.currentValue == Sum(hs, ValueOf)
    ensures r.totalReturns == r.currentValue - r.totalInvestment
    ensures r.totalInvestment <= 0.0 ==> r.returnsPercentage == 0.0
    ensures r.totalInvestment > 0.0 ==> r.returnsPercentage * r.totalInvestment == r.totalReturns * 100.0
  {
    var invested := Sum(hs, InvestedOf);
    var value := Sum(hs, ValueOf);
    var returnsAmount := value - invested;
    Totals(invested, value, returnsAmount, if invested > 0.0 then returnsAmount / invested * 100.0 else 0.0)
  }

  /** The total return is the sum of the holdings' returns, whenever each holding's
      returns are its value less its cost (as every derived holding's are). */
  lemma TotalReturnsIsSumOfReturns(hs: seq<PortfolioHolding>)
    requires forall i :: 0 <= i < |hs| ==> hs[i].returnsAmount == hs[i].currentValue - hs[i].investedAmount
    ensures PortfolioTotals(hs).totalReturns == Sum(hs, ReturnsOf)
  {
    ReturnsSum(hs);
  }

  lemma {:induction false} ReturnsSum(hs: seq<PortfolioHolding>)
    requires forall i :: 0 <= i < |hs| ==> hs[i].returnsAmount == hs[i].currentValue - hs[i].investedAmount
    ensures Sum(hs, ReturnsOf) == Sum(hs, ValueOf) - Sum(hs, InvestedOf)
  {
    if |hs| > 0 {
      ReturnsSum(hs[..|hs| - 1]);
    }
  }

  /** The holdings shown for the samples when the fund query returned results without any
      NAV: each is valued at cost, so the portfolio cost is 166662 and it shows no return. */
  lemma SamplesWithoutNavs(fetched: seq<Option<FetchedFund>>)
    requires |fetched| > 0
    requires forall i :: 0 <= i < |fetched| ==> fetched[i].None? || fetched[i].value.latestNav.None?
    ensures var t := PortfolioTotals(Update([], SampleHoldings, fetched));
      t.totalInvestment == 166662.0 && t.totalReturns == 0.0 && t.returnsPercentage == 0.0
  {
    var hs := Update([], SampleHoldings, fetched);
    forall i | 0 <= i < |hs|
      ensures hs[i].currentValue == hs[i].investedAmount
    {
      NoNavNoReturns(SampleHoldings[i], if i < |fetched| then fetched[i] else None);
    }
    AtCostSums(hs);
    SumOfFive(hs, InvestedOf);
    assert hs[0].investedAmount == 6550.0 && hs[1].investedAmount == 127500.0;
    assert hs[2].investedAmount == 7216.0 && hs[3].investedAmount == 6336.0;
    assert hs[4].investedAmount == 19060.0;
  }

  lemma SumOfFive<T>(xs: seq<T>, f: T -> real)
    requires |xs| == 5
    ensures Sum(xs, f) == f(xs[0]) + f(xs[1]) + f(xs[2]) + f(xs[3]) + f(xs[4])
  {
    assert xs[..1][..0] == [];
    assert Sum(xs[..1], f) == f(xs[0]);
    assert xs[..2][..1] == xs[..1];
    assert Sum(xs[..2], f) == Sum(xs[..1], f) + f(xs[1]);
    assert xs[..3][..2] == xs[..2];
    assert Sum(xs[..3], f) == Sum(xs[..2], f) + f(xs[2]);
    assert xs[..4][..3] == xs[..3];
    assert Sum(xs[..4], f) == Sum(xs[..3], f) + f(xs[3]);
    assert xs[..4] == xs[..|xs| - 1];
  }

  /** Holdings each valued at cost sum to the same value as their cost. */
  lemma {:induction false} AtCostSums(hs: seq<PortfolioHolding>)
    requires forall i :: 0 <= i < |hs| ==> hs[i].currentValue == hs[i].investedAmount
    ensures Sum(hs, ValueOf) == Sum(hs, InvestedOf)
  {
    if |hs| > 0 {
      AtCostSums(hs[..|hs| - 1]);
    }
  }
}

=== FILE: processing_overlay.dfy ===
/** The processing overlay shown while a statement is imported: four numbered steps,
    each drawn as done, active or pending from the current step number. */
module ProcessingOverlay {

  import opened Wrappers
  import opened Text
  import UploadModal

  datatype StepStatus = Done | Active | Pending

  /** The icon chosen for step `id`: a check when the current step is past it, a
      spinner when it is the current one, an empty circle otherwise. */
  function IconStatus(step: int, id: int): (r: StepStatus)
    ensures r == Done <==> step > id
    ensures r == Active <==> step == id
    ensures r == Pending <==> step < id
  {
    if step > id then Done else if step == id then Active else Pending
  }

  datatype TextClass = Highlighted | Muted | Faded

  /** The label's style, chosen by a chain that tests equality first. */
  function LabelClass(step: int, id: int): TextClass {
    if step == id then Highlighted else if step > id then Muted else Faded
  }

  /** The two chains agree: the label is highlighted exactly when the spinner shows,
      muted exactly when the check shows, faded exactly when the circle shows. */
  lemma LabelMatchesIcon(step: int, id: int)
    ensures LabelClass(step, id) == Highlighted <==> IconStatus(step, id) == Active
    ensures LabelClass(step, id) == Muted <==> IconStatus(step, id) == Done
    ensures LabelClass(step, id) == Faded <==> IconStatus(step, id) == Pending
  {
  }

  const Ellipsis: string := "\U{2026}"

  /** The step-3 label: `fundCount || "…"` shows the placeholder for a count of 0. */
  function ImportLabel(fundCount: nat): (r: string)
    ensures fundCount == 0 ==> r == "Importing " + Ellipsis + " funds into your portfolio" + Ellipsis
    ensures fundCount > 0 ==> r == "Importing " + NatToString(fundCount) + " funds into your portfolio" + Ellipsis
  {
    "Importing " + (if fundCount == 0 then Ellipsis else NatToString(fundCount))
    + " funds into your portfolio" + Ellipsis
  }

  function StepLabel(id: int, fundCount: nat): string
    requires 1 <= id <= 4
  {
    if id == 1 then "Decrypting file" + Ellipsis
    else if id == 2 then "Reading all mutual fund entries" + Ellipsis
    else if id == 3 then ImportLabel(fundCount)
    else "Updating dashboard" + Ellipsis
  }

  datatype StepView = StepView(id: int, caption: string, status: StepStatus, text: TextClass)

  /** The rendered overlay: nothing when closed, otherwise the four steps in order. */
  function Overlay(isOpen: bool, step: int, fundCount: nat): (r: Option<seq<StepView>>)
    ensures r.None? <==> !isOpen
    ensures r.Some? ==> |r.value| == 4
    ensures r.Some? ==> forall i :: 0 <= i < 4 ==>
              r.value[i].id == i + 1 && r.value[i].status == IconStatus(step, i + 1)
  {
    if !isOpen then None
    else Some(seq(4, i requires 0 <= i < 4 =>
      StepView(i + 1, StepLabel(i + 1, fundCount), IconStatus(step, i + 1), LabelClass(step, i + 1))))
  }

  /** The step at index `i` is the active one. */
  predicate ActiveAt(views: seq<StepView>, i: int) {
    0 <= i < |views| && views[i].status == Active
  }

  /** At most one step is active, and the done steps come first: every step before an
      active or done one is done, every step after an active or pending one is pending. */
  lemma OverlayShape(step: int, fundCount: nat)
    ensures var views := Overlay(true, step, fundCount).value;
      && (forall i, j :: ActiveAt(views, i) && ActiveAt(views, j) ==> i == j)
      && (forall i, j :: 0 <= i < j < 4 && views[j].status != Pending ==> views[i].status == Done)
      && (forall i, j :: 0 <= i < j < 4 && views[i].status != Done ==> views[j].status == Pending)
  {
  }

  /** Before the first stage every step is pending; at the last stage the first three
      are done and the fourth is active. */
  lemma OverlayEnds(fundCount: nat)
    ensures forall i :: 0 <= i < 4 ==> Overlay(true, 0, fundCount).value[i].status == Pending
    ensures forall i :: 0 <= i < 3 ==> Overlay(true, 4, fundCount).value[i].status == Done
    ensures Overlay(true, 4, fundCount).value[3].status == Active
  {
  }

  /** The count placeholder: for a count of 0 the label holds no digit. */
  lemma ZeroCountHasNoDigit(fundCount: nat)
    requires fundCount == 0
    ensures forall c :: c in StepLabel(3, fundCount) ==> !IsDigit(c)
  {
    var before := "Importing ";
    var after := " funds into your portfolio";
    assert forall c :: c in before ==> !IsDigit(c);
    assert forall c :: c in after ==> !IsDigit(c);
    assert StepLabel(3, fundCount) == before + Ellipsis + after + Ellipsis;
  }

  /** Through the upload dialog's stages the overlay advances one step at a time: at the
      k-th stage the k-th step spins, the ones before it are checked, the ones after it
      wait, and the progress rises from stage to stage. */
  lemma StagesAdvanceOneStep(fundCount: nat)
    ensures forall k :: 0 <= k < |UploadModal.Stages| ==>
              var views := Overlay(true, UploadModal.Stages[k].step, fundCount).value;
              && views[k].status == Active
              && (forall i :: 0 <= i < k ==> views[i].status == Done)
              && (forall i :: k < i < 4 ==> views[i].status == Pending)
    ensures forall k :: 0 <= k < |UploadModal.Stages| - 1 ==>
              UploadModal.Stages[k].progress < UploadModal.Stages[k + 1].progress
  {
  }
}

=== FILE: seqs.dfy ===
/** Sequence operations shared by the list-shaped state of the application:
    `Array.prototype.filter`, order-preserving subsequences, and `reduce` sums. */
module Seqs {

  /** `xs.filter(p)`. */
  function Filter<T>(xs: seq<T>, p: T -> bool): (r: seq<T>)
    ensures |r| <= |xs|
    ensures forall i :: 0 <= i < |r| ==> p(r[i])
    ensures forall x :: x in r ==> x in xs
    ensures forall x :: x in xs && p(x) ==> x in r
  {
    if |xs| == 0 then []
    else (if p(xs[0]) then [xs[0]] else []) + Filter(xs[1..], p)
  }

  /** `a` can be obtained from `b` by deleting elements, keeping the order of the rest. */
  predicate IsSubsequence<T(==)>(a: seq<T>, b: seq<T>)
    decreases |b|
  {
    if |a| == 0 then true
    else if |b| == 0 then false
    else if a[0] == b[0] then IsSubsequence(a[1..], b[1..])
    else IsSubsequence(a, b[1..])
  }

  /** A filter keeps the surviving elements in their original order. */
  lemma {:induction false} FilterIsSubsequence<T>(xs: seq<T>, p: T -> bool)
    ensures IsSubsequence(Filter(xs, p), xs)
  {
    if |xs| > 0 {
      FilterIsSubsequence(xs[1..], p);
      if p(xs[0]) {
        assert Filter(xs, p)[1..] == Filter(xs[1..], p);
      } else {
        assert Filter(xs, p) == Filter(xs[1..], p);
        SubsequenceCons(Filter(xs[1..], p), xs[1..], xs[0]);
      }
    }
  }

  lemma {:induction false} SubsequenceCons<T>(a: seq<T>, b: seq<T>, x: T)
    requires IsSubsequence(a, b)
    ensures IsSubsequence(a, [x] + b)
    decreases |b|, 1
  {
    assert ([x] + b)[1..] == b;
    if |a| > 0 && a[0] == x {
      SubsequenceDropFirst(a, b);
    }
  }

  lemma {:induction false} SubsequenceDropFirst<T>(a: seq<T>, b: seq<T>)
    requires |a| > 0 && IsSubsequence(a, b)
    ensures IsSubsequence(a[1..], b)
    decreases |b|, 0
  {
    assert [b[0]] + b[1..] == b;
    if a[0] == b[0] {
      SubsequenceCons(a[1..], b[1..], b[0]);
    } else {
      SubsequenceDropFirst(a, b[1..]);
      SubsequenceCons(a[1..], b[1..], b[0]);
    }
  }

  /** Appending to the longer sequence preserves a subsequence. */
  lemma {:induction false} SubsequenceSnoc<T>(a: seq<T>, b: seq<T>, x: T)
    requires IsSubsequence(a, b)
    ensures IsSubsequence(a, b + [x])
    decreases |b|
  {
    if |a| > 0 {
      assert (b + [x])[0] == b[0];
      assert (b + [x])[1..] == b[1..] + [x];
      if a[0] == b[0] {
        SubsequenceSnoc(a[1..], b[1..], x);
      } else {
        SubsequenceSnoc(a, b[1..], x);
      }
    }
  }

  /** Appending the same element to both sides preserves a subsequence. */
  lemma {:induction false} SubsequenceSnocBoth<T>(a: seq<T>, b: seq<T>, x: T)
    requires IsSubsequence(a, b)
    ensures IsSubsequence(a + [x], b + [x])
    decreases |b|
  {
    if |a| == 0 {
      SingletonSubsequence(b, x);
      assert a + [x] == [x];
    } else {
      assert (a + [x])[0] == a[0];
      assert (a + [x])[1..] == a[1..] + [x];
      assert (b + [x])[1..] == b[1..] + [x];
      if a[0] == b[0] {
        SubsequenceSnocBoth(a[1..], b[1..], x);
      } else {
        SubsequenceSnocBoth(a, b[1..], x);
      }
    }
  }

  lemma {:induction false} SingletonSubsequence<T>(b: seq<T>, x: T)
    ensures IsSubsequence([x], b + [x])
    decreases |b|
  {
    if |b| > 0 {
      assert (b + [x])[1..] == b[1..] + [x];
      if x == b[0] {
        assert [x][1..] == [];
      } else {
        SingletonSubsequence(b[1..], x);
      }
    }
  }

  /** Dropping the last element of the shorter sequence preserves a subsequence. */
  lemma {:induction false} SubsequenceDropLast<T>(a: seq<T>, x: T, b: seq<T>)
    requires IsSubsequence(a + [x], b)
    ensures IsSubsequence(a, b)
    decreases |b|
  {
    if |a| > 0 {
      assert (a + [x])[0] == a[0];
      assert (a + [x])[1..] == a[1..] + [x];
      if a[0] == b[0] {
        SubsequenceDropLast(a[1..], x, b[1..]);
      } else {
        SubsequenceDropLast(a, x, b[1..]);
      }
    }
  }

  /** A subsequence is no longer than the sequence it is taken from. */
  lemma {:induction false} SubsequenceLength<T>(a: seq<T>, b: seq<T>)
    requires IsSubsequence(a, b)
    ensures |a| <= |b|
    decreases |b|
  {
    if |a| > 0 {
      if a[0] == b[0] {
        SubsequenceLength(a[1..], b[1..]);
      } else {
        SubsequenceLength(a, b[1..]);
      }
    }
  }

  /** A filter that every element passes changes nothing. */
  lemma {:induction false} FilterAllPass<T>(xs: seq<T>, p: T -> bool)
    requires forall i :: 0 <= i < |xs| ==> p(xs[i])
    ensures Filter(xs, p) == xs
  {
    if |xs| > 0 {
      FilterAllPass(xs[1..], p);
    }
  }

  /** Filtering a concatenation filters each part. */
  lemma {:induction false} FilterAppend<T>(xs: seq<T>, ys: seq<T>, p: T -> bool)
    ensures Filter(xs + ys, p) == Filter(xs, p) + Filter(ys, p)
  {
    if |xs| > 0 {
      assert (xs + ys)[1..] == xs[1..] + ys;
      FilterAppend(xs[1..], ys, p);
    } else {
      assert xs + ys == ys;
    }
  }

  /** A filter that no element passes keeps nothing. */
  lemma {:induction false} FilterNonePass<T>(xs: seq<T>, p: T -> bool)
    requires forall i :: 0 <= i < |xs| ==> !p(xs[i])
    ensures Filter(xs, p) == []
  {
    if |xs| > 0 {
      FilterNonePass(xs[1..], p);
    }
  }

  /** `xs.reduce((sum, x) => sum + f(x), 0)`, summing from the left. */
  function Sum<T>(xs: seq<T>, f: T -> real): real
  {
    if |xs| == 0 then 0.0 else Sum(xs[..|xs| - 1], f) + f(xs[|xs| - 1])
  }

  lemma {:induction false} SumAppend<T>(xs: seq<T>, ys: seq<T>, f: T -> real)
    ensures Sum(xs + ys, f) == Sum(xs, f) + Sum(ys, f)
    decreases |ys|
  {
    if |ys| > 0 {
      assert (xs + ys)[..|xs + ys| - 1] == xs + ys[..|ys| - 1];
      SumAppend(xs, ys[..|ys| - 1], f);
    } else {
      assert xs + ys == xs;
    }
  }

  /** Some element passes `p` before any element passes `stop`. */
  predicate FoundBefore<T>(xs: seq<T>, p: T -> bool, stop: T -> bool) {
    exists i :: 0 <= i < |xs| && p(xs[i]) && forall k :: 0 <= k < i ==> !stop(xs[k])
  }

  /** One more element at the end can only be found before a stop when none came
      before it. */
  lemma FoundBeforeSnoc<T>(xs: seq<T>, x: T, p: T -> bool, stop: T -> bool)
    ensures FoundBefore(xs + [x], p, stop) <==>
      FoundBefore(xs, p, stop) || (p(x) && forall k :: 0 <= k < |xs| ==> !stop(xs[k]))
  {
    var all := xs + [x];
    assert forall k :: 0 <= k < |xs| ==> all[k] == xs[k];
    if FoundBefore(all, p, stop) {
      var i :| 0 <= i < |all| && p(all[i]) && forall k :: 0 <= k < i ==> !stop(all[k]);
      if i < |xs| {
        assert p(xs[i]) && forall k :: 0 <= k < i ==> !stop(xs[k]);
      } else {
        assert all[i] == x;
      }
    }
    if FoundBefore(xs, p, stop) {
      var i :| 0 <= i < |xs| && p(xs[i]) && forall k :: 0 <= k < i ==> !stop(xs[k]);
      assert p(all[i]) && forall k :: 0 <= k < i ==> !stop(all[k]);
    }
    if p(x) && forall k :: 0 <= k < |xs| ==> !stop(xs[k]) {
      assert p(all[|xs|]) && forall k :: 0 <= k < |xs| ==> !stop(all[k]);
    }
  }

  /** A non-empty sequence is its prefix followed by its last element. */
  lemma SplitLast<T>(xs: seq<T>)
    requires |xs| > 0
    ensures xs == xs[..|xs| - 1] + [xs[|xs| - 1]]
  {
  }

  lemma AppendAssoc<T>(a: seq<T>, b: seq<T>, c: seq<T>)
    ensures a + (b + c) == (a + b) + c
  {
  }
}

=== FILE: text.dfy ===
/** Character classes and string operations shared by the parsers: the pieces of
    JavaScript's `trim`, `split`, `includes`, `toLowerCase` and regular-expression
    character classes that the statement parsers rely on. */
module Text {

  import opened Wrappers

  /** The ECMAScript WhiteSpace and LineTerminator code points: what `\s` matches
      and what `String.prototype.trim` strips. */
  predicate IsSpace(c: char) {
    || c == ' ' || c == '\t' || c == '\n' || c == '\r' || c == '\U{000B}' || c == '\U{000C}'
    || c == '\U{00A0}' || c == '\U{1680}' || ('\U{2000}' <= c <= '\U{200A}')
    || c == '\U{2028}' || c == '\U{2029}' || c == '\U{202F}' || c == '\U{205F}'
    || c == '\U{3000}' || c == '\U{FEFF}'
  }

  predicate IsDigit(c: char) {
    '0' <= c <= '9'
  }

  predicate IsUpper(c: char) {
    'A' <= c <= 'Z'
  }

  predicate IsLetter(c: char) {
    IsUpper(c) || 'a' <= c <= 'z'
  }

  /** ASCII lower-casing; every other character maps to itself. For the case-insensitive
      regular expressions of pdfProcessor.ts, whose patterns are all ASCII, this folding
      decides the same matches. */
  function LowerChar(c: char): char {
    if IsUpper(c) then (c as int + 32) as char else c
  }

  function Lower(s: string): (r: string)
    ensures |r| == |s|
    ensures forall i :: 0 <= i < |s| ==> r[i] == LowerChar(s[i])
  {
    seq(|s|, i requires 0 <= i < |s| => LowerChar(s[i]))
  }

  lemma LowerIdempotent(s: string)
    ensures Lower(Lower(s)) == Lower(s)
  {
  }

  lemma LowerAppend(s: string, t: string)
    ensures Lower(s + t) == Lower(s) + Lower(t)
  {
  }

  predicate StartsWith(s: string, prefix: string) {
    |prefix| <= |s| && s[..|prefix|] == prefix
  }

  /** `sub` occurs in `s` starting at index `i`. */
  predicate OccursAt(s: string, sub: string, i: nat) {
    i + |sub| <= |s| && s[i..i + |sub|] == sub
  }

  /** `s.includes(sub)`. */
  predicate Contains(s: string, sub: string) {
    exists i :: 0 <= i <= |s| && OccursAt(s, sub, i)
  }

  /** A text contains whatever sits in its middle. */
  lemma ContainsMiddle(a: string, sub: string, b: string)
    ensures Contains(a + sub + b, sub)
  {
    assert (a + sub + b)[|a|..|a| + |sub|] == sub;
    ContainsAt(a + sub + b, sub, |a|);
  }

  /** A substring of `s` is a substring of every extension of `s`. */
  lemma ContainsExtend(s: string, t: string, sub: string)
    requires Contains(s, sub)
    ensures Contains(s + t, sub)
    ensures Contains(t + s, sub)
  {
    var i :| 0 <= i <= |s| && OccursAt(s, sub, i);
    assert (s + t)[i..i + |sub|] == s[i..i + |sub|];
    assert OccursAt(s + t, sub, i);
    assert (t + s)[|t| + i..|t| + i + |sub|] == s[i..i + |sub|];
    assert OccursAt(t + s, sub, |t| + i);
  }

  /** A substring with a character `s` lacks does not occur in `s`. */
  lemma NotContainsMissingChar(s: string, sub: string, c: char)
    requires c in sub && c !in s
    ensures !Contains(s, sub)
  {
    var j := FirstIndex(sub, c);
    forall i: nat
      ensures !OccursAt(s, sub, i)
    {
      if i + |sub| <= |s| {
        assert s[i..i + |sub|][j] == s[i + j];
      }
    }
  }

  /** A substring found at a position is contained. */
  lemma ContainsAt(s: string, sub: string, i: nat)
    requires OccursAt(s, sub, i)
    ensures Contains(s, sub)
  {
    assert i <= |s|;
  }

  /** Characters of `s` that satisfy `keep`, in order (`s.replace(/,/g, "")` when `keep`
      rejects only the comma). */
  function Keep(s: string, keep: char -> bool): (r: string)
    ensures |r| <= |s|
    ensures forall i :: 0 <= i < |r| ==> keep(r[i])
    ensures forall i :: 0 <= i < |s| && keep(s[i]) ==> s[i] in r
  {
    if |s| == 0 then ""
    else (if keep(s[0]) then [s[0]] else "") + Keep(s[1..], keep)
  }

  function RemoveCommas(s: string): (r: string)
    ensures ',' !in r
  {
    Keep(s, c => c != ',')
  }

  /** No space at either end. */
  predicate IsTrimmed(s: string) {
    |s| == 0 || (!IsSpace(s[0]) && !IsSpace(s[|s| - 1]))
  }

  /** First index at or after `i` where `p` fails, or `|s|`: the end of the run of
      `p`-characters that starts at `i`. */
  function RunEnd(s: string, i: nat, p: char -> bool): (r: nat)
    requires i <= |s|
    ensures i <= r <= |s|
    ensures forall j :: i <= j < r ==> p(s[j])
    ensures r < |s| ==> !p(s[r])
    decreases |s| - i
  {
    if i < |s| && p(s[i]) then RunEnd(s, i + 1, p) else i
  }

  /** Where the trailing white space of `s` starts, not looking before `a`. */
  function TrailStart(s: string, a: nat): (b: nat)
    requires a <= |s|
    ensures a <= b <= |s|
    ensures forall j :: b <= j < |s| ==> IsSpace(s[j])
    ensures b > a ==> !IsSpace(s[b - 1])
    decreases |s|
  {
    if |s| > a && IsSpace(s[|s| - 1]) then TrailStart(s[..|s| - 1], a) else |s|
  }

  /** `s.trim()`: the window of `s` between its leading and its trailing white space. */
  function Trim(s: string): (r: string)
    ensures OccursAt(s, r, RunEnd(s, 0, IsSpace))
    ensures IsTrimmed(r)
  {
    s[RunEnd(s, 0, IsSpace)..TrailStart(s, RunEnd(s, 0, IsSpace))]
  }

  /** Only white space is cut: every other character of `s` is inside the window. */
  lemma TrimKeepsNonSpace(s: string, i: nat)
    requires i < |s| && !IsSpace(s[i])
    ensures RunEnd(s, 0, IsSpace) <= i < RunEnd(s, 0, IsSpace) + |Trim(s)|
  {
  }

  /** Trimming keeps only characters of the text. */
  lemma TrimWithin(s: string)
    ensures forall c :: c in Trim(s) ==> c in s
  {
    var t := Trim(s);
    var k := RunEnd(s, 0, IsSpace);
    forall c | c in t
      ensures c in s
    {
      var i :| 0 <= i < |t| && t[i] == c;
      assert t[i] == s[k + i];
    }
  }

  /** Every line trimmed. */
  function TrimAll(lines: seq<string>): (r: seq<string>)
    ensures |r| == |lines|
    ensures forall i :: 0 <= i < |r| ==> r[i] == Trim(lines[i]) && IsTrimmed(r[i])
  {
    seq(|lines|, i requires 0 <= i < |lines| => Trim(lines[i]))
  }

  /** Index of the first `c` in `s`, or `|s|` when there is none. */
  function FirstIndex(s: string, c: char): (r: nat)
    ensures r <= |s|
    ensures forall j :: 0 <= j < r ==> s[j] != c
    ensures r < |s| ==> s[r] == c
  {
    if |s| == 0 then 0
    else if s[0] == c then 0
    else 1 + FirstIndex(s[1..], c)
  }

  /** `s.split(c)` for a one-character separator: the maximal separator-free pieces. */
  function Split(s: string, c: char): (r: seq<string>)
    ensures |r| >= 1
    ensures c in s <==> |r| >= 2
    decreases |s|
  {
    var i := FirstIndex(s, c);
    if i == |s| then [s]
    else [s[..i]] + Split(s[i + 1..], c)
  }

  /** The first piece of a split runs up to the first separator. */
  lemma SplitFirstPiece(s: string, c: char)
    ensures Split(s, c)[0] == s[..FirstIndex(s, c)]
  {
  }

  /** The second piece of a split runs from after the first separator up to the next
      one, or to the end. */
  lemma SplitSecondPiece(s: string, c: char)
    requires c in s
    ensures FirstIndex(s, c) < |s|
    ensures var rest := s[FirstIndex(s, c) + 1..];
            Split(s, c)[1] == rest[..FirstIndex(rest, c)]
  {
    var i := FirstIndex(s, c);
    var rest := s[i + 1..];
    assert Split(s, c) == [s[..i]] + Split(rest, c);
    SplitFirstPiece(rest, c);
  }

  /** `parts.join(c)`, the inverse of `Split`. */
  function Join(parts: seq<string>, c: char): string
  {
    if |parts| == 0 then ""
    else if |parts| == 1 then parts[0]
    else parts[0] + [c] + Join(parts[1..], c)
  }

  /** Splitting then joining with the same separator gives back the text, and no piece
      contains the separator. */
  lemma SplitJoin(s: string, c: char)
    ensures Join(Split(s, c), c) == s
    ensures forall k :: 0 <= k < |Split(s, c)| ==> c !in Split(s, c)[k]
  {
    JoinSplit(s, c);
    SplitPiecesFree(s, c);
  }

  lemma {:induction false} JoinSplit(s: string, c: char)
    ensures Join(Split(s, c), c) == s
    decreases |s|
  {
    var i := FirstIndex(s, c);
    if i < |s| {
      var tail := s[i + 1..];
      JoinSplit(tail, c);
      JoinCons(s[..i], Split(tail, c), c);
      AroundIndex(s, i);
    }
  }

  lemma JoinCons(p: string, rest: seq<string>, c: char)
    requires |rest| >= 1
    ensures Join([p] + rest, c) == p + [c] + Join(rest, c)
  {
    assert ([p] + rest)[1..] == rest;
  }

  lemma AroundIndex(s: string, i: nat)
    requires i < |s|
    ensures s[..i] + [s[i]] + s[i + 1..] == s
  {
  }

  lemma {:induction false} SplitPiecesFree(s: string, c: char)
    ensures forall k :: 0 <= k < |Split(s, c)| ==> c !in Split(s, c)[k]
    decreases |s|
  {
    var i := FirstIndex(s, c);
    if i < |s| {
      SplitPiecesFree(s[i + 1..], c);
      var rest := Split(s[i + 1..], c);
      assert Split(s, c) == [s[..i]] + rest;
      forall k | 0 <= k < |Split(s, c)|
        ensures c !in Split(s, c)[k]
      {
        if k > 0 {
          assert Split(s, c)[k] == rest[k - 1];
        }
      }
    }
  }

  /** Index of the last `c` in `s`, if any (what Python's `rsplit(c, 1)` splits at). */
  function LastIndex(s: string, c: char): (r: Option<nat>)
    ensures r.Some? ==> r.value < |s| && s[r.value] == c
    ensures r.Some? ==> forall j :: r.value < j < |s| ==> s[j] != c
    ensures r.None? ==> c !in s
  {
    if |s| == 0 then None
    else if s[|s| - 1] == c then Some(|s| - 1)
    else LastIndex(s[..|s| - 1], c)
  }

  function DigitChar(d: nat): char
    requires d < 10
  {
    ('0' as int + d) as char
  }

  /** Decimal rendering of a natural number, as `n.toString()` produces it. */
  function NatToString(n: nat): (r: string)
    ensures |r| >= 1
    ensures forall i :: 0 <= i < |r| ==> IsDigit(r[i])
    ensures n > 0 ==> r[0] != '0'
  {
    if n < 10 then [DigitChar(n)] else NatToString(n / 10) + [DigitChar(n % 10)]
  }
}

=== FILE: upload_modal.dfy ===
/** The upload dialog of src/components/Portfolio/UploadNSDLModal.tsx: its own statement
    parser `parseFunds` (a different line classifier from the one in pdfProcessor.ts,
    which emits incomplete blocks), the decryption wrapper `tryDecryptPDF`, the
    submit stage machine with its error-to-toast mapping, and the submit guard. */
module UploadModal {

  import opened Wrappers
  import opened Text
  import opened Numbers
  import opened Seqs
  import opened PdfDocument
  import opened HoldingsStore

  // ---------------------------------------------------------------------------
  // Line classes of parseFunds
  // ---------------------------------------------------------------------------

  /** A character of `[A-Za-z\s&.,'-]`. */
  predicate IsHeaderChar(c: char) {
    IsLetter(c) || IsSpace(c) || c == '&' || c == '.' || c == ',' || c == '\'' || c == '-'
  }

  /** A scheme header: only header characters, longer than 15, and neither "ISIN" nor
      "Folio" in it. */
  predicate IsFundHeader(line: string) {
    && (forall i :: 0 <= i < |line| ==> IsHeaderChar(line[i]))
    && |line| > 15
    && !Contains(line, "ISIN")
    && !Contains(line, "Folio")
  }

  /** `/^INF[0-9A-Z]{10}$/`. */
  predicate IsIsin(line: string) {
    && |line| == 13
    && line[..3] == "INF"
    && (forall i :: 3 <= i < 13 ==> IsDigit(line[i]) || IsUpper(line[i]))
  }

  /** `/^\d{1,3}(,\d{3})*(\.\d+)?$/` tested on text that has no commas left: one to
      three digits, then optionally '.' and at least one digit, and nothing else. */
  predicate IsBareNumber(t: string) {
    var a := RunEnd(t, 0, IsDigit);
    && 1 <= a <= 3
    && (a == |t| || (t[a] == '.' && a + 1 < |t| && RunEnd(t, a + 1, IsDigit) == |t|))
  }

  /** The branch of the `if / else if` chain a line takes. */
  datatype LineClass = HeaderClass | IsinClass | FolioClass | NumberClass | ValueClass | OtherClass

  function Classify(line: string): LineClass {
    if IsFundHeader(line) then HeaderClass
    else if IsIsin(line) then IsinClass
    else if Contains(line, "Folio") && ':' in line then FolioClass
    else if IsBareNumber(RemoveCommas(line)) then NumberClass
    else if Contains(line, "Value") || Contains(line, "NAV") then ValueClass
    else OtherClass
  }

  /** An ISIN line is too short to be a header, so the order of the first two tests
      never matters. */
  lemma IsinIsNeverHeader(line: string)
    requires IsIsin(line)
    ensures !IsFundHeader(line)
    ensures Classify(line) == IsinClass
  {
  }

  /** The text between the first ':' of a line and the next ':', or the end of the line. */
  function BetweenColons(line: string): string
    requires ':' in line
  {
    SplitSecondPiece(line, ':');
    var rest := line[FirstIndex(line, ':') + 1..];
    rest[..FirstIndex(rest, ':')]
  }

  /** `line.split(":")[1]?.trim() || null`: the text between the first and the second
      ':' with spaces trimmed, or null when that is empty. */
  function FolioField(line: string): (r: Option<string>)
    requires ':' in line
    ensures r.None? <==> Trim(BetweenColons(line)) == ""
    ensures r.Some? ==> r.value == Trim(BetweenColons(line))
    ensures r.Some? ==> r.value != "" && ':' !in r.value
    ensures r.Some? ==> !IsSpace(r.value[0]) && !IsSpace(r.value[|r.value| - 1])
  {
    FolioPiece(line);
    var t := Trim(Split(line, ':')[1]);
    if t == "" then None else Some(t)
  }

  /** The second piece of the split is the text between the colons, and its trimmed form
      has no ':'. */
  lemma FolioPiece(line: string)
    requires ':' in line
    ensures |Split(line, ':')| >= 2 && Split(line, ':')[1] == BetweenColons(line)
    ensures ':' !in Trim(BetweenColons(line))
  {
    SplitJoin(line, ':');
    SplitSecondPiece(line, ':');
    TrimWithin(Split(line, ':')[1]);
  }

  /** The first match of the global pattern `[\d,]+\.?\d*` in the line, if any. Every
      match starts with a digit or a comma, so the first one starts at the first such
      character, and the greedy match from there is the longest. */
  function FirstNumberToken(line: string): (r: Option<string>)
    ensures r.Some? ==> |r.value| > 0 && IsDigitOrComma(r.value[0]) && IsNumberToken(r.value)
    ensures r.Some? ==> exists j :: 0 <= j <= |line| - |r.value| && OccursAt(line, r.value, j)
                                    && (forall k :: 0 <= k < j ==> !IsDigitOrComma(line[k]))
                                    && (forall e :: j + |r.value| < e <= |line| ==> !IsNumberToken(line[j..e]))
    ensures r.None? <==> forall i :: 0 <= i < |line| ==> !IsDigitOrComma(line[i])
  {
    var j := RunEnd(line, 0, c => !IsDigitOrComma(c));
    if j < |line| then
      TokenEndIsLongestMatch(line, j);
      var t := line[j..TokenEnd(line, j)];
      assert OccursAt(line, t, j);
      assert forall k :: 0 <= k < j ==> !IsDigitOrComma(line[k]);
      Some(t)
    else None
  }

  // ---------------------------------------------------------------------------
  // The parseFunds fold
  // ---------------------------------------------------------------------------

  /** A block as the loop builds it. `currentValue` is `None` while unset and
      `Some(None)` once a line set it to NaN. */
  datatype PFund = PFund(
    schemeName: Option<string>,
    schemeCode: Option<string>,
    folioNumber: Option<string>,
    units: Option<real>,
    currentValue: Option<Option<real>>)

  const EmptyFund: PFund := PFund(None, None, None, None, None)

  /** `currentFund || {}`. */
  function Base(current: Option<PFund>): PFund {
    current.GetOr(EmptyFund)
  }

  /** What each field of a block can hold: a header name, an ISIN, a non-empty trimmed
      folio without ':', and units strictly between 0 and 1000. */
  predicate FundOk(f: PFund) {
    && (f.schemeName.Some? ==> IsFundHeader(f.schemeName.value))
    && (f.schemeCode.Some? ==> IsIsin(f.schemeCode.value))
    && (f.folioNumber.Some? ==> f.folioNumber.value != "" && ':' !in f.folioNumber.value)
    && (f.units.Some? ==> 0.0 < f.units.value < 1000.0)
  }

  /** The number of the four data fields in which two blocks differ. */
  function FieldsChanged(a: PFund, b: PFund): nat {
    (if a.schemeCode != b.schemeCode then 1 else 0)
    + (if a.folioNumber != b.folioNumber then 1 else 0)
    + (if a.units != b.units then 1 else 0)
    + (if a.currentValue != b.currentValue then 1 else 0)
  }

  /** The units a numbers-only line sets: its value without commas when it is strictly
      between 0 and 100000. The line has at most three digits before the point, so the
      value is in fact below 1000. */
  function UnitsOf(line: string): (u: Option<real>)
    requires Classify(line) == NumberClass
    ensures u.Some? ==> 0.0 < u.value < 1000.0
    ensures u.Some? <==> ParseFloat(RemoveCommas(line)).Some? && 0.0 < ParseFloat(RemoveCommas(line)).value
  {
    var t := RemoveCommas(line);
    var n := ParseFloat(t);
    if n.Some? then
      ParseFloatBelow(t, 3);
      assert Pow10(3) == 1000.0;
      if 0.0 < n.value && n.value < 100000.0 then n else None
    else None
  }

  /** `parseFloat(values[0].replace(/,/g, ""))`. */
  function ValueOf(token: string): Option<real> {
    ParseFloat(RemoveCommas(token))
  }

  /** A line that writes a field: an ISIN or folio line, a bare number with usable units,
      or a Value/NAV line with a number in it. */
  predicate SetsField(line: string) {
    match Classify(line)
    case IsinClass => true
    case FolioClass => true
    case NumberClass => UnitsOf(line).Some?
    case ValueClass => FirstNumberToken(line).Some?
    case HeaderClass => false
    case OtherClass => false
  }

  /** The effect of a line that is not a header on the current block. A line that sets a
      field when there is no block creates one; each line sets at most one field; the
      name is never touched. */
  function Apply(current: Option<PFund>, line: string): (r: Option<PFund>)
    requires !IsFundHeader(line)
    requires current.Some? ==> FundOk(current.value)
    ensures r.Some? <==> current.Some? || SetsField(line)
    ensures r.Some? ==> FundOk(r.value) && r.value.schemeName == Base(current).schemeName
    ensures r.Some? ==> FieldsChanged(Base(current), r.value) <= 1
    ensures Classify(line) == IsinClass ==> r == Some(Base(current).(schemeCode := Some(line)))
    ensures Classify(line) == FolioClass ==> r == Some(Base(current).(folioNumber := FolioField(line)))
    ensures Classify(line) == NumberClass ==>
              r == (if UnitsOf(line).Some? then Some(Base(current).(units := UnitsOf(line))) else current)
    ensures Classify(line) == ValueClass ==>
              r == (if FirstNumberToken(line).Some?
                    then Some(Base(current).(currentValue := Some(ValueOf(FirstNumberToken(line).value))))
                    else current)
    ensures Classify(line) == OtherClass ==> r == current
  {
    var base := Base(current);
    match Classify(line)
    case IsinClass => Some(SetCode(base, line))
    case FolioClass => Some(SetFolio(base, FolioField(line)))
    case NumberClass =>
      var u := UnitsOf(line);
      if u.Some? then Some(SetUnits(base, u.value)) else current
    case ValueClass =>
      (match FirstNumberToken(line)
       case Some(token) => Some(SetValue(base, ValueOf(token)))
       case None => current)
    case HeaderClass | OtherClass => current
  }

  // Each setter writes one field with a value the line allows, so the block stays
  // `FundOk` and keeps its name.

  function SetCode(base: PFund, code: string): (r: PFund)
    requires FundOk(base) && IsIsin(code)
    ensures FundOk(r) && r.schemeName == base.schemeName && FieldsChanged(base, r) <= 1
    ensures r.schemeCode == Some(code)
  {
    base.(schemeCode := Some(code))
  }

  function SetFolio(base: PFund, folio: Option<string>): (r: PFund)
    requires FundOk(base) && (folio.Some? ==> folio.value != "" && ':' !in folio.value)
    ensures FundOk(r) && r.schemeName == base.schemeName && FieldsChanged(base, r) <= 1
    ensures r.folioNumber == folio
  {
    base.(folioNumber := folio)
  }

  function SetUnits(base: PFund, units: real): (r: PFund)
    requires FundOk(base) && 0.0 < units < 1000.0
    ensures FundOk(r) && r.schemeName == base.schemeName && FieldsChanged(base, r) <= 1
    ensures r.units == Some(units)
  {
    base.(units := Some(units))
  }

  function SetValue(base: PFund, value: Option<real>): (r: PFund)
    requires FundOk(base)
    ensures FundOk(r) && r.schemeName == base.schemeName && FieldsChanged(base, r) <= 1
    ensures r.currentValue == Some(value)
  {
    base.(currentValue := Some(value))
  }

  datatype FundsState = FundsState(current: Option<PFund>, funds: seq<PFund>)

  /** All blocks so far: the pushed ones, then the open one. */
  function Blocks(st: FundsState): seq<PFund> {
    st.funds + (if st.current.Some? then [st.current.value] else [])
  }

  /** One iteration: a header pushes the open block, whatever it holds, and opens a
      named one; any other line goes to `Apply`. */
  function StepFunds(st: FundsState, line: string): FundsState
    requires st.current.Some? ==> FundOk(st.current.value)
  {
    if IsFundHeader(line) then
      FundsState(Some(EmptyFund.(schemeName := Some(line))), Blocks(st))
    else
      FundsState(Apply(st.current, line), st.funds)
  }

  /** The header lines, in order. */
  function HeaderLines(lines: seq<string>): seq<string> {
    if |lines| == 0 then []
    else HeaderLines(lines[..|lines| - 1])
         + (if IsFundHeader(lines[|lines| - 1]) then [lines[|lines| - 1]] else [])
  }

  /** The named blocks are the header lines in order, and only a first block may be
      nameless: `d` is 1 exactly when such a block exists. */
  predicate NamesMatch(blocks: seq<PFund>, headers: seq<string>) {
    var d := |blocks| - |headers|;
    && (d == 0 || d == 1)
    && (d == 1 ==> blocks[0].schemeName.None?)
    && (forall i :: d <= i < |blocks| ==> blocks[i].schemeName == Some(headers[i - d]))
  }

  lemma NamesMatchHeader(blocks: seq<PFund>, headers: seq<string>, line: string)
    requires NamesMatch(blocks, headers)
    ensures NamesMatch(blocks + [EmptyFund.(schemeName := Some(line))], headers + [line])
  {
  }

  lemma NamesMatchUpdateLast(blocks: seq<PFund>, headers: seq<string>, f: PFund)
    requires NamesMatch(blocks, headers) && |blocks| > 0
    requires f.schemeName == blocks[|blocks| - 1].schemeName
    ensures NamesMatch(blocks[..|blocks| - 1] + [f], headers)
  {
  }

  /** The loop over the lines. Every block keeps `FundOk`; only the first block can be
      nameless (one created by a field line before any header), and the named blocks
      are exactly the header lines, in order: a header always starts a block and no
      block is ever dropped. */
  function RunFunds(lines: seq<string>): (st: FundsState)
    ensures forall f :: f in Blocks(st) ==> FundOk(f)
    ensures st.current.None? ==> st.funds == []
    ensures NamesMatch(Blocks(st), HeaderLines(lines))
  {
    if |lines| == 0 then FundsState(None, [])
    else
      var prev := RunFunds(lines[..|lines| - 1]);
      var line := lines[|lines| - 1];
      var next := StepFunds(prev, line);
      if IsFundHeader(line) then
        assert HeaderLines(lines) == HeaderLines(lines[..|lines| - 1]) + [line];
        assert Blocks(next) == Blocks(prev) + [EmptyFund.(schemeName := Some(line))];
        NamesMatchHeader(Blocks(prev), HeaderLines(lines[..|lines| - 1]), line);
        next
      else
        assert HeaderLines(lines) == HeaderLines(lines[..|lines| - 1]);
        if prev.current.Some? then
          assert Blocks(prev)[..|Blocks(prev)| - 1] == prev.funds;
          assert Blocks(next) == prev.funds + [next.current.value];
          NamesMatchUpdateLast(Blocks(prev), HeaderLines(lines), next.current.value);
          next
        else
          next
  }

  /** The lines that are not empty, in order. */
  function DropEmpty(lines: seq<string>): (r: seq<string>)
    requires forall i :: 0 <= i < |lines| ==> IsTrimmed(lines[i])
    ensures forall i :: 0 <= i < |r| ==> r[i] != "" && IsTrimmed(r[i])
  {
    if |lines| == 0 then []
    else (if lines[0] == "" then [] else [lines[0]]) + DropEmpty(lines[1..])
  }

  /** `Boolean` of a string: it is not empty. */
  predicate NonBlank(s: string) {
    s != ""
  }

  /** Dropping the empty lines is the array filter with `Boolean`. */
  lemma {:induction false} DropEmptyIsFilter(lines: seq<string>)
    requires forall i :: 0 <= i < |lines| ==> IsTrimmed(lines[i])
    ensures DropEmpty(lines) == Filter(lines, NonBlank)
  {
    if |lines| > 0 {
      DropEmptyIsFilter(lines[1..]);
    }
  }

  /** `text.split("\n").map(l => l.trim()).filter(Boolean)`: every piece of the text,
      trimmed, in order, except those that trim to nothing. */
  function CleanLines(text: string): (r: seq<string>)
    ensures r == Filter(TrimAll(Split(text, '\n')), NonBlank)
    ensures IsSubsequence(r, TrimAll(Split(text, '\n')))
    ensures forall k :: 0 <= k < |Split(text, '\n')| && Trim(Split(text, '\n')[k]) != "" ==>
              Trim(Split(text, '\n')[k]) in r
    ensures forall i :: 0 <= i < |r| ==> r[i] != "" && !IsSpace(r[i][0]) && !IsSpace(r[i][|r[i]| - 1])
  {
    var trimmed := TrimAll(Split(text, '\n'));
    DropEmptyIsFilter(trimmed);
    FilterIsSubsequence(trimmed, NonBlank);
    assert forall k :: 0 <= k < |trimmed| ==> trimmed[k] in trimmed;
    DropEmpty(trimmed)
  }

  /** `parseFunds` before its final `map`: every block, complete or not. */
  function ParseFunds(text: string): (r: seq<PFund>)
    ensures forall i :: 0 <= i < |r| ==> FundOk(r[i])
    ensures |HeaderLines(CleanLines(text))| <= |r| <= |HeaderLines(CleanLines(text))| + 1
    ensures forall i :: 1 <= i < |r| ==> r[i].schemeName.Some?
  {
    Blocks(RunFunds(CleanLines(text)))
  }

  // ---------------------------------------------------------------------------
  // What the lines of a block decide
  // ---------------------------------------------------------------------------

  /** The last ISIN line, if any. */
  function LastCode(lines: seq<string>): Option<string> {
    if |lines| == 0 then None
    else if Classify(lines[|lines| - 1]) == IsinClass then Some(lines[|lines| - 1])
    else LastCode(lines[..|lines| - 1])
  }

  /** The folio written by the last folio line, if any (which may be null). */
  function LastFolio(lines: seq<string>): Option<Option<string>> {
    if |lines| == 0 then None
    else if Classify(lines[|lines| - 1]) == FolioClass then Some(FolioField(lines[|lines| - 1]))
    else LastFolio(lines[..|lines| - 1])
  }

  /** The units of the last bare-number line with usable units, if any. */
  function LastUnits(lines: seq<string>): Option<real> {
    if |lines| == 0 then None
    else if Classify(lines[|lines| - 1]) == NumberClass && UnitsOf(lines[|lines| - 1]).Some?
    then UnitsOf(lines[|lines| - 1])
    else LastUnits(lines[..|lines| - 1])
  }

  /** The value of the last Value/NAV line with a number in it, if any (which may be
      NaN). */
  function LastValue(lines: seq<string>): Option<Option<real>> {
    if |lines| == 0 then None
    else if Classify(lines[|lines| - 1]) == ValueClass && FirstNumberToken(lines[|lines| - 1]).Some?
    then Some(ValueOf(FirstNumberToken(lines[|lines| - 1]).value))
    else LastValue(lines[..|lines| - 1])
  }

  /** Inside a block, each field is decided by the last line that writes it; a field no
      line writes keeps what it had, and no block is pushed. */
  lemma {:induction false} LastFieldLineWins(pre: seq<string>, block: seq<string>)
    requires forall i :: 0 <= i < |block| ==> !IsFundHeader(block[i])
    ensures RunFunds(pre + block).funds == RunFunds(pre).funds
    ensures RunFunds(pre).current.Some? ==> RunFunds(pre + block).current.Some?
    ensures var before := Base(RunFunds(pre).current);
            var after := Base(RunFunds(pre + block).current);
      && after.schemeName == before.schemeName
      && after.schemeCode == (if LastCode(block).Some? then LastCode(block) else before.schemeCode)
      && after.folioNumber == (if LastFolio(block).Some? then LastFolio(block).value else before.folioNumber)
      && after.units == (if LastUnits(block).Some? then LastUnits(block) else before.units)
      && after.currentValue == (if LastValue(block).Some? then LastValue(block) else before.currentValue)
  {
    if |block| == 0 {
      assert pre + block == pre;
    } else {
      var init := block[..|block| - 1];
      var line := block[|block| - 1];
      LastFieldLineWins(pre, init);
      RunFundsFieldLine(pre + init, line);
      SplitLast(block);
      AppendAssoc(pre, init, [line]);
      ApplyDecides(RunFunds(pre + init).current, line);
    }
  }

  /** A line that is not a header goes to `Apply` and pushes nothing. */
  lemma RunFundsFieldLine(lines: seq<string>, line: string)
    requires !IsFundHeader(line)
    ensures RunFunds(lines + [line]) == FundsState(Apply(RunFunds(lines).current, line), RunFunds(lines).funds)
  {
    var all := lines + [line];
    assert all[..|all| - 1] == lines && all[|all| - 1] == line;
  }

  /** The field a line writes, seen on the block whether or not it existed before. */
  lemma ApplyDecides(current: Option<PFund>, line: string)
    requires !IsFundHeader(line)
    requires current.Some? ==> FundOk(current.value)
    ensures current.Some? ==> Apply(current, line).Some?
    ensures var before := Base(current);
            var after := Base(Apply(current, line));
      && after.schemeName == before.schemeName
      && after.schemeCode == (if Classify(line) == IsinClass then Some(line) else before.schemeCode)
      && after.folioNumber == (if Classify(line) == FolioClass then FolioField(line) else before.folioNumber)
      && after.units == (if Classify(line) == NumberClass && UnitsOf(line).Some? then UnitsOf(line)
                         else before.units)
      && after.currentValue == (if Classify(line) == ValueClass && FirstNumberToken(line).Some?
                                then Some(ValueOf(FirstNumberToken(line).value))
                                else before.currentValue)
  {
  }

  /** The last block of a statement is named after the last header, and each of its fields
      comes from the last line after that header that writes it, or stays unset. */
  lemma LastBlockOfStatement(text: string, pre: seq<string>, header: string, block: seq<string>)
    requires CleanLines(text) == pre + [header] + block
    requires IsFundHeader(header)
    requires forall i :: 0 <= i < |block| ==> !IsFundHeader(block[i])
    ensures |ParseFunds(text)| > 0
    ensures ParseFunds(text)[|ParseFunds(text)| - 1]
         == PFund(Some(header), LastCode(block), (if LastFolio(block).Some? then LastFolio(block).value else None),
                  LastUnits(block), LastValue(block))
  {
    ParseFundsIsBlocks(text);
    LastBlockOfLines(pre, header, block);
  }

  /** The statement's funds are the blocks of its cleaned lines. */
  lemma ParseFundsIsBlocks(text: string)
    ensures ParseFunds(text) == Blocks(RunFunds(CleanLines(text)))
  {
  }

  /** The same, for the cleaned lines themselves. */
  lemma LastBlockOfLines(pre: seq<string>, header: string, block: seq<string>)
    requires IsFundHeader(header)
    requires forall i :: 0 <= i < |block| ==> !IsFundHeader(block[i])
    ensures var bs := Blocks(RunFunds(pre + [header] + block));
      |bs| > 0 && bs[|bs| - 1]
         == PFund(Some(header), LastCode(block), (if LastFolio(block).Some? then LastFolio(block).value else None),
                  LastUnits(block), LastValue(block))
  {
    var withHeader := pre + [header];
    RunFundsHeaderLine(pre, header);
    LastFieldLineWins(withHeader, block);
    LastBlockIsCurrent(RunFunds(withHeader + block));
  }

  /** A header line pushes the open block and opens one named after itself. */
  lemma RunFundsHeaderLine(lines: seq<string>, header: string)
    requires IsFundHeader(header)
    ensures RunFunds(lines + [header]) == FundsState(Some(EmptyFund.(schemeName := Some(header))), Blocks(RunFunds(lines)))
  {
    var all := lines + [header];
    assert all[..|all| - 1] == lines && all[|all| - 1] == header;
  }

  lemma LastBlockIsCurrent(st: FundsState)
    requires st.current.Some?
    ensures |Blocks(st)| > 0 && Blocks(st)[|Blocks(st)| - 1] == Base(st.current)
  {
  }

  /** Some line writes a field before any header appears. */
  predicate FieldLineBeforeHeader(lines: seq<string>) {
    FoundBefore(lines, SetsField, IsFundHeader)
  }

  /** No header among the lines exactly when the header list is empty. */
  lemma {:induction false} NoHeaderLines(lines: seq<string>)
    ensures HeaderLines(lines) == [] <==> forall k :: 0 <= k < |lines| ==> !IsFundHeader(lines[k])
  {
    if |lines| > 0 {
      var init := lines[..|lines| - 1];
      NoHeaderLines(init);
      assert forall k :: 0 <= k < |init| ==> init[k] == lines[k];
    }
  }

  /** The loop makes one block more than there are headers exactly when a line writes a
      field before the first header: that line opens a nameless block. */
  lemma {:induction false} NamelessBlockIff(lines: seq<string>)
    ensures |Blocks(RunFunds(lines))| == |HeaderLines(lines)| + 1 <==> FieldLineBeforeHeader(lines)
  {
    if |lines| > 0 {
      var init := lines[..|lines| - 1];
      var line := lines[|lines| - 1];
      assert lines == init + [line];
      var prev := RunFunds(init);
      NamelessBlockIff(init);
      FoundBeforeSnoc(init, line, SetsField, IsFundHeader);
      NoHeaderLines(init);
      if IsFundHeader(line) {
        assert HeaderLines(lines) == HeaderLines(init) + [line];
        assert !SetsField(line);
      } else {
        assert HeaderLines(lines) == HeaderLines(init);
        if prev.current.Some? {
          assert |Blocks(RunFunds(lines))| == |Blocks(prev)|;
        } else {
          assert Blocks(prev) == [];
          assert |Blocks(RunFunds(lines))| == (if SetsField(line) then 1 else 0);
        }
      }
    }
  }

  /** `parseFunds` returns one block per header, plus a nameless first block exactly when
      a line of the statement writes a field before the first header. */
  lemma ParseFundsNamelessFirstBlock(text: string)
    ensures |ParseFunds(text)| == |HeaderLines(CleanLines(text))| + 1 <==> FieldLineBeforeHeader(CleanLines(text))
    ensures |ParseFunds(text)| == |HeaderLines(CleanLines(text))| + 1 ==> ParseFunds(text)[0].schemeName.None?
  {
    NamelessBlockIff(CleanLines(text));
  }

  /** The final `map` of `parseFunds` followed by the row mapping of `handleSubmit`:
      defaults for a missing code and name, the value written as the invested amount,
      and zeros for NAV, returns and percentage. A value line that parsed to NaN writes
      NaN (`None`) into both amount columns. */
  function ToRow(f: PFund, userId: string): (r: HoldingInput)
    ensures r.userId == userId
    ensures r.holding.schemeCode == f.schemeCode.GetOr("UNKNOWN")
    ensures r.holding.schemeName == f.schemeName.GetOr("Unknown Fund")
    ensures r.holding.folioNumber == f.folioNumber
    ensures r.holding.units == Some(f.units.GetOr(0.0))
    ensures r.holding.investedAmount == r.holding.currentValue
    ensures f.currentValue.None? ==> r.holding.currentValue == Some(0.0)
    ensures f.currentValue.Some? ==> r.holding.currentValue == f.currentValue.value
    ensures r.holding.currentNav == Some(0.0) && r.holding.returnsAmount == Some(0.0)
    ensures r.holding.returnsPercentage == Some(0.0) && r.holding.category.None?
  {
    var value := if f.currentValue.Some? then f.currentValue.value else Some(0.0);
    HoldingInput(userId, Holding(
      f.schemeCode.GetOr("UNKNOWN"),
      f.schemeName.GetOr("Unknown Fund"),
      f.folioNumber,
      Some(f.units.GetOr(0.0)),
      Some(0.0),
      value,
      value,
      Some(0.0),
      Some(0.0),
      None))
  }

  // ---------------------------------------------------------------------------
  // tryDecryptPDF
  // ---------------------------------------------------------------------------

  datatype Decrypted = Decrypted(text: string, encrypted: bool)

  /** The outcome of `tryDecryptPDF` and the passwords it handed to the PDF library, in
      order (`None` is `undefined`). */
  datatype DecryptRun = DecryptRun(result: Result<Decrypted, string>, attempts: seq<Option<string>>)

  /** `password || undefined`. */
  function PasswordArgument(password: string): Option<string> {
    if password == "" then None else Some(password)
  }

  /** `tryDecryptPDF(file, password)`, where `load` opens the file with a password. */
  function TryDecrypt(load: Option<string> -> LoadOutcome, password: string): (r: DecryptRun)
    ensures 1 <= |r.attempts| <= 2 && r.attempts[0] == PasswordArgument(password)
    ensures |r.attempts| == 2 ==> password == "" && r.attempts[1] == None
    ensures r.result.Success? ==>
      && load(r.attempts[|r.attempts| - 1]) == Loaded(r.result.value.text)
      && r.result.value.encrypted == (|r.attempts| == 1 && password != "")
    ensures load(PasswordArgument(password)).Loaded? ==> |r.attempts| == 1 && r.result.Success?
    ensures load(PasswordArgument(password)).Failed? ==>
      var e := load(PasswordArgument(password)).error;
      && ((e.name == PasswordExceptionName || Contains(e.message, "password"))
          ==> r.result == Failure("Incorrect password"))
      && ((e.name != PasswordExceptionName && !Contains(e.message, "password")
           && Contains(e.message, "InvalidPDFException"))
          ==> r.result == Failure("Invalid PDF file"))
      && ((e.name != PasswordExceptionName && !Contains(e.message, "password")
           && !Contains(e.message, "InvalidPDFException") && password != "")
          ==> r.result == Failure(e.message))
      && (|r.attempts| == 2 <==> (e.name != PasswordExceptionName && !Contains(e.message, "password")
                                  && !Contains(e.message, "InvalidPDFException") && password == ""))
  {
    var first := PasswordArgument(password);
    match load(first)
    case Loaded(text) => DecryptRun(Success(Decrypted(text, password != "")), [first])
    case Failed(e) =>
      if e.name == PasswordExceptionName || Contains(e.message, "password") then
        DecryptRun(Failure("Incorrect password"), [first])
      else if Contains(e.message, "InvalidPDFException") then
        DecryptRun(Failure("Invalid PDF file"), [first])
      else if password == "" then
        match load(None)
        case Loaded(text) => DecryptRun(Success(Decrypted(text, false)), [first, None])
        case Failed(_) => DecryptRun(Failure("Failed to parse PDF"), [first, None])
      else
        DecryptRun(Failure(e.message), [first])
  }

  /** The retry repeats the first call exactly (an empty password is already passed as
      `undefined`), so against a library that answers the same file and password the
      same way it can only turn the error into "Failed to parse PDF". */
  lemma RetryRepeatsFirstAttempt(load: Option<string> -> LoadOutcome, password: string)
    requires |TryDecrypt(load, password).attempts| == 2
    ensures TryDecrypt(load, password).attempts[0] == TryDecrypt(load, password).attempts[1]
    ensures TryDecrypt(load, password).result == Failure("Failed to parse PDF")
  {
  }

  // ---------------------------------------------------------------------------
  // handleSubmit, handleClose and isValid
  // ---------------------------------------------------------------------------

  datatype ModalState = ModalState(
    file: Option<UploadFile>,
    password: string,
    isEncrypted: bool,
    isProcessing: bool,
    processingStep: nat,
    fundCount: nat,
    progress: nat)

  /** The initial state, which is also what `handleClose` restores. */
  const Closed: ModalState := ModalState(None, "", true, false, 0, 0, 0)

  datatype Stage = Stage(step: nat, progress: nat)

  /** The stage/progress pairs `handleSubmit` sets on the way to success, in order. */
  const Stages: seq<Stage> := [Stage(1, 15), Stage(2, 40), Stage(3, 70), Stage(4, 100)]

  datatype Toast = SuccessToast(message: string) | ErrorToast(message: string)

  /** What a call of `handleSubmit` did: the final state, every stage pair it set (the
      last one is `Stage(0, 0)` after an error), the batch handed to `importHoldings`,
      the toast and whether the dialog was closed. */
  datatype SubmitRun = SubmitRun(
    state: ModalState,
    stages: seq<Stage>,
    batch: Option<seq<HoldingInput>>,
    toast: Option<Toast>,
    closed: bool)

  const PasswordToast: string := "Incorrect password for encrypted file"
  const NoDataToast: string := "No data found. Upload valid NSDL CAS."
  const FailedToast: string := "Processing failed"

  /** The error toast: "password" is tested first, then "mutual fund". */
  function ToastMessage(errorMessage: string): (r: string)
    ensures r == PasswordToast <==> Contains(errorMessage, "password")
    ensures r == NoDataToast <==> !Contains(errorMessage, "password") && Contains(errorMessage, "mutual fund")
    ensures r == PasswordToast || r == NoDataToast || r == FailedToast
  {
    if Contains(errorMessage, "password") then PasswordToast
    else if Contains(errorMessage, "mutual fund") then NoDataToast
    else FailedToast
  }

  /** "No mutual fund data found in the statement". */
  const NoFundsError: string := "No " + "mutual fund" + " data found in the statement"
  const NoUserError: string := "User not authenticated"

  /** The `catch` block: an error toast, and processing, step and progress reset. */
  function Fail(st: ModalState, stages: seq<Stage>, errorMessage: string): SubmitRun {
    SubmitRun(st.(isProcessing := false, processingStep := 0, progress := 0),
              stages + [Stage(0, 0)], None, Some(ErrorToast(ToastMessage(errorMessage))), false)
  }

  /** An error raised after the first `k` stages were set. */
  function FailAfter(st: ModalState, k: nat, errorMessage: string): (r: SubmitRun)
    requires 1 <= k <= 3
    ensures r == Fail(st, Stages[..k], errorMessage)
    ensures |r.stages| >= 2 && r.stages[0] == Stages[0]
    ensures exists j :: 1 <= j <= 3 && r.stages == Stages[..j] + [Stage(0, 0)]
    ensures !r.closed && r.batch.None? && r.toast.Some? && r.toast.value.ErrorToast?
    ensures !r.state.isProcessing && r.state.processingStep == 0 && r.state.progress == 0
    ensures r.state.fundCount == st.fundCount
    ensures r.toast == Some(ErrorToast(ToastMessage(errorMessage)))
  {
    Fail(st, Stages[..k], errorMessage)
  }

  function SuccessMessage(count: nat): string {
    "Imported " + NatToString(count) + " mutual funds successfully!"
  }

  /** `handleSubmit`, with the PDF library as `load` and the signed-in user at the time
      of the call as `user`. */
  function HandleSubmit(st: ModalState, load: Option<string> -> LoadOutcome, user: Option<string>)
    : (r: SubmitRun)
    ensures st.file.None? ==> r == SubmitRun(st, [], None, None, false)
    ensures st.file.Some? ==> |r.stages| >= 2 && r.stages[0] == Stages[0]
    ensures r.closed <==> r.batch.Some?
    ensures r.closed ==> && r.stages == Stages && r.state == Closed
                         && r.toast == Some(SuccessToast(SuccessMessage(|r.batch.value|)))
                         && |r.batch.value| > 0 && user.Some?
                         && (forall i :: 0 <= i < |r.batch.value| ==> r.batch.value[i].userId == user.value)
    ensures st.file.Some? && !r.closed ==>
      && (exists k :: 1 <= k <= 3 && r.stages == Stages[..k] + [Stage(0, 0)])
      && !r.state.isProcessing && r.state.processingStep == 0 && r.state.progress == 0
      && r.state.file == st.file && r.state.password == st.password
      && r.toast.Some? && r.toast.value.ErrorToast?
    ensures r.closed <==> && st.file.Some? && TryDecrypt(load, st.password).result.Success?
                          && |ParseFunds(TryDecrypt(load, st.password).result.value.text)| > 0
                          && user.Some?
    ensures r.closed ==>
      r.batch == Some(ToRows(ParseFunds(TryDecrypt(load, st.password).result.value.text), user.value))
  {
    if st.file.None? then SubmitRun(st, [], None, None, false)
    else
      var s1 := st.(isProcessing := true, processingStep := 1, progress := 15);
      var dec := TryDecrypt(load, st.password);
      if dec.result.Failure? then
        FailAfter(s1, 1, dec.result.error)
      else
        var s2 := s1.(isEncrypted := dec.result.value.encrypted, processingStep := 2, progress := 40);
        var funds := ParseFunds(dec.result.value.text);
        if |funds| == 0 then
          FailAfter(s2, 2, NoFundsError)
        else
          var s3 := s2.(fundCount := |funds|, progress := 70, processingStep := 3);
          if user.None? then
            FailAfter(s3, 3, NoUserError)
          else
            var rows := ToRows(funds, user.value);
            SubmitRun(Closed, Stages, Some(rows), Some(SuccessToast(SuccessMessage(|rows|))), true)
  }

  /** The final `map` of `parseFunds` with `user_id` added, as `handleSubmit` builds the
      batch. */
  function ToRows(funds: seq<PFund>, userId: string): (r: seq<HoldingInput>)
    ensures |r| == |funds|
    ensures forall i :: 0 <= i < |r| ==> r[i] == ToRow(funds[i], userId) && r[i].userId == userId
  {
    seq(|funds|, i requires 0 <= i < |funds| => ToRow(funds[i], userId))
  }

  /** `isValid`: a file, and a password unless the file is known to be unencrypted. */
  predicate IsValid(st: ModalState) {
    st.file.Some? && (!st.isEncrypted || |st.password| > 0)
  }

  /** The submit button's `disabled`. */
  predicate SubmitDisabled(st: ModalState) {
    !IsValid(st) || st.isProcessing
  }

  /** A submit the button allows always starts processing; after a failure the button is
      enabled again. */
  lemma FailedSubmitCanRetry(st: ModalState, load: Option<string> -> LoadOutcome, user: Option<string>)
    requires !SubmitDisabled(st)
    ensures HandleSubmit(st, load, user).stages != []
    ensures !HandleSubmit(st, load, user).closed ==> !SubmitDisabled(HandleSubmit(st, load, user).state)
  {
  }

  /** The error a failed first attempt to open the statement raises. */
  function FirstError(st: ModalState, load: Option<string> -> LoadOutcome): PdfError
    requires load(PasswordArgument(st.password)).Failed?
  {
    load(PasswordArgument(st.password)).error
  }

  /** A password exception, or a library message that mentions "password", ends in the
      password toast. */
  lemma PasswordErrorToast(st: ModalState, load: Option<string> -> LoadOutcome, user: Option<string>)
    requires st.file.Some? && load(PasswordArgument(st.password)).Failed?
    requires FirstError(st, load).name == PasswordExceptionName || Contains(FirstError(st, load).message, "password")
    ensures HandleSubmit(st, load, user).toast == Some(ErrorToast(PasswordToast))
  {
    var m := TryDecrypt(load, st.password).result.error;
    assert m == "Incorrect password";
    var s1 := st.(isProcessing := true, processingStep := 1, progress := 15);
    assert HandleSubmit(st, load, user) == FailAfter(s1, 1, m);
    ContainsAt(m, "password", 10);
  }

  /** A statement the library rejects as invalid is never reported as a password
      problem: it ends in the generic toast. */
  lemma InvalidPdfIsNotAPasswordError(st: ModalState, load: Option<string> -> LoadOutcome, user: Option<string>)
    requires st.file.Some? && load(PasswordArgument(st.password)).Failed?
    requires FirstError(st, load).name != PasswordExceptionName
    requires !Contains(FirstError(st, load).message, "password")
    requires Contains(FirstError(st, load).message, "InvalidPDFException")
    ensures HandleSubmit(st, load, user).toast == Some(ErrorToast(FailedToast))
  {
    var m := TryDecrypt(load, st.password).result.error;
    assert m == "Invalid PDF file";
    var s1 := st.(isProcessing := true, processingStep := 1, progress := 15);
    assert HandleSubmit(st, load, user) == FailAfter(s1, 1, m);
    InvalidPdfMessageToast();
  }

  lemma InvalidPdfMessageToast()
    ensures ToastMessage("Invalid PDF file") == FailedToast
  {
    NotContainsMissingChar("Invalid PDF file", "password", 'w');
    NotContainsMissingChar("Invalid PDF file", "mutual fund", 'm');
  }

  /** A statement in which no fund is found ends in the missing-data toast, and nothing
      is imported. */
  lemma NoFundsToast(st: ModalState, load: Option<string> -> LoadOutcome, user: Option<string>)
    requires st.file.Some? && TryDecrypt(load, st.password).result.Success?
    requires |ParseFunds(TryDecrypt(load, st.password).result.value.text)| == 0
    ensures HandleSubmit(st, load, user).toast == Some(ErrorToast(NoDataToast))
    ensures HandleSubmit(st, load, user).batch.None?
  {
    var dec := TryDecrypt(load, st.password);
    var s1 := st.(isProcessing := true, processingStep := 1, progress := 15);
    var s2 := s1.(isEncrypted := dec.result.value.encrypted, processingStep := 2, progress := 40);
    assert HandleSubmit(st, load, user) == FailAfter(s2, 2, NoFundsError);
    NoFundsMessageToast();
  }

  lemma NoFundsMessageToast()
    ensures ToastMessage(NoFundsError) == NoDataToast
  {
    NoFundsMentionsFunds();
    NoFundsOmitsPassword();
  }

  lemma NoFundsMentionsFunds()
    ensures Contains(NoFundsError, "mutual fund")
  {
    ContainsMiddle("No ", "mutual fund", " data found in the statement");
  }

  lemma NoFundsOmitsPassword()
    ensures !Contains(NoFundsError, "password")
  {
    NotContainsMissingChar(NoFundsError, "password", 'w');
  }

  lemma NoUserMessageToast()
    ensures ToastMessage(NoUserError) == FailedToast
  {
    NotContainsMissingChar(NoUserError, "password", 'w');
    NotContainsMissingChar(NoUserError, "mutual fund", 'm');
  }

  /** Funds found while nobody is signed in end in the generic toast, and nothing is
      imported. */
  lemma NoUserToast(st: ModalState, load: Option<string> -> LoadOutcome)
    requires st.file.Some? && TryDecrypt(load, st.password).result.Success?
    requires |ParseFunds(TryDecrypt(load, st.password).result.value.text)| > 0
    ensures HandleSubmit(st, load, None).toast == Some(ErrorToast(FailedToast))
    ensures HandleSubmit(st, load, None).batch.None?
    ensures HandleSubmit(st, load, None).state.fundCount
            == |ParseFunds(TryDecrypt(load, st.password).result.value.text)|
  {
    var dec := TryDecrypt(load, st.password);
    var funds := ParseFunds(dec.result.value.text);
    var s1 := st.(isProcessing := true, processingStep := 1, progress := 15);
    var s2 := s1.(isEncrypted := dec.result.value.encrypted, processingStep := 2, progress := 40);
    var s3 := s2.(fundCount := |funds|, progress := 70, processingStep := 3);
    assert HandleSubmit(st, load, None) == FailAfter(s3, 3, NoUserError);
    NoUserMessageToast();
  }
}

=== FILE: watchlist.dfy ===
/** The watchlist page and its tree table: removing a fund from the list, and the set of
    rows whose details are expanded. */
module Watchlist {

  import opened KeyedLists

  datatype WatchlistFund = WatchlistFund(
    id: string, schemeName: string, currentNav: real, change: real, changePercentage: real, category: string)

  function IdOf(f: WatchlistFund): string { f.id }

  /** `handleRemoveFromWatchlist`. */
  function Remove(funds: seq<WatchlistFund>, id: string): seq<WatchlistFund> {
    RemoveById(funds, IdOf, id)
  }

  /** The page shows its empty state. */
  predicate ShowsEmptyState(funds: seq<WatchlistFund>) {
    |funds| == 0
  }

  /** After a removal the empty state shows exactly when every fund carried the removed
      id. */
  lemma EmptyAfterRemoveIff(funds: seq<WatchlistFund>, id: string)
    ensures ShowsEmptyState(Remove(funds, id)) <==> forall i :: 0 <= i < |funds| ==> funds[i].id == id
  {
    if !ShowsEmptyState(Remove(funds, id)) {
      var f := Remove(funds, id)[0];
      assert f in funds;
      var j :| 0 <= j < |funds| && funds[j] == f;
      assert funds[j].id != id;
    } else {
      forall i | 0 <= i < |funds|
        ensures funds[i].id == id
      {
        assert funds[i] in funds;
      }
    }
  }

  /** `toggleExpand`: the id's membership flips and no other id's changes. */
  function ToggleExpand(expanded: set<string>, id: string): (r: set<string>)
    ensures id in r <==> id !in expanded
    ensures forall other :: other != id ==> (other in r <==> other in expanded)
  {
    if id in expanded then expanded - {id} else expanded + {id}
  }

  /** Toggling the same row twice restores the set. */
  lemma ToggleTwice(expanded: set<string>, id: string)
    ensures ToggleExpand(ToggleExpand(expanded, id), id) == expanded
  {
  }

  /** Toggles of two different rows commute. */
  lemma TogglesCommute(expanded: set<string>, a: string, b: string)
    ensures ToggleExpand(ToggleExpand(expanded, a), b) == ToggleExpand(ToggleExpand(expanded, b), a)
  {
  }

  datatype Chevron = ChevronDown | ChevronRight

  /** The row's chevron: down for an expanded row. */
  function ChevronFor(expanded: set<string>, id: string): (c: Chevron)
    ensures c == ChevronDown <==> id in expanded
  {
    if id in expanded then ChevronDown else ChevronRight
  }

  /** A click on a row's chevron turns it over and leaves every other row's as it was. */
  lemma ClickFlipsChevron(expanded: set<string>, id: string, other: string)
    requires other != id
    ensures ChevronFor(ToggleExpand(expanded, id), id) != ChevronFor(expanded, id)
    ensures ChevronFor(ToggleExpand(expanded, id), other) == ChevronFor(expanded, other)
  {
  }
}

=== FILE: weekly_digest.dfy ===
/** The weekly digest function: from a user's watchlist it computes the total NAV, the
    average change, the three best performers and the count. The database read comes in
    as a parameter: the rows, or the error it raised. */
module WeeklyDigest {

  import opened Wrappers
  import opened Seqs

  datatype WatchItem = WatchItem(schemeName: string, currentNav: real, changePercentage: real)

  function Nav(w: WatchItem): real { w.currentNav }
  function Change(w: WatchItem): real { w.changePercentage }

  /** Ordered by change, largest first. */
  predicate SortedByChangeDesc(xs: seq<WatchItem>) {
    forall i, j :: 0 <= i < j < |xs| ==> xs[i].changePercentage >= xs[j].changePercentage
  }

  /** Places `x` after every item whose change is at least its own, so that items with
      equal changes keep their order. */
  function Insert(x: WatchItem, sorted: seq<WatchItem>): (r: seq<WatchItem>)
    requires SortedByChangeDesc(sorted)
    ensures SortedByChangeDesc(r)
    ensures multiset(r) == multiset(sorted) + multiset{x}
    ensures |r| == |sorted| + 1
    ensures r[0] == x || (|sorted| > 0 && r[0] == sorted[0])
  {
    if |sorted| == 0 then [x]
    else if sorted[0].changePercentage < x.changePercentage then
      ConsSorted(x, sorted);
      [x] + sorted
    else
      var rest := Insert(x, sorted[1..]);
      assert sorted == [sorted[0]] + sorted[1..];
      ConsSorted(sorted[0], rest);
      [sorted[0]] + rest
  }

  /** An item with a change at least the first one's can go in front. */
  lemma ConsSorted(y: WatchItem, xs: seq<WatchItem>)
    requires SortedByChangeDesc(xs)
    requires |xs| > 0 ==> y.changePercentage >= xs[0].changePercentage
    ensures SortedByChangeDesc([y] + xs)
  {
    var r := [y] + xs;
    forall i, j | 0 <= i < j < |r|
      ensures r[i].changePercentage >= r[j].changePercentage
    {
      if i > 0 {
        assert r[i] == xs[i - 1] && r[j] == xs[j - 1];
      } else {
        assert r[j] == xs[j - 1];
      }
    }
  }

  /** The sort of the watchlist by its numeric change percentage, largest first; the
      engine's sort is stable, so items with equal changes keep their order. */
  function SortByChange(xs: seq<WatchItem>): (r: seq<WatchItem>)
    ensures SortedByChangeDesc(r)
    ensures multiset(r) == multiset(xs)
    ensures |r| == |xs|
  {
    if |xs| == 0 then []
    else
      assert xs == xs[..|xs| - 1] + [xs[|xs| - 1]];
      var r := Insert(xs[|xs| - 1], SortByChange(xs[..|xs| - 1]));
      assert |r| == |multiset(r)|;
      r
  }

  datatype Digest = Digest(totalValue: real, avgChange: real, topGainers: seq<WatchItem>, watchlistCount: nat)

  function Min(a: nat, b: nat): nat { if a <= b then a else b }

  /** The digest of a watchlist. The average divides by `length || 1`, so an empty list
      averages 0. */
  function MakeDigest(watchlist: seq<WatchItem>): (r: Digest)
    ensures r.totalValue == Sum(watchlist, Nav)
    ensures |watchlist| > 0 ==> r.avgChange * |watchlist| as real == Sum(watchlist, Change)
    ensures |watchlist| == 0 ==> r.avgChange == 0.0
    ensures |r.topGainers| == Min(3, |watchlist|)
    ensures SortedByChangeDesc(r.topGainers)
    ensures r.watchlistCount == |watchlist|
  {
    var sorted := SortByChange(watchlist);
    Digest(Sum(watchlist, Nav),
           Sum(watchlist, Change) / (if |watchlist| == 0 then 1 else |watchlist|) as real,
           sorted[..Min(3, |watchlist|)],
           |watchlist|)
  }

  /** The top gainers are drawn from the watchlist, and every one of them has changed at
      least as much as every item left out: the selection and the rest together are the
      whole watchlist. */
  lemma TopGainersAreTheBest(watchlist: seq<WatchItem>)
    ensures var sorted := SortByChange(watchlist);
      var k := Min(3, |watchlist|);
      && MakeDigest(watchlist).topGainers == sorted[..k]
      && multiset(sorted[..k]) + multiset(sorted[k..]) == multiset(watchlist)
      && forall i, j :: 0 <= i < k <= j < |sorted| ==> sorted[i].changePercentage >= sorted[j].changePercentage
  {
    var sorted := SortByChange(watchlist);
    var k := Min(3, |watchlist|);
    assert sorted[..k] + sorted[k..] == sorted;
  }

  /** Every selected gainer is an item of the watchlist. */
  lemma TopGainersFromWatchlist(watchlist: seq<WatchItem>)
    ensures forall x :: x in MakeDigest(watchlist).topGainers ==> x in watchlist
  {
    var sorted := SortByChange(watchlist);
    forall x | x in MakeDigest(watchlist).topGainers
      ensures x in watchlist
    {
      assert x in sorted;
      assert x in multiset(sorted);
    }
  }

  /** The function's answer: the digest, or the read error's message (status 500). */
  datatype Answer = DigestAnswer(digest: Digest) | ErrorAnswer(message: string)

  function Handle(read: Result<seq<WatchItem>, string>): (r: Answer)
    ensures read.Failure? ==> r == ErrorAnswer(read.error)
    ensures read.Success? ==> r == DigestAnswer(MakeDigest(read.value))
  {
    match read
    case Failure(m) => ErrorAnswer(m)
    case Success(w) => DigestAnswer(MakeDigest(w))
  }
}

=== FILE: wrappers.dfy ===
/** Option and Result, the two failure-carrying shapes used throughout the model.
    `Option<real>` doubles as a JavaScript number that may be NaN: `None` is NaN. */
module Wrappers {

  datatype Option<+T> = None | Some(value: T) {

    /** The wrapped value, or `default` when there is none. */
    function GetOr(default: T): T {
      match this
      case Some(v) => v
      case None => default
    }
  }

  /** The outcome of an operation that can throw: `Failure` carries the error's message. */
  datatype Result<+R, +E> = Success(value: R) | Failure(error: E)
}
